=== FILE: README.md ===
# chord-me core, modelled in Dafny

chord-me is a Next.js web application for reading and playing guitar
chord sheets scraped from song sites. This project models the parts of it
that do text and list processing, and proves properties of those models:

- **Transposition** (`src/utils/transpose.ts`):
  - the twelve-name chromatic table `SCALES` and the flat-to-sharp table
    `FLATS`;
  - `normalizeNote`, `transposeChord`, `transposeHtml` (a global
    replace of every `CHORD_REGEX` match) and `detectKey`.
- **Lyric-sheet parsing** (`src/utils/lyricsParser.ts`):
  - `parseRawHtml`, which turns the song's HTML into blockquote lines and
    lyric lines;
  - `parseLyricLine`, which splits a paragraph into chord/text groups;
  - `detectKeyFromLines`, which guesses the key from the first chord, or
    from the first blockquote via the key pattern
    `\b([A-G][#b]?)(m|maj|7|sus|add)*\b`.
- **The older chord parser** (`src/lib/chord-parser.ts`): the blockquote
  wrapper and the paragraph segmenter.
- **The playlist** (`src/components/sidebar/PlaylistTab.tsx`,
  `src/components/songSidebar.tsx`): drag-and-drop reordering
  (`handleDragEnd`) and the row icons (`getIcon`).
- **The key picker** (`src/components/KeySelector.tsx`): `ALL_KEYS` and
  the rotation that centres the original key.
- **Key extraction** (`src/components/songSidebar.tsx`):
  `extractKeyFromHtml` reads the key of an imported song from a key label,
  else from the first chord, else defaults to `C`.

The regular expressions are modelled by a small backtracking matcher
(`Regex`). Its patterns are sequences of `\b`, alternations of literals and
starred alternations, with the options tried in source order, as
JavaScript does. The matcher is proved sound and complete against a
declarative grammar predicate. `String.prototype.replace` with a global
pattern is `TokenReplace.ReplaceTokens`: a left-to-right scan that replaces
each match and resumes after it. The DOM is a plain tree (`Dom`), and
`querySelector` is proved to return the first match in document order.

Modules, one per file: `Wrappers`, `JsString`, `Pitch`, `Regex`,
`ChordRegex`, `Markup`, `TokenReplace`, `Transpose`, `Dom`, `Paragraph`,
`LyricsParser`, `KeyRegex`, `LyricKey`, `ChordParser`, `Playlist`,
`KeySelector`, `KeyExtract`.

Two clean-ups of a chord name remove `m` before `maj`, so a major chord
such as `Cmaj7` loses only its `m`; see "## Findings". In each case the
model keeps the code as written and also a corrected variant, and states
what each returns.

## Model

| member | source | states |
|---|---|---|
| Pitch.ScaleNameIsScales | src/utils/transpose.ts:3 | Name k of the character-level table is entry k of `SCALES`. |
| Pitch.FlatsShape | src/utils/transpose.ts:4 | The keys of `FLATS` are exactly the two-character flat spellings of D, E, G, A and B. |
| Pitch.NormalizeNoteSpec | src/utils/transpose.ts:7-9 | Only those five flats change, each into a name with the same pitch class; every other string is returned unchanged. |
| Pitch.KeyIndex | src/utils/transpose.ts:49-50 | The index of a note name lies between -1 and 11; when found, the table name at that index is the normalised note. |
| Pitch.KeyIndexIsIndexOf | src/utils/transpose.ts:49-50 | The character-level lookup equals `SCALES.indexOf(normalizeNote(note))`. |
| Pitch.ScalesArePitchClasses | src/utils/transpose.ts:3 | Every table entry is a natural or sharp root whose pitch class is its own index, and the lookup finds it there. |
| Pitch.NormalizePreservesPitch | src/utils/transpose.ts:3-9 | A root spelling is found exactly when it is not E#, B#, Cb or Fb, and the index found is its pitch class. |
| Pitch.KnownKeyIsRoot | src/utils/transpose.ts:49-52 | Any name the lookup accepts is a root spelling: a letter A-G and at most one `#` or `b`. |
| JsString.IndexOfSpec | src/components/KeySelector.tsx:19 | `indexOf` is -1 exactly when the element is absent; otherwise it is the first position holding it. |
| JsString.RemainderWrap | src/utils/transpose.ts:39-40 | JavaScript's remainder, with 12 added when negative, is the residue modulo 12. |
| JsString.Trim | src/components/songSidebar.tsx:163 | `trim` returns the middle of the string: a slice preceded and followed only by whitespace, itself neither starting nor ending with whitespace; a string without whitespace at its ends is returned as it is. |
| JsString.BeforeSlash | src/utils/lyricsParser.ts:120 | `split('/')[0]` is a prefix without a slash that is followed by a slash unless it is the whole string. |
| JsString.RemoveDigitsSpec | src/utils/lyricsParser.ts:120 | `replace(/[0-9]/g, '')` leaves no digit, keeps every other character, adds none and never lengthens the text; a text without digits comes back unchanged. With `RemoveDigitsConcat`, each other character stays exactly once and in order. |
| JsString.RemoveDigitsConcat | src/utils/lyricsParser.ts:120 | Removing the digits of two texts joined is removing them from each and joining the results, so the characters that survive keep their order. |
| Regex.MatchSound | src/utils/transpose.ts:12 | Every end position the backtracking matcher reports is a string of the pattern's grammar. |
| Regex.MatchComplete | src/utils/transpose.ts:12 | Whenever the grammar admits some match at a position, the matcher finds one. |
| Regex.Chosen | src/utils/lyricsParser.ts:129 | A capture around an alternation reports the first option spelled there that lets the rest match; it is absent exactly when the alternation fails. |
| Regex.ChosenFirst | src/utils/lyricsParser.ts:129 | The reported option is the first in source order that is spelled there and lets the rest match, every earlier option failing one of the two; when none is reported, no option does. |
| Regex.FirstMatch | src/utils/transpose.ts:16 | The first position where the pattern matches, with the match's end; none exactly when no position matches. |
| ChordRegex.ChordPatternShaped | src/utils/transpose.ts:12 | `CHORD_REGEX` is well formed, spelled in the chord alphabet, and starts with `\b` and one letter A-G. |
| ChordRegex.TokenAtGrammar | src/utils/transpose.ts:12 | A chord match is found at a position exactly when the grammar admits one there, and what is found is admitted. |
| ChordRegex.ChordAt | src/utils/transpose.ts:12 | A chord match is non-empty, starts with a letter at a word boundary, and consists of chord characters only. |
| ChordRegex.TokenShape | src/utils/transpose.ts:12 | Inside a chord match, the character after the root (a letter and at most one accidental) starts a quality, an extension or a slash bass; it is never a second accidental. |
| ChordRegex.SharpOutsideToken | src/utils/transpose.ts:12 | A letter at a word boundary followed by `#` and then by the end or a non-word character other than `/` matches as the letter alone: the closing `\b` fails after `#`, so the `#` stays outside the chord. |
| ChordRegex.FirstChord | src/utils/transpose.ts:16-17 | The first chord match of the page; none exactly when no position matches. |
| TokenReplace.ReplaceCopiesUpTo | src/utils/transpose.ts:58 | A global replace copies the text before the next match unchanged. |
| TokenReplace.ReplaceFirstToken | src/utils/transpose.ts:58 | The result is the text before the first match, the replacement of that match, then the rest replaced. |
| TokenReplace.ReplacePreservesMarkup | src/utils/transpose.ts:56-58 | A replacer that maps chord text to chord text leaves every character outside the chord alphabet (the HTML markup) as it was. |
| Transpose.SplitRootSpec | src/utils/transpose.ts:28-29 | `^([A-G][b#]?)(.*)$` fails exactly on an empty string, a first character outside A-G, or a line terminator later; the suffix has no line terminator; the accidental is taken greedily. |
| Transpose.SplitRootJoin | src/utils/transpose.ts:28-32 | Splitting a root followed by a suffix gives back the root and the suffix. |
| Transpose.TransposeChord | src/utils/transpose.ts:26-43 | A chord that does not start with a letter, or whose root is unknown, is returned as it is; otherwise the root becomes the table name of the root's pitch class moved by n semitones, and the suffix is kept. |
| Transpose.TransposeChordZero | src/utils/transpose.ts:26-43 | Transposing by 0 only respells the five flat roots as sharps. |
| Transpose.TransposeChordPeriodic | src/utils/transpose.ts:39-40 | Transposing by n + 12 is transposing by n. |
| Transpose.TransposeChordInverse | src/utils/transpose.ts:26-43 | Transposing by n and then by -n is transposing by 0, for a chord whose suffix does not begin with an accidental. |
| Transpose.ChordTokenInverse | src/utils/transpose.ts:26-43 | Every chord match meets the hypothesis of the inverse law, so transposing a matched chord by n and then by -n gives what offset 0 gives. |
| Transpose.TransposeScaleName | src/utils/transpose.ts:35-42 | A table name plus a suffix moves to the table name n steps further round the circle. |
| Transpose.TransposeChordExamples | src/utils/transpose.ts:27 | `Am7` up 2 is `Bm7`, and `D/F#` up 2 is `E/F#`: the bass after the slash is left alone. |
| Transpose.TransposeChordWrapExamples | src/utils/transpose.ts:39-40 | `B` up 1 is `C` and `C` down 1 is `B`. |
| Transpose.TransposeChordUnknownExamples | src/utils/transpose.ts:29-36 | `E#` and `Hm` are returned unchanged. |
| Transpose.TransposedTokenInAlphabet | src/utils/transpose.ts:58 | A transposed chord token is still chord text. |
| Transpose.KeyOffset | src/utils/transpose.ts:47-54 | There is no offset exactly when a key is empty, the keys are equal, or a key is unknown; otherwise it lies in -11..11 and carries the original key's index to the target's. |
| Transpose.KeyOffsetMovesKey | src/utils/transpose.ts:46-58 | Transposing the original key by the offset gives the normalised target key. |
| Transpose.ChordTokens | src/utils/transpose.ts:58 | The matches the replace scans are exactly the `CHORD_REGEX` matches; each ends after it starts and is chord text. |
| Transpose.TransposeHtml | src/utils/transpose.ts:46-59 | With no offset, or no chord anywhere, the page is unchanged; in every case all markup outside chord text is preserved. |
| Transpose.TransposeHtmlFirstToken | src/utils/transpose.ts:58 | The text before the first chord is kept, and the first chord is transposed by the offset. |
| Transpose.RootOf | src/utils/transpose.ts:19 | `^[A-G][b#]?` on a match is a greedy root-spelling prefix of it. |
| Transpose.DetectKey | src/utils/transpose.ts:15-23 | The detected key is always a root spelling, and `C` when the page has no chord. |
| Transpose.DetectKeyReadsFirstToken | src/utils/transpose.ts:15-23 | The detected key is the normalised root of the first chord match. |
| Dom.QueryFirstIsFirstInOrder | src/utils/lyricsParser.ts:33 | The `querySelector` walk returns the first matching element in document order. |
| Dom.KeepAttrs | src/utils/lyricsParser.ts:45-49 | The attributes kept are exactly those whose name does not start with `on`. |
| Dom.KeepAttrsConcat | src/utils/lyricsParser.ts:45-49 | The survivors of two attribute lists are those of the first followed by those of the second, so the filter keeps the original order. |
| Dom.StripElements | src/utils/lyricsParser.ts:42-50 | The elements of the cleaned copy are the cleaned elements, one for one. |
| Dom.StripRemovesEvents | src/utils/lyricsParser.ts:42-50 | After the clean-up no element has an event-handler attribute. |
| Dom.StripKeepsText | src/utils/lyricsParser.ts:39-50 | The clean-up keeps the text. |
| Dom.StripIdempotent | src/utils/lyricsParser.ts:42-50 | Cleaning a cleaned copy changes nothing. |
| Paragraph.RunsAreMarkers | src/utils/lyricsParser.ts:82-97 | The segments of a paragraph end at its chord spans, one segment per span, in order. |
| Paragraph.RunsCoverText | src/utils/lyricsParser.ts:82-97 | The segment texts and the trailing text together are the paragraph's direct text. |
| Paragraph.RunAtMarker | src/utils/lyricsParser.ts:82-97 | The span at child j closes segment number "spans before j", whose text is what was gathered from the children before j since the previous span. |
| Paragraph.TrailingAfterLastMarker | src/utils/lyricsParser.ts:82-106 | The text gathered at the end is the direct text after the last chord span, or all the direct text when there is no span. |
| LyricsParser.GroupIdInjective | src/utils/lyricsParser.ts:90 | Different group numbers give different ids `g-<n>`. |
| LyricsParser.ParseLyricLine | src/utils/lyricsParser.ts:77-109 | The loop computes the paragraph's groups. |
| LyricsParser.LyricGroupsMeaning | src/utils/lyricsParser.ts:77-109 | There is one group per chord span, plus a final chordless group exactly when text trails the last span; group k has id `g-k`, and its chord is span k's text; the group of the span at child j holds the text gathered since the previous span. |
| LyricsParser.LyricGroupsText | src/utils/lyricsParser.ts:82-106 | The group texts together are the paragraph's direct text: nothing is lost or repeated. |
| LyricsParser.LyricGroupsEmpty | src/utils/lyricsParser.ts:99-108 | A paragraph has no groups exactly when it has no chord span and no text. |
| LyricsParser.ParseRawHtml | src/utils/lyricsParser.ts:15-75 | Empty input gives no lines; every line kept is a blockquote or a lyric with at least one group. Which container children give lines, and in which order, is stated by `LinesOfOne` and `LinesOfConcat`. |
| LyricsParser.LinesOfSpec | src/utils/lyricsParser.ts:34-74 | Every line comes from a child of the container that yields one, there are no more lines than children, and there are none exactly when no child yields one. |
| LyricsParser.LinesOfOne | src/utils/lyricsParser.ts:34-74 | A single child gives its line when it yields one (a blockquote, or a paragraph with groups), and nothing otherwise. |
| LyricsParser.LinesOfConcat | src/utils/lyricsParser.ts:34-74 | The lines of two runs of children are the lines of the first followed by those of the second: document order is kept and no kept line is dropped. |
| LyricsParser.BlockquoteIsClean | src/utils/lyricsParser.ts:38-56 | A blockquote line is its cleaned copy's inner HTML; the copy has no event handlers and the same text, and an already clean blockquote is kept as is. |
| LyricKey.FirstChordOf | src/utils/lyricsParser.ts:116-121 | The chord of the first group whose chord is present and non-empty; none exactly when there is no such group. |
| LyricKey.FirstKey | src/utils/lyricsParser.ts:111-137 | The key of the first line that yields one, or the empty string when no line does. |
| LyricKey.BlockquoteKeyIsRoot | src/utils/lyricsParser.ts:126-133 | A key read from a blockquote is always a root spelling. |
| LyricKey.CleanKeepsRoot | src/utils/lyricsParser.ts:120 | The clean-up never touches the root at the front of a chord. |
| LyricKey.CleanLyricChordExamples | src/utils/lyricsParser.ts:119-120 | `Asus4` is cleaned to `A` and `C#m` to `C#`. |
| LyricKey.CleanIsRootAsWritten | src/utils/lyricsParser.ts:120 | As written, a chord spelled root, quality (`m`, `maj`, `sus` or none), digits and optional bass is cleaned to its root, except that `maj` leaves `aj` behind. |
| LyricKey.CorrectedCleanIsRoot | src/utils/lyricsParser.ts:117-121 | With `maj` removed before `m`, every such chord is cleaned to its root. |
| LyricKey.CleanMajorSeventh | src/utils/lyricsParser.ts:120 | As written, a root followed by `maj7` is cleaned to the root and `aj`. |
| LyricKey.CorrectedCleanMajorSeventh | src/utils/lyricsParser.ts:120 | Corrected, a root followed by `maj7` is cleaned to the root. |
| LyricKey.DetectKeyMajorSheet | src/utils/lyricsParser.ts:111-122 | A sheet whose first chord is a major chord gets the key root + `aj` as written, and the root once corrected. |
| KeyRegex.RootCapture | src/utils/lyricsParser.ts:129 | For any pattern opening with `\b`, a single-letter alternation and an optional-accidental alternation, the capture around the two exists exactly when the pattern matches; it is a root spelled at the match's start, inside the match. |
| KeyRegex.KeyRootAt | src/utils/lyricsParser.ts:129-131 | The captured root exists exactly when the key pattern matches; it is a root spelled at the match's start, inside the match. |
| KeyRegex.AccidentalChoice | src/utils/lyricsParser.ts:129 | `[#b]?` is greedy: it takes `#` or `b` exactly when one follows and the rest of the pattern still matches after it. |
| KeyRegex.RootGreedy | src/utils/lyricsParser.ts:129 | A captured root has two characters exactly when `#` or `b` follows the letter and the rest of the pattern still matches after it. |
| KeyRegex.KeyRootGreedy | src/utils/lyricsParser.ts:129 | For the key pattern, the root carries an accidental exactly when `#` or `b` follows the letter and the quality loop and closing `\b` still match after it. |
| KeyRegex.BlockquoteRoot | src/utils/lyricsParser.ts:129-132 | The blockquote key is a root spelling; there is none exactly when the pattern matches nowhere; otherwise it is the root captured at the leftmost position where the pattern matches. |
| ChordParser.UnwrapParseBlockquote | src/lib/chord-parser.ts:7-10 | The content can be read back out of the wrapper. |
| ChordParser.ParseBlockquoteInjective | src/lib/chord-parser.ts:7-10 | Different contents give different wrapped HTML. |
| ChordParser.ParseLyricsLine | src/lib/chord-parser.ts:13-41 | Null exactly when the document has no `p`; otherwise the pairs of the first `p`. |
| ChordParser.LinePairsMeaning | src/lib/chord-parser.ts:20-40 | One pair per chord span plus a final pair with an empty chord and the trailing text, always present; the pair of the span at child j holds the text gathered since the previous span; the texts together are the direct text. |
| ChordParser.SegmentersAgree | src/lib/chord-parser.ts:24-38 | This segmenter and `parseLyricLine` agree group for group; they differ only in the final pair, which is kept here even when its text is empty. |
| Playlist.HandleDragEnd | src/components/sidebar/PlaylistTab.tsx:46-79 | The list is updated exactly when a drag and a drop target are both set and the drop is not next to the dragged row; the update is a permutation of the same length. |
| Playlist.MoveItem | src/components/sidebar/PlaylistTab.tsx:68-74 | Moving an item keeps the length and the items, and puts the moved item at the landing index. |
| Playlist.MoveItemKeepsOrder | src/components/sidebar/PlaylistTab.tsx:68-74 | The other items keep their relative order. |
| Playlist.MoveItemInverse | src/components/sidebar/PlaylistTab.tsx:68-74 | Moving the item back restores the list. |
| Playlist.DragEndPlacesRow | src/components/songSidebar.tsx:80-91 | The dragged row lands directly above the target row for a top-half drop and directly below it for a bottom-half drop; dropping a row on itself changes nothing. |
| Playlist.GetIcon | src/components/sidebar/PlaylistTab.tsx:82-89 | The drag handle is shown exactly when the type is not one of `talk`, `break`, `note`. |
| Playlist.GetIconDistinguishesCues | src/components/sidebar/PlaylistTab.tsx:82-89 | Each cue type has an icon no other type shares. |
| KeySelector.AllKeysArePitches | src/components/KeySelector.tsx:4 | Key number k of `ALL_KEYS` is k semitones above C. |
| KeySelector.StartIndex | src/components/KeySelector.tsx:24-27 | The start index is in range and lies 5 places before the original key, wrapping round. |
| KeySelector.Rotate | src/components/KeySelector.tsx:29-32 | The two slices joined put element start + k (wrapping) at position k. |
| KeySelector.ReorderedKeys | src/components/KeySelector.tsx:18-33 | The row has twelve keys; a listed original key sits at position 5, and an unlisted one leaves the list as it is. |
| KeySelector.ReorderedKeysPermutes | src/components/KeySelector.tsx:18-33 | The row holds exactly the keys of `ALL_KEYS`. |
| KeySelector.ReorderedKeysRotates | src/components/KeySelector.tsx:24-32 | Button k shows key number i + k - 5 (wrapping) when the original key is key number i. |
| KeySelector.ReorderedKeysChromatic | src/components/KeySelector.tsx:18-33 | The row is a chromatic scale: button k is k - 5 semitones from the original key. |
| KeySelector.SharpNamesNotCentred | src/components/KeySelector.tsx:19-20 | `D#`, `G#` and `A#`, the names the transposer produces, are not listed, so for them the row is not rotated. |
| KeyExtract.QualityTokensAreRegex | src/components/songSidebar.tsx:165 | The character-level finder reports exactly the matches of the alternation `m`, `maj`, `7`, `sus`, `add`, tried in that order, at each position. |
| KeyExtract.QualityTokensCorrectedAreRegex | src/components/songSidebar.tsx:165 | The corrected finder reports exactly the matches of the same alternation with `maj` tried before `m`. |
| KeyExtract.EraseKeepsOnly | src/components/songSidebar.tsx:165 | A replace with `''` adds nothing: every character left stood where no match starts. |
| KeyExtract.LabelKey | src/components/songSidebar.tsx:157 | The label's key is the label with every "key" (any case) erased and the whitespace at both ends then removed: a slice of the erased text with only whitespace around it, neither starting nor ending with whitespace. |
| KeyExtract.LabelKeyPlain | src/components/songSidebar.tsx:157 | A label with no `k` or `K` is only trimmed. |
| KeyExtract.LabelKeyDropsWord | src/components/songSidebar.tsx:157 | A label that starts with "key" in any case, with no other `k`, is the rest of it, trimmed. |
| KeyExtract.ChordKey | src/components/songSidebar.tsx:163-165 | A key read from a chord contains no `m`, no slash and no digit. |
| KeyExtract.ChordKeyOfSpelled | src/components/songSidebar.tsx:165 | A chord spelled root, quality (`m`, `maj`, `sus`, `add` or none), digits and bass yields its root, except that as written `maj` yields root + `aj`. |
| KeyExtract.MajorSeventhKeyAsWritten | src/components/songSidebar.tsx:165 | As written, a root followed by `maj7` yields the root and `aj`. |
| KeyExtract.MajorSeventhKeyCorrected | src/components/songSidebar.tsx:165 | With `maj` tried first, a root followed by `maj7` yields the root. |
| KeyExtract.FirstText | src/components/songSidebar.tsx:155-156 | The text of the first element in document order carrying the class, when that text is not empty; none when no element carries the class or the first one's text is empty. |
| KeyExtract.ExtractKey | src/components/songSidebar.tsx:149-169 | Outside a browser the key is `C`; a usable label wins and gives its text with every "key" erased and then trimmed (`LabelKey`); otherwise the first chord's trimmed text passed through the chord clean-up (`ChordKey`), which leaves no `m`, slash or digit; with neither a label nor a chord it is `C`. |
| KeyExtract.ExtractKeyFromLabel | src/components/songSidebar.tsx:155-158 | A label reading "Key" and then a key name without `k` gives that name, trimmed, whatever the chords say. |
| KeyExtract.ExtractKeyFromChord | src/components/songSidebar.tsx:161-166 | Without a label, a first chord spelled root, quality, digits and bass gives its root (root + `aj` for a major chord, as written). |

## Left out

- `DOMParser.parseFromString` and `innerHTML` are function parameters (`parse`, `serialize`); the HTML tokeniser and serialiser are taken as given.
- The regex sanitiser at `src/utils/lyricsParser.ts:19-27` (script, iframe and `on…=` removal on the raw string) is folded into the `parse` parameter. Only the DOM-level attribute clean-up is modelled.
- Class selectors compare class names exactly (`Dom.Selects`). `DOMParser` puts a page without a doctype in quirks mode, where `querySelector('.name')` matches class names ASCII case-insensitively, so a `class="C_Chord"` would also be selected at `src/components/songSidebar.tsx:161`, `src/components/songSidebar.tsx:155` and `src/utils/lyricsParser.ts:33`; that case-insensitive match is not modelled. `classList.contains` (`src/utils/lyricsParser.ts:87`) is case-sensitive in every mode and is modelled as it is.
- `querySelector` on a parsed document searches the `head` and `body` trees; the `html` element itself is not searched (it never carries the classes used).
- `innerText` is modelled as `textContent`: documents from `DOMParser` are not rendered, so the two agree except on layout-dependent whitespace.
- JavaScript numbers are unbounded integers here; semitone offsets never come near 2^53.
- Strings are sequences of characters; UTF-16 surrogate pairs, Unicode case folding and `\s` beyond the listed whitespace set are not modelled.
- `typeof window === 'undefined'` is the boolean parameter `inBrowser` of `KeyExtract.ExtractKey`.
- React state (`setDropTarget`, `dragItem`, `onUpdatePlaylist`, the opacity reset) is not modelled; `Playlist.HandleDragEnd` returns the new list or nothing. In `src/components/songSidebar.tsx:76-79` the null case does not reset `dragItem`, unlike `PlaylistTab.tsx`; that is state only.
- Playlist.HandleDragEnd: requires both indices to be rows of the list, which the rendered rows guarantee; `splice` with out-of-range indices is not modelled.
- `ChordGroup.type` is always `'pair'` and is not stored.
- `FLATS` is an object literal, so inherited keys such as `toString` give a truthy non-note; `SCALES.indexOf` then still yields -1, so a five-entry map gives the same results.
- `src/components/sidebar/songSidebar.tsx` is an older copy of the sidebar and is not part of this model; the other components (viewer, auto-scroll, cue modal, API routes) are not part of this model either.
- `detectKeyFromLines` returns the empty string when no line yields a key (`src/utils/lyricsParser.ts:136`); `LyricKey.FirstKey` does the same, and the callers that supply a default are not part of this model.

## Findings

| source | as written | input that shows it | evidently intended | confidence | as-written member | corrected member |
|---|---|---|---|---|---|---|
| src/utils/lyricsParser.ts:120 | `replace('m', '')` runs before `replace('maj', '')`, so the `m` of `maj` is removed and `aj` stays | a first lyric chord `Cmaj7` gives the key `Caj` | the root `C`, as the comment's examples `Asus4` → `A` and `C#m` → `C#` intend | high; not executed | LyricKey.CleanMajorSeventh | LyricKey.CorrectedCleanMajorSeventh |
| src/components/songSidebar.tsx:165 | the alternation of `m`, `maj`, `7`, `sus` and `add` tries `m` first, so `maj` never matches and `aj` stays | a first `.c_chord` reading `Cmaj7` gives the key `Caj` | the root `C`, as the comment about removing `m`, `7` and `maj` says | high; not executed | KeyExtract.MajorSeventhKeyAsWritten | KeyExtract.MajorSeventhKeyCorrected |

=== FILE: chord_parser.dfy ===
/** The older line parser: a blockquote wrapper and a lyric-line splitter
    that pairs every chord with the text before it. */
module ChordParser {
  import opened Wrappers
  import opened Dom
  import opened Paragraph
  import LyricsParser

  const WrapperOpen: string := "<div class=\"bg-gray-100 p-4 rounded-lg my-4 italic text-pink-600\">"

  const WrapperClose: string := "</div>"

  /** `parseBlockquote`: the content inside the styled box. */
  function ParseBlockquote(content: string): (r: string)
    ensures |r| == |WrapperOpen| + |content| + |WrapperClose|
  {
    WrapperOpen + content + WrapperClose
  }

  /** Recovers the content of a box made by `ParseBlockquote`. */
  function Unwrap(html: string): (r: Option<string>)
    ensures r.Some? ==> |html| == |WrapperOpen| + |r.value| + |WrapperClose|
  {
    var n := |html|;
    if n >= |WrapperOpen| + |WrapperClose|
       && html[..|WrapperOpen|] == WrapperOpen && html[n - |WrapperClose|..] == WrapperClose
    then Some(html[|WrapperOpen|..n - |WrapperClose|])
    else None
  }

  /** The box keeps its content verbatim: unwrapping gives it back. */
  lemma UnwrapParseBlockquote(content: string)
    ensures Unwrap(ParseBlockquote(content)) == Some(content)
  {
    var h := ParseBlockquote(content);
    assert h[..|WrapperOpen|] == WrapperOpen;
    assert h[|h| - |WrapperClose|..] == WrapperClose;
    assert h[|WrapperOpen|..|h| - |WrapperClose|] == content;
  }

  /** So distinct contents give distinct boxes. */
  lemma ParseBlockquoteInjective(a: string, b: string)
    requires ParseBlockquote(a) == ParseBlockquote(b)
    ensures a == b
  {
    UnwrapParseBlockquote(a);
    UnwrapParseBlockquote(b);
  }

  /** A chord and the text sung before it; the last pair has no chord. */
  datatype ChordPair = ChordPair(chord: string, text: string)

  /** The pairs closed by the markers: the marker's text and the text
      gathered before it. */
  function ClosedPairs(rs: seq<Run>): (r: seq<ChordPair>)
    ensures |r| == |rs|
  {
    seq(|rs|, k requires 0 <= k < |rs| => ChordPair(TextContent(rs[k].marker), rs[k].text))
  }

  /** What `parseLyricsLine` returns for a paragraph with children `ns`:
      the closed pairs and, always, a last chordless pair with the trailing
      text (possibly empty). */
  function LinePairs(ns: seq<Node>): seq<ChordPair> {
    ClosedPairs(Runs(ns)) + [ChordPair("", Trailing(ns))]
  }

  lemma ClosedPairsSnoc(rs: seq<Run>, last: Run)
    ensures ClosedPairs(rs + [last]) == ClosedPairs(rs) + [ChordPair(TextContent(last.marker), last.text)]
  {
    var a, b := ClosedPairs(rs + [last]), ClosedPairs(rs) + [ChordPair(TextContent(last.marker), last.text)];
    assert forall k :: 0 <= k < |a| ==> a[k] == b[k];
  }

  /** `parseLyricsLine`. `parse` stands for `DOMParser`; the line is the
      first `p` element of the parsed document, and there is no result
      without one. An element's `innerText` is its text content, the
      document never being rendered. */
  method ParseLyricsLine(lineHtml: string, parse: string -> Document) returns (r: Option<seq<ChordPair>>)
    ensures r.None? <==> QueryDocument(parse(lineHtml), ByTag("P")).None?
    ensures r.Some? ==> r.value == LinePairs(QueryDocument(parse(lineHtml), ByTag("P")).value.children)
  {
    var doc := parse(lineHtml);
    var p := QueryDocument(doc, ByTag("P"));
    if p.None? {
      return None;
    }
    var children := p.value.children;
    var result: seq<ChordPair> := [];
    var currentText := "";
    var i := 0;
    while i < |children|
      invariant 0 <= i <= |children|
      invariant result == ClosedPairs(Runs(children[..i]))
      invariant currentText == Trailing(children[..i])
    {
      var node := children[i];
      assert children[..i + 1] == children[..i] + [node];
      if node.Text? {
        currentText := currentText + node.data;
      } else if node.Element? && "c_chord" in node.classes {
        ClosedPairsSnoc(Runs(children[..i]), Run(node, currentText));
        result := result + [ChordPair(TextContent(node), currentText)];
        currentText := "";
      }
      i := i + 1;
    }
    assert children[..i] == children;
    result := result + [ChordPair("", currentText)];
    return Some(result);
  }

  /** The concatenated texts of a list of pairs. */
  function PairText(ps: seq<ChordPair>): string {
    if |ps| == 0 then "" else PairText(ps[..|ps| - 1]) + ps[|ps| - 1].text
  }

  lemma {:induction false} ClosedPairsText(rs: seq<Run>)
    ensures PairText(ClosedPairs(rs)) == RunText(rs)
    decreases |rs|
  {
    if |rs| > 0 {
      var init := rs[..|rs| - 1];
      assert rs == init + [rs[|rs| - 1]];
      ClosedPairsSnoc(init, rs[|rs| - 1]);
      ClosedPairsText(init);
      var ps := ClosedPairs(rs);
      assert ps[..|ps| - 1] == ClosedPairs(init);
    }
  }

  /** What the pairs mean: one per chord marker, in order, with that
      marker's text and the text gathered since the previous marker, then
      one chordless pair; the pair texts together are
      the paragraph's text. */
  lemma LinePairsMeaning(ns: seq<Node>)
    ensures var ps, ms := LinePairs(ns), Markers(ns);
            && |ps| == |ms| + 1
            && (forall k :: 0 <= k < |ms| ==> ps[k].chord == TextContent(ms[k]))
            && ps[|ms|] == ChordPair("", Trailing(ns))
            && PairText(ps) == DirectText(ns)
            && (forall j :: 0 <= j < |ns| && IsMarker(ns[j])
                  ==> |Markers(ns[..j])| < |ms| && ps[|Markers(ns[..j])|].text == Trailing(ns[..j]))
  {
    RunsAreMarkers(ns);
    RunsCoverText(ns);
    var rs := Runs(ns);
    ClosedPairsText(rs);
    var ps := LinePairs(ns);
    assert ps[..|ps| - 1] == ClosedPairs(rs);
    forall k | 0 <= k < |rs| ensures ps[k].chord == TextContent(rs[k].marker) {
      assert ps[k] == ClosedPairs(rs)[k];
    }
    forall j | 0 <= j < |ns| && IsMarker(ns[j]) 
      ensures |Markers(ns[..j])| < |Markers(ns)| && ps[|Markers(ns[..j])|].text == Trailing(ns[..j])
    {
      RunAtMarker(ns, j);
      assert ps[|Markers(ns[..j])|] == ClosedPairs(rs)[|Markers(ns[..j])|];
    }
  }

  /** The two segmenters agree: the groups of the newer parser are the
      pairs of this one, with the chord wrapped and numbered, and with the
      last pair kept only when its text is not empty. */
  lemma SegmentersAgree(ns: seq<Node>)
    ensures var ps, gs := LinePairs(ns), LyricsParser.LyricGroups(ns);
            && |gs| == (if ps[|ps| - 1].text == "" then |ps| - 1 else |ps|)
            && (forall k :: 0 <= k < |ps| - 1 ==>
                  gs[k] == LyricsParser.ChordGroup(LyricsParser.GroupId(k), ps[k].text, Some(ps[k].chord)))
            && (|gs| == |ps| ==> gs[|ps| - 1] == LyricsParser.ChordGroup(LyricsParser.GroupId(|ps| - 1), ps[|ps| - 1].text, None))
  {
    var rs := Runs(ns);
    var ps, gs := LinePairs(ns), LyricsParser.LyricGroups(ns);
    forall k | 0 <= k < |rs|
      ensures gs[k] == LyricsParser.ChordGroup(LyricsParser.GroupId(k), ps[k].text, Some(ps[k].chord))
    {
      assert gs[k] == LyricsParser.ClosedGroups(rs)[k];
      assert ps[k] == ClosedPairs(rs)[k];
    }
  }
}

=== FILE: chord_regex.dfy ===
/** `CHORD_REGEX` of src/utils/transpose.ts as a pattern for the matcher,
    with the facts the rewrite relies on: every token starts at a word
    boundary with a letter A-G and is spelled in the chord alphabet. */
module ChordRegex {
  import opened Wrappers
  import opened Regex
  import opened Pitch
  import opened Markup

  const Letters: seq<string> := ["A", "B", "C", "D", "E", "F", "G"]

  const Accidentals: seq<string> := ["b", "#", ""]

  const Qualities: seq<string> := ["m", "maj", "dim", "aug", "sus", "add", ""]

  const Extensions: seq<string> := ["7", "9", "11", "13", ""]

  /** `\/[A-G][b#]?` as literals: for each letter, the accidental is
      tried before its absence, as the greedy `?` does. */
  function SlashOptions(letters: seq<string>): (r: seq<string>)
    ensures |r| == 3 * |letters|
  {
    if |letters| == 0 then []
    else ["/" + letters[0] + "b", "/" + letters[0] + "#", "/" + letters[0]] + SlashOptions(letters[1..])
  }

  lemma {:induction false} SlashOptionsSpelled(letters: seq<string>, alphabet: set<char>)
    requires OptionsWithin(letters, alphabet) && '/' in alphabet && 'b' in alphabet && '#' in alphabet
    ensures OptionsWithin(SlashOptions(letters), alphabet)
  {
    if |letters| > 0 {
      assert letters[0] in letters;
      assert forall o :: o in letters[1..] ==> o in letters;
      SlashOptionsSpelled(letters[1..], alphabet);
    }
  }

  /** The optional slash bass `(?:\/[A-G][b#]?)?`. */
  const BassOptions: seq<string> := SlashOptions(Letters) + [""]

  /** `\b[A-G][b#]?(?:m|maj|dim|aug|sus|add)?(?:7|9|11|13)?(?:\/[A-G][b#]?)?\b`. */
  const ChordPattern: seq<Piece> :=
    [WordBoundary, Alt(Letters), Alt(Accidentals), Alt(Qualities), Alt(Extensions), Alt(BassOptions), WordBoundary]

  /** What the rewrite relies on about the pattern: it is well formed,
      spelled in the chord alphabet, and starts with `\b` and one letter
      A-G. */
  predicate ChordShaped(ps: seq<Piece>) {
    && WellFormed(ps) && WithinAlphabet(ps, ChordAlphabet)
    && |ps| >= 2 && ps[0] == WordBoundary && ps[1].Alt?
    && forall o :: o in ps[1].options ==> |o| == 1 && IsLetter(o[0])
  }

  lemma ChordPatternShaped()
    ensures ChordShaped(ChordPattern)
  {
    ChordPatternWellFormed();
    ChordPatternSpelled();
    LettersAreLetters();
  }

  lemma LettersAreLetters()
    ensures forall o :: o in Letters ==> |o| == 1 && IsLetter(o[0])
  {
  }

  lemma ChordPatternWellFormed()
    ensures WellFormed(ChordPattern)
  {
    forall p | p in ChordPattern ensures PieceOk(p) {
      var k :| 0 <= k < |ChordPattern| && ChordPattern[k] == p;
    }
  }

  lemma LettersSpelled()
    ensures OptionsWithin(Letters, ChordAlphabet)
  {
    assert SpelledAll(Letters, ChordAlphabet);
    SpelledAllMeans(Letters, ChordAlphabet);
  }

  lemma AccidentalsSpelled()
    ensures OptionsWithin(Accidentals, ChordAlphabet)
  {
    assert SpelledAll(Accidentals, ChordAlphabet);
    SpelledAllMeans(Accidentals, ChordAlphabet);
  }

  lemma QualitiesSpelled()
    ensures OptionsWithin(Qualities, ChordAlphabet)
  {
    assert SpelledAll(Qualities, ChordAlphabet);
    SpelledAllMeans(Qualities, ChordAlphabet);
  }

  lemma ExtensionsSpelled()
    ensures OptionsWithin(Extensions, ChordAlphabet)
  {
    assert SpelledAll(Extensions, ChordAlphabet);
    SpelledAllMeans(Extensions, ChordAlphabet);
  }

  lemma BassOptionsSpelled()
    ensures OptionsWithin(BassOptions, ChordAlphabet)
  {
    LettersSpelled();
    SlashOptionsSpelled(Letters, ChordAlphabet);
    assert forall o :: o in BassOptions ==> o in SlashOptions(Letters) || o == "";
  }

  lemma ChordPatternSpelled()
    ensures WithinAlphabet(ChordPattern, ChordAlphabet)
  {
    LettersSpelled();
    AccidentalsSpelled();
    QualitiesSpelled();
    ExtensionsSpelled();
    BassOptionsSpelled();
    forall p | p in ChordPattern && !p.WordBoundary? ensures OptionsWithin(p.options, ChordAlphabet) {
      var k :| 0 <= k < |ChordPattern| && ChordPattern[k] == p;
    }
  }

  /** The end of the token a chord-shaped pattern matches at `p`, if any;
      with `ChordPattern`, the token JavaScript finds there. */
  function TokenAt(s: string, p: nat, ps: seq<Piece>): (r: Option<nat>)
    requires p <= |s| && ChordShaped(ps)
    ensures r.Some? ==> p < r.value <= |s| && IsLetter(s[p]) && IsBoundary(s, p)
    ensures r.Some? ==> forall t :: p <= t < r.value ==> InChordAlphabet(s[t])
  {
    var r := Match(s, p, ps);
    if r.Some? then
      MatchSound(s, p, ps);
      AcceptsWithinAlphabet(s, p, r.value, ps, ChordAlphabet);
      TokenStartsWithLetter(s, p, r.value, ps);
      r
    else r
  }

  lemma TokenStartsWithLetter(s: string, p: nat, j: nat, ps: seq<Piece>)
    requires p <= j <= |s| && ChordShaped(ps) && Accepts(s, p, j, ps)
    ensures p < j && IsLetter(s[p]) && IsBoundary(s, p)
  {
    var rest := ps[1..];
    assert Accepts(s, p, j, rest);
    var o :| o in ps[1].options && LiteralAt(s, p, o) && p + |o| <= j && Accepts(s, p + |o|, j, rest[1..]);
    assert s[p] == o[0];
  }

  /** A token is found at `p` exactly when the pattern's grammar admits some
      string there, and what is found is a string of the grammar. */
  lemma TokenAtGrammar(s: string, p: nat, ps: seq<Piece>)
    requires p <= |s| && ChordShaped(ps)
    ensures TokenAt(s, p, ps).Some? ==> Accepts(s, p, TokenAt(s, p, ps).value, ps)
    ensures TokenAt(s, p, ps).None? <==> forall j :: p <= j <= |s| ==> !Accepts(s, p, j, ps)
  {
    MatchSound(s, p, ps);
    if TokenAt(s, p, ps).None? {
      forall j | p <= j <= |s| ensures !Accepts(s, p, j, ps) {
        if Accepts(s, p, j, ps) {
          MatchComplete(s, p, j, ps);
        }
      }
    } else {
      assert Accepts(s, p, TokenAt(s, p, ps).value, ps);
    }
  }

  /** The end of the token `CHORD_REGEX` matches at `p`, if any. */
  function ChordAt(s: string, p: nat): (r: Option<nat>)
    requires p <= |s|
    ensures r.Some? ==> p < r.value <= |s| && IsLetter(s[p]) && IsBoundary(s, p)
    ensures r.Some? ==> ChordText(s[p..r.value])
  {
    ChordPatternShaped();
    var r := TokenAt(s, p, ChordPattern);
    if r.Some? then SliceChordText(s, p, r.value); r else r
  }

  /** The characters a non-empty quality, extension or bass option starts
      with; none of them is an accidental. */
  const TailStarts: set<char> := {'m', 'd', 'a', 's', '7', '9', '1', '/'}

  /** The pieces after the root: quality, extension, bass, boundary. */
  const AfterRoot: seq<Piece> := [Alt(Qualities), Alt(Extensions), Alt(BassOptions), WordBoundary]

  /** Every non-empty option of `os` starts with a character of `cs`. */
  predicate StartsWithin(os: seq<string>, cs: set<char>) {
    forall o :: o in os && o != "" ==> o[0] in cs
  }

  /** Pieces that are optional alternations followed by one closing
      boundary. */
  predicate OptionalAltsThenBoundary(ps: seq<Piece>, cs: set<char>) {
    && |ps| > 0 && ps[|ps| - 1] == WordBoundary
    && forall k :: 0 <= k < |ps| - 1 ==> ps[k].Alt? && "" in ps[k].options && StartsWithin(ps[k].options, cs)
  }

  lemma {:induction false} SlashOptionsStart(letters: seq<string>)
    ensures StartsWithin(SlashOptions(letters), {'/'})
  {
    if |letters| > 0 {
      SlashOptionsStart(letters[1..]);
    }
  }

  lemma ChordPatternSplits()
    ensures ChordPattern == [WordBoundary, Alt(Letters), Alt(Accidentals)] + AfterRoot
  {
  }

  /** `StartsWithin` one option at a time, in a form the verifier can
      evaluate on literal options. */
  function StartsAll(os: seq<string>, cs: set<char>): bool {
    |os| == 0 || ((os[0] == "" || os[0][0] in cs) && StartsAll(os[1..], cs))
  }

  lemma {:induction false} StartsAllMeans(os: seq<string>, cs: set<char>)
    requires StartsAll(os, cs)
    ensures StartsWithin(os, cs)
  {
    if |os| > 0 {
      StartsAllMeans(os[1..], cs);
      assert forall o :: o in os ==> o == os[0] || o in os[1..];
    }
  }

  lemma {:induction false} StartsWithinConcat(a: seq<string>, b: seq<string>, cs: set<char>)
    requires StartsWithin(a, cs) && StartsWithin(b, cs)
    ensures StartsWithin(a + b, cs)
  {
    assert forall o :: o in a + b ==> o in a || o in b;
  }

  lemma QualitiesStart()
    ensures StartsWithin(Qualities, TailStarts) && "" in Qualities
  {
    assert StartsAll(Qualities, TailStarts);
    StartsAllMeans(Qualities, TailStarts);
    assert Qualities[6] == "";
  }

  lemma ExtensionsStart()
    ensures StartsWithin(Extensions, TailStarts) && "" in Extensions
  {
    assert StartsAll(Extensions, TailStarts);
    StartsAllMeans(Extensions, TailStarts);
    assert Extensions[4] == "";
  }

  lemma BassStart()
    ensures StartsWithin(BassOptions, TailStarts) && "" in BassOptions
  {
    SlashOptionsStart(Letters);
    assert StartsWithin(SlashOptions(Letters), TailStarts);
    assert StartsAll([""], TailStarts);
    StartsAllMeans([""], TailStarts);
    StartsWithinConcat(SlashOptions(Letters), [""], TailStarts);
    assert BassOptions[|BassOptions| - 1] == "";
  }

  lemma AfterRootShaped()
    ensures OptionalAltsThenBoundary(AfterRoot, TailStarts)
  {
    QualitiesStart();
    ExtensionsStart();
    BassStart();
    ThreeOptionalAlts(Qualities, Extensions, BassOptions, TailStarts);
  }

  lemma ThreeOptionalAlts(a: seq<string>, b: seq<string>, c: seq<string>, cs: set<char>)
    requires "" in a && "" in b && "" in c
    requires StartsWithin(a, cs) && StartsWithin(b, cs) && StartsWithin(c, cs)
    ensures OptionalAltsThenBoundary([Alt(a), Alt(b), Alt(c), WordBoundary], cs)
  {
  }

  /** What optional alternations and a closing boundary accept is either
      empty, at a word boundary, or starts with a character of `cs`. */
  lemma {:induction false} OptionalAltsAccept(s: string, q: nat, j: nat, ps: seq<Piece>, cs: set<char>)
    requires q <= j <= |s| && OptionalAltsThenBoundary(ps, cs) && Accepts(s, q, j, ps)
    ensures q == j ==> IsBoundary(s, q)
    ensures q < j ==> s[q] in cs
    decreases |ps|
  {
    if |ps| == 1 {
      assert ps[0] == WordBoundary;
      assert Accepts(s, q, j, ps[1..]);
    } else {
      assert ps[0].Alt?;
      var o :| o in ps[0].options && LiteralAt(s, q, o) && q + |o| <= j && Accepts(s, q + |o|, j, ps[1..]);
      if o != "" {
        assert s[q] == o[0];
      } else {
        assert forall k :: 0 <= k < |ps[1..]| - 1 ==> ps[1..][k] == ps[k + 1];
        OptionalAltsAccept(s, q, j, ps[1..], cs);
      }
    }
  }

  /** Optional alternations and a closing boundary accept the empty string
      at a word boundary. */
  lemma {:induction false} OptionalAltsAcceptEmpty(s: string, q: nat, ps: seq<Piece>, cs: set<char>)
    requires q <= |s| && OptionalAltsThenBoundary(ps, cs) && IsBoundary(s, q)
    ensures Accepts(s, q, q, ps)
    decreases |ps|
  {
    if |ps| == 1 {
      assert ps[1..] == [];
    } else {
      assert forall k :: 0 <= k < |ps[1..]| - 1 ==> ps[1..][k] == ps[k + 1];
      OptionalAltsAcceptEmpty(s, q, ps[1..], cs);
      assert "" in ps[0].options && LiteralAt(s, q, "");
    }
  }

  /** A string of a `\b`, one-character letters, accidentals, tail
      pattern is a letter option, an accidental option, then the tail. */
  lemma RootSplits(s: string, p: nat, j: nat, ls: seq<string>, acc: seq<string>, tail: seq<Piece>)
    requires p <= j <= |s| && Accepts(s, p, j, [WordBoundary, Alt(ls), Alt(acc)] + tail)
    requires forall o :: o in ls ==> |o| == 1
    ensures p < j && [s[p]] in ls
    ensures exists a :: a in acc && LiteralAt(s, p + 1, a) && p + 1 + |a| <= j && Accepts(s, p + 1 + |a|, j, tail)
  {
    var t2 := [Alt(acc)] + tail;
    var t1 := [Alt(ls)] + t2;
    assert [WordBoundary, Alt(ls), Alt(acc)] + tail == [WordBoundary] + t1;
    AcceptsBoundary(s, p, j, t1);
    AcceptsAlt(s, p, j, ls, t2);
    var o :| o in ls && LiteralAt(s, p, o) && p + |o| <= j && Accepts(s, p + |o|, j, t2);
    assert o == [s[p]] && p + |o| == p + 1;
    assert Accepts(s, p + 1, j, t2);
    AcceptsAlt(s, p + 1, j, acc, tail);
    var a :| a in acc && LiteralAt(s, p + 1, a) && p + 1 + |a| <= j && Accepts(s, p + 1 + |a|, j, tail);
  }

  lemma RootJoins(s: string, p: nat, j: nat, ls: seq<string>, acc: seq<string>, a: string, tail: seq<Piece>)
    requires p + 1 + |a| <= j <= |s| && IsBoundary(s, p) && [s[p]] in ls
    requires a in acc && LiteralAt(s, p + 1, a) && Accepts(s, p + 1 + |a|, j, tail)
    ensures Accepts(s, p, j, [WordBoundary, Alt(ls), Alt(acc)] + tail)
  {
    var t2 := [Alt(acc)] + tail;
    var t1 := [Alt(ls)] + t2;
    assert [WordBoundary, Alt(ls), Alt(acc)] + tail == [WordBoundary] + t1;
    AcceptsAlt(s, p + 1, j, acc, tail);
    assert Accepts(s, p + 1, j, t2);
    assert LiteralAt(s, p, [s[p]]) && p + |[s[p]]| == p + 1;
    AcceptsAlt(s, p, j, ls, t2);
    assert Accepts(s, p, j, t1);
    AcceptsBoundary(s, p, j, t1);
  }

  /** The token `CHORD_REGEX` matches at `p` is a string of its grammar. */
  lemma ChordAtAccepts(s: string, p: nat)
    requires p <= |s| && ChordAt(s, p).Some?
    ensures Accepts(s, p, ChordAt(s, p).value, ChordPattern)
  {
    ChordPatternShaped();
    TokenAtGrammar(s, p, ChordPattern);
  }

  /** Accidental options: empty or one accidental character. */
  predicate AccidentalOptions(acc: seq<string>) {
    forall a :: a in acc && a != "" ==> |a| == 1 && IsAccidental(a[0])
  }

  lemma AccidentalsShape()
    ensures AccidentalOptions(Accidentals) && "" in Accidentals
    ensures forall c :: c in TailStarts ==> !IsAccidental(c)
  {
    assert Accidentals[2] == "";
  }

  /** After a letter and the accidental option `a`, a tail that starts
      with no accidental: the character after the root is not a second
      accidental. */
  lemma RootThenTail(s: string, p: nat, j: nat, a: string, acc: seq<string>, tail: seq<Piece>, cs: set<char>)
    requires p + 1 + |a| <= j <= |s| && a in acc && LiteralAt(s, p + 1, a) && Accepts(s, p + 1 + |a|, j, tail)
    requires AccidentalOptions(acc) && OptionalAltsThenBoundary(tail, cs)
    requires forall c :: c in cs ==> !IsAccidental(c)
    ensures p + 1 < j && !IsAccidental(s[p + 1]) ==> s[p + 1] in cs
    ensures p + 2 < j && IsAccidental(s[p + 1]) ==> s[p + 2] in cs
  {
    if a == "" {
      TailStartsWithin(s, p + 1, j, tail, cs);
    } else {
      assert |a| == 1 && IsAccidental(a[0]);
      assert s[p + 1] == a[0];
      TailStartsWithin(s, p + 2, j, tail, cs);
    }
  }

  /** `OptionalAltsAccept`, the non-empty case only. */
  lemma TailStartsWithin(s: string, q: nat, j: nat, tail: seq<Piece>, cs: set<char>)
    requires q <= j <= |s| && OptionalAltsThenBoundary(tail, cs) && Accepts(s, q, j, tail)
    ensures q < j ==> s[q] in cs
  {
    OptionalAltsAccept(s, q, j, tail, cs);
  }

  /** A chord token never holds two accidentals in a row after its letter:
      the character after the root, if any, starts a quality, an
      extension or a slash bass. */
  lemma TokenShape(s: string, p: nat, j: nat)
    requires p <= |s| && ChordAt(s, p) == Some(j)
    ensures p + 1 < j && !IsAccidental(s[p + 1]) ==> s[p + 1] in TailStarts
    ensures p + 2 < j && IsAccidental(s[p + 1]) ==> s[p + 2] in TailStarts
  {
    ChordAtAccepts(s, p);
    ChordPatternSplits();
    AfterRootShaped();
    AccidentalsShape();
    LettersAreLetters();
    RootSplits(s, p, j, Letters, Accidentals, AfterRoot);
    var a :| a in Accidentals && LiteralAt(s, p + 1, a) && p + 1 + |a| <= j && Accepts(s, p + 1 + |a|, j, AfterRoot);
    RootThenTail(s, p, j, a, Accidentals, AfterRoot, TailStarts);
  }

  lemma LetterOption(c: char)
    requires IsLetter(c)
    ensures [c] in Letters
  {
    assert c == 'A' || c == 'B' || c == 'C' || c == 'D' || c == 'E' || c == 'F' || c == 'G';
  }

  lemma LetterSharpBoundary(s: string, p: nat)
    requires p + 1 < |s| && IsLetter(s[p]) && s[p + 1] == '#'
    ensures IsBoundary(s, p + 1)
  {
    assert IsWordChar(s[p]) && !IsWordChar(s[p + 1]);
  }

  lemma TailStartsAreWordOrSlash()
    ensures forall c :: c in TailStarts ==> IsWordChar(c) || c == '/'
  {
  }

  /** The grammar admits the bare letter at `p` when a `#` follows it. */
  lemma SharpLetterAccepted(s: string, p: nat)
    requires p + 1 < |s| && IsLetter(s[p]) && IsBoundary(s, p) && s[p + 1] == '#'
    ensures Accepts(s, p, p + 1, ChordPattern)
  {
    ChordPatternSplits();
    AfterRootShaped();
    AccidentalsShape();
    LetterOption(s[p]);
    LetterSharpBoundary(s, p);
    BareLetterAccepted(s, p, Letters, Accidentals, AfterRoot, TailStarts);
  }

  /** A letter option alone, at word boundaries on both sides, is a string
      of a pattern whose accidental and tail are optional. */
  lemma BareLetterAccepted(s: string, p: nat, ls: seq<string>, acc: seq<string>, tail: seq<Piece>, cs: set<char>)
    requires p + 1 <= |s| && [s[p]] in ls && "" in acc && OptionalAltsThenBoundary(tail, cs)
    requires IsBoundary(s, p) && IsBoundary(s, p + 1)
    ensures Accepts(s, p, p + 1, [WordBoundary, Alt(ls), Alt(acc)] + tail)
  {
    OptionalAltsAcceptEmpty(s, p + 1, tail, cs);
    assert LiteralAt(s, p + 1, "");
    RootJoins(s, p, p + 1, ls, acc, "", tail);
  }

  /** With the accidental option `a` spelled after a letter and a `#`
      that no tail option continues, the tail accepts only the empty string
      right after the letter. */
  lemma SharpEndsAtLetter(s: string, p: nat, j: nat, a: string, acc: seq<string>, tail: seq<Piece>, cs: set<char>)
    requires p + 1 + |a| <= j <= |s| && a in acc && LiteralAt(s, p + 1, a) && Accepts(s, p + 1 + |a|, j, tail)
    requires AccidentalOptions(acc) && OptionalAltsThenBoundary(tail, cs)
    requires forall c :: c in cs ==> IsWordChar(c) || c == '/'
    requires p + 1 < |s| && s[p + 1] == '#'
    requires p + 2 == |s| || (!IsWordChar(s[p + 2]) && s[p + 2] != '/')
    ensures j == p + 1
  {
    if a == "" {
      TailStartsWithin(s, p + 1, j, tail, cs);
    } else {
      assert |a| == 1 && s[p + 1] == a[0];
      OptionalAltsAccept(s, p + 2, j, tail, cs);
      assert false;
    }
  }

  /** The grammar admits nothing longer than the bare letter at `p`. */
  lemma SharpLetterOnly(s: string, p: nat, j: nat)
    requires p + 1 < |s| && s[p + 1] == '#'
    requires p + 2 == |s| || (!IsWordChar(s[p + 2]) && s[p + 2] != '/')
    requires p <= j <= |s| && Accepts(s, p, j, ChordPattern)
    ensures j == p + 1
  {
    ChordPatternSplits();
    AfterRootShaped();
    AccidentalsShape();
    LettersAreLetters();
    TailStartsAreWordOrSlash();
    RootSplits(s, p, j, Letters, Accidentals, AfterRoot);
    var a :| a in Accidentals && LiteralAt(s, p + 1, a) && p + 1 + |a| <= j && Accepts(s, p + 1 + |a|, j, AfterRoot);
    SharpEndsAtLetter(s, p, j, a, Accidentals, AfterRoot, TailStarts);
  }

  /** A `#` after a letter and before the end, or before a character that
      is neither a word character nor `/`, stays outside the token: the
      `\b` after `#` fails, so the engine backtracks to the bare letter.
      In `<b>C#</b>` the chord token is `C` alone. */
  lemma SharpOutsideToken(s: string, p: nat)
    requires p + 1 < |s| && IsLetter(s[p]) && IsBoundary(s, p) && s[p + 1] == '#'
    requires p + 2 == |s| || (!IsWordChar(s[p + 2]) && s[p + 2] != '/')
    ensures ChordAt(s, p) == Some(p + 1)
  {
    SharpLetterAccepted(s, p);
    ChordPatternWellFormed();
    MatchComplete(s, p, p + 1, ChordPattern);
    MatchSound(s, p, ChordPattern);
    SharpLetterOnly(s, p, Match(s, p, ChordPattern).value);
    ChordAtIsMatch(s, p);
  }

  lemma ChordAtIsMatch(s: string, p: nat)
    requires p <= |s|
    ensures WellFormed(ChordPattern) && ChordAt(s, p) == Match(s, p, ChordPattern)
  {
    ChordPatternWellFormed();
  }

  /** The first chord token of `html`, as `html.match(CHORD_REGEX)[0]`
      reports it: its start and end. */
  function FirstChord(html: string): (r: Option<(nat, nat)>)
    ensures r.Some? ==> r.value.0 <= |html| && ChordAt(html, r.value.0) == Some(r.value.1)
    ensures r.Some? ==> forall q :: 0 <= q < r.value.0 ==> ChordAt(html, q).None?
    ensures r.None? <==> forall q :: 0 <= q <= |html| ==> ChordAt(html, q).None?
  {
    ChordPatternShaped();
    FirstMatch(html, 0, ChordPattern)
  }
}

=== FILE: dom.dfy ===
/** The parsed HTML document the parsers walk, as a plain tree: what
    `DOMParser.parseFromString(..., 'text/html')` produces is taken as
    given, and only the parts of the DOM the core reads are modelled. */
module Dom {
  import opened Wrappers

  datatype Attr = Attr(name: string, value: string)

  /** A node of the tree. `tag` is the element's `tagName` as the HTML
      parser reports it (upper case, e.g. "P", "BLOCKQUOTE"); `classes` is
      its `classList`, kept apart from the other attributes. */
  datatype Node =
    | Text(data: string)
    | Comment(data: string)
    | Element(tag: string, classes: seq<string>, attrs: seq<Attr>, children: seq<Node>)

  /** A parsed page: the `head` and `body` elements, in document order. */
  datatype Document = Document(head: Node, body: Node)

  /** The two kinds of CSS selector the core uses: `.name` and `tag`. */
  datatype Selector = ByClass(name: string) | ByTag(tag: string)

  predicate HasClass(n: Node, name: string) {
    n.Element? && name in n.classes
  }

  predicate Selects(sel: Selector, n: Node) {
    n.Element? &&
    match sel
    case ByClass(name) => name in n.classes
    case ByTag(tag) => n.tag == tag
  }

  /** The children of an element, none for any other node. */
  function ChildrenOf(n: Node): seq<Node> {
    if n.Element? then n.children else []
  }

  /** The concatenated data of the text nodes below `ns`, in document
      order; comments contribute nothing. */
  function TextOf(ns: seq<Node>): string
    decreases ns
  {
    if |ns| == 0 then ""
    else
      var head := match ns[0]
        case Text(d) => d
        case Comment(_) => ""
        case Element(_, _, _, cs) => TextOf(cs);
      head + TextOf(ns[1..])
  }

  /** `Node.textContent`: a text or comment node's own data, an element's
      descendant text. */
  function TextContent(n: Node): string {
    match n
    case Text(d) => d
    case Comment(d) => d
    case Element(_, _, _, cs) => TextOf(cs)
  }

  lemma {:induction false} TextOfConcat(a: seq<Node>, b: seq<Node>)
    ensures TextOf(a + b) == TextOf(a) + TextOf(b)
    decreases |a|
  {
    if |a| == 0 {
      assert a + b == b;
    } else {
      assert (a + b)[0] == a[0] && (a + b)[1..] == a[1..] + b;
      TextOfConcat(a[1..], b);
    }
  }

  /** Every element of `ns` and below, in document (pre-)order: the list a
      selector query walks. */
  function Elements(ns: seq<Node>): seq<Node>
    ensures forall k :: 0 <= k < |Elements(ns)| ==> Elements(ns)[k].Element?
    decreases ns
  {
    if |ns| == 0 then []
    else if ns[0].Element? then [ns[0]] + Elements(ns[0].children) + Elements(ns[1..])
    else Elements(ns[1..])
  }

  /** The first node of `xs` the selector matches. */
  function FirstIn(xs: seq<Node>, sel: Selector): (r: Option<Node>)
    ensures r.Some? ==> r.value in xs && Selects(sel, r.value)
    ensures r.None? <==> forall k :: 0 <= k < |xs| ==> !Selects(sel, xs[k])
    ensures forall k :: 0 <= k < |xs| && Selects(sel, xs[k]) && (forall m :: 0 <= m < k ==> !Selects(sel, xs[m]))
                        ==> r == Some(xs[k])
  {
    if |xs| == 0 then None
    else if Selects(sel, xs[0]) then Some(xs[0])
    else
      var r := FirstIn(xs[1..], sel);
      assert forall k :: 1 <= k < |xs| ==> xs[k] == xs[1..][k - 1];
      r
  }

  lemma {:induction false} FirstInConcat(a: seq<Node>, b: seq<Node>, sel: Selector)
    ensures FirstIn(a + b, sel) == if FirstIn(a, sel).Some? then FirstIn(a, sel) else FirstIn(b, sel)
    decreases |a|
  {
    if |a| == 0 {
      assert a + b == b;
    } else {
      assert (a + b)[0] == a[0] && (a + b)[1..] == a[1..] + b;
      FirstInConcat(a[1..], b, sel);
    }
  }

  /** `querySelector` below the nodes `ns`: a depth-first walk that tests
      an element before its descendants and those before its next
      sibling. */
  function QueryFirst(ns: seq<Node>, sel: Selector): Option<Node>
    decreases ns
  {
    if |ns| == 0 then None
    else if ns[0].Element? then
      if Selects(sel, ns[0]) then Some(ns[0])
      else
        var below := QueryFirst(ns[0].children, sel);
        if below.Some? then below else QueryFirst(ns[1..], sel)
    else QueryFirst(ns[1..], sel)
  }

  /** The walk finds the first matching element in document order. */
  lemma {:induction false} QueryFirstIsFirstInOrder(ns: seq<Node>, sel: Selector)
    ensures QueryFirst(ns, sel) == FirstIn(Elements(ns), sel)
    decreases ns
  {
    if |ns| > 0 {
      QueryFirstIsFirstInOrder(ns[1..], sel);
      if ns[0].Element? {
        QueryFirstIsFirstInOrder(ns[0].children, sel);
        var kids, rest := Elements(ns[0].children), Elements(ns[1..]);
        assert Elements(ns) == [ns[0]] + (kids + rest);
        FirstInConcat([ns[0]], kids + rest, sel);
        FirstInConcat(kids, rest, sel);
      }
    }
  }

  /** `document.querySelector`. The `html` element itself is not
      searched. */
  function QueryDocument(doc: Document, sel: Selector): (r: Option<Node>)
    ensures r.Some? ==> Selects(sel, r.value)
    ensures r == FirstIn(Elements([doc.head, doc.body]), sel)
  {
    QueryFirstIsFirstInOrder([doc.head, doc.body], sel);
    QueryFirst([doc.head, doc.body], sel)
  }

  /** An event-handler attribute, removed by the blockquote clean-up. */
  predicate IsEventName(name: string) {
    |name| >= 2 && name[..2] == "on"
  }

  /** The attributes that survive: every one whose name does not start
      with "on", in their original order. */
  function KeepAttrs(attrs: seq<Attr>): (r: seq<Attr>)
    ensures |r| <= |attrs|
    ensures forall a :: a in r <==> a in attrs && !IsEventName(a.name)
  {
    if |attrs| == 0 then []
    else (if IsEventName(attrs[0].name) then [] else [attrs[0]]) + KeepAttrs(attrs[1..])
  }

  /** The filter keeps the order: the survivors of two attribute lists
      are those of the first followed by those of the second. */
  lemma {:induction false} KeepAttrsConcat(a: seq<Attr>, b: seq<Attr>)
    ensures KeepAttrs(a + b) == KeepAttrs(a) + KeepAttrs(b)
    decreases |a|
  {
    if |a| == 0 {
      assert a + b == b;
    } else {
      assert (a + b)[0] == a[0] && (a + b)[1..] == a[1..] + b;
      KeepAttrsConcat(a[1..], b);
    }
  }

  /** Removes every event-handler attribute from every element of the
      subtree, leaving the shape and the text alone. */
  function StripTree(n: Node): Node
    decreases n, 1
  {
    match n
    case Element(tag, classes, attrs, cs) => Element(tag, classes, KeepAttrs(attrs), StripAll(cs))
    case _ => n
  }

  function StripAll(ns: seq<Node>): (r: seq<Node>)
    ensures |r| == |ns|
    decreases ns, 0
  {
    if |ns| == 0 then [] else [StripTree(ns[0])] + StripAll(ns[1..])
  }

  /** No element of the forest carries an event-handler attribute. */
  predicate NoEventAttrs(ns: seq<Node>) {
    forall k :: 0 <= k < |Elements(ns)| ==> forall a :: a in Elements(ns)[k].attrs ==> !IsEventName(a.name)
  }

  lemma {:induction false} StripAllConcat(a: seq<Node>, b: seq<Node>)
    ensures StripAll(a + b) == StripAll(a) + StripAll(b)
    decreases |a|
  {
    if |a| > 0 {
      assert (a + b)[0] == a[0] && (a + b)[1..] == a[1..] + b;
      StripAllConcat(a[1..], b);
    } else {
      assert a + b == b;
    }
  }

  lemma {:induction false} StripAllAt(ns: seq<Node>, k: nat)
    requires k < |ns|
    ensures StripAll(ns)[k] == StripTree(ns[k])
    decreases k
  {
    if k > 0 {
      StripAllAt(ns[1..], k - 1);
    }
  }

  /** The elements after stripping are the stripped elements. */
  lemma {:induction false} StripElements(ns: seq<Node>)
    ensures Elements(StripAll(ns)) == StripAll(Elements(ns))
    decreases ns
  {
    if |ns| > 0 {
      var t := StripAll(ns);
      assert t == [StripTree(ns[0])] + StripAll(ns[1..]);
      assert t[0] == StripTree(ns[0]) && t[1..] == StripAll(ns[1..]);
      StripElements(ns[1..]);
      if ns[0].Element? {
        StripElements(ns[0].children);
        var kids, rest := Elements(ns[0].children), Elements(ns[1..]);
        StripAllConcat([ns[0]] + kids, rest);
        StripAllConcat([ns[0]], kids);
      }
    }
  }

  /** After the clean-up no element has an event-handler attribute. */
  lemma StripRemovesEvents(ns: seq<Node>)
    ensures NoEventAttrs(StripAll(ns))
  {
    StripElements(ns);
    var all := Elements(ns);
    forall k | 0 <= k < |Elements(StripAll(ns))|
      ensures forall a :: a in Elements(StripAll(ns))[k].attrs ==> !IsEventName(a.name)
    {
      StripAllAt(all, k);
    }
  }

  /** The clean-up keeps the text. */
  lemma {:induction false} StripKeepsText(ns: seq<Node>)
    ensures TextOf(StripAll(ns)) == TextOf(ns)
    decreases ns
  {
    if |ns| > 0 {
      StripKeepsText(ns[1..]);
      assert StripAll(ns)[1..] == StripAll(ns[1..]);
      if ns[0].Element? {
        StripKeepsText(ns[0].children);
      }
    }
  }

  /** A forest without event-handler attributes is left exactly as it is,
      so stripping twice is stripping once. */
  lemma {:induction false} StripFixesClean(ns: seq<Node>)
    requires NoEventAttrs(ns)
    ensures StripAll(ns) == ns
    decreases ns
  {
    if |ns| > 0 {
      CleanParts(ns);
      StripFixesClean(ns[1..]);
      if ns[0].Element? {
        StripFixesClean(ns[0].children);
        KeepAllAttrs(ns[0].attrs);
      }
    }
  }

  /** A clean forest has a clean first node and a clean rest. */
  lemma CleanParts(ns: seq<Node>)
    requires |ns| > 0 && NoEventAttrs(ns)
    ensures NoEventAttrs(ns[1..])
    ensures ns[0].Element? ==> NoEventAttrs(ns[0].children)
                               && forall a :: a in ns[0].attrs ==> !IsEventName(a.name)
  {
    var all, rest := Elements(ns), Elements(ns[1..]);
    if ns[0].Element? {
      var kids := Elements(ns[0].children);
      assert all == [ns[0]] + kids + rest;
      assert all[0] == ns[0];
      forall k | 0 <= k < |kids| ensures kids[k] == all[1 + k] { }
      forall k | 0 <= k < |rest| ensures rest[k] == all[1 + |kids| + k] { }
    } else {
      assert all == rest;
    }
  }

  lemma {:induction false} KeepAllAttrs(attrs: seq<Attr>)
    requires forall a :: a in attrs ==> !IsEventName(a.name)
    ensures KeepAttrs(attrs) == attrs
  {
    if |attrs| > 0 {
      assert attrs[0] in attrs;
      KeepAllAttrs(attrs[1..]);
    }
  }

  lemma StripIdempotent(ns: seq<Node>)
    ensures StripAll(StripAll(ns)) == StripAll(ns)
  {
    StripRemovesEvents(ns);
    StripFixesClean(StripAll(ns));
  }
}

=== FILE: js_string.dfy ===
/** The few JavaScript string and array primitives the core relies on,
    written out with their ECMAScript semantics. */
module JsString {

  predicate IsAsciiDigit(c: char) {
    '0' <= c <= '9'
  }

  /** `Array.prototype.indexOf` with strict equality: the first position of
      `x`, or -1 when it does not occur (see `IndexOfSpec`). */
  function IndexOf<T(==)>(xs: seq<T>, x: T): int {
    IndexFrom(xs, x, 0)
  }

  function IndexFrom<T(==)>(xs: seq<T>, x: T, i: nat): int
    decreases |xs| - i
  {
    if i >= |xs| then -1 else if xs[i] == x then i else IndexFrom(xs, x, i + 1)
  }

  lemma {:induction false} IndexFromSpec<T>(xs: seq<T>, x: T, i: nat)
    requires i <= |xs|
    ensures var r := IndexFrom(xs, x, i);
            && (r == -1 <==> x !in xs[i..])
            && (r >= 0 ==> i <= r < |xs| && xs[r] == x && x !in xs[i..r])
    decreases |xs| - i
  {
    if i < |xs| && xs[i] != x {
      IndexFromSpec(xs, x, i + 1);
      assert xs[i..] == [xs[i]] + xs[i + 1..];
      var r := IndexFrom(xs, x, i);
      if r >= 0 {
        assert xs[i..r] == [xs[i]] + xs[i + 1..r];
      }
    }
  }

  /** `indexOf` finds the first occurrence, and reports -1 exactly when
      there is none. */
  lemma IndexOfSpec<T>(xs: seq<T>, x: T)
    ensures var r := IndexOf(xs, x);
            && (r == -1 <==> x !in xs)
            && (r >= 0 ==> r < |xs| && xs[r] == x && x !in xs[..r])
  {
    IndexFromSpec(xs, x, 0);
    assert xs[0..] == xs;
  }

  /** The `%` operator on integral numbers with divisor 12, the only one the
      core uses: the quotient is truncated toward zero, so the remainder takes
      the sign of the dividend (unlike Dafny's Euclidean `%`). */
  function Remainder12(a: int): (r: int)
    ensures -12 < r < 12
    ensures a >= 0 ==> r >= 0
    ensures a <= 0 ==> r <= 0
  {
    if a >= 0 then a % 12 else -((-a) % 12)
  }

  /** Adding 12 to a negative JavaScript remainder yields the Euclidean
      remainder. */
  lemma RemainderWrap(a: int)
    ensures var r := Remainder12(a); (if r < 0 then r + 12 else r) == a % 12
  {
    if a < 0 {
      var q, m := (-a) / 12, (-a) % 12;
      assert -a == 12 * q + m;
      if m > 0 {
        assert a == 12 * (-q - 1) + (12 - m);
      } else {
        assert a == 12 * (-q);
      }
    }
  }

  function Digit(d: nat): (c: char)
    requires d < 10
    ensures IsAsciiDigit(c)
  {
    ('0' as int + d) as char
  }

  /** `Number.prototype.toString()` of a non-negative integer: its decimal
      spelling without leading zeros. */
  function Decimal(n: nat): (r: string)
    ensures |r| > 0
    ensures forall k :: 0 <= k < |r| ==> IsAsciiDigit(r[k])
    ensures n < 10 <==> |r| == 1
    ensures r[|r| - 1] == Digit(n % 10)
  {
    if n < 10 then [Digit(n)] else Decimal(n / 10) + [Digit(n % 10)]
  }

  /** Distinct numbers have distinct decimal spellings. */
  lemma {:induction false} DecimalInjective(a: nat, b: nat)
    requires Decimal(a) == Decimal(b)
    ensures a == b
  {
    var da, db := Decimal(a), Decimal(b);
    assert a % 10 == b % 10 by {
      assert Digit(a % 10) == Digit(b % 10);
    }
    if a >= 10 && b >= 10 {
      assert Decimal(a / 10) == da[..|da| - 1];
      assert Decimal(b / 10) == db[..|db| - 1];
      DecimalInjective(a / 10, b / 10);
    }
  }

  /** `WhiteSpace` and `LineTerminator` of ECMAScript section 12.2 and 12.3,
      the characters `String.prototype.trim` removes. */
  const WhitespaceCodes: set<int> :=
    {0x09, 0x0A, 0x0B, 0x0C, 0x0D, 0x20, 0xA0, 0x1680, 0x2000, 0x2001, 0x2002, 0x2003, 0x2004,
     0x2005, 0x2006, 0x2007, 0x2008, 0x2009, 0x200A, 0x2028, 0x2029, 0x202F, 0x205F, 0x3000, 0xFEFF}

  predicate IsJsWhitespace(c: char) {
    c as int in WhitespaceCodes
  }

  /** The characters a regular expression's `.` does not match. */
  predicate IsLineTerminator(c: char) {
    c == '\n' || c == '\r' || c as int == 0x2028 || c as int == 0x2029
  }

  /** Whether `s` holds a line terminator (see `HasLineTerminatorSpec`). */
  function HasLineTerminator(s: string): bool {
    if |s| == 0 then false
    else IsLineTerminator(s[0]) || HasLineTerminator(s[1..])
  }

  lemma {:induction false} HasLineTerminatorSpec(s: string)
    ensures HasLineTerminator(s) <==> exists k :: 0 <= k < |s| && IsLineTerminator(s[k])
  {
    if |s| > 0 {
      HasLineTerminatorSpec(s[1..]);
      assert forall k :: 1 <= k < |s| ==> s[k] == s[1..][k - 1];
      if !IsLineTerminator(s[0]) && !HasLineTerminator(s[1..]) {
        assert forall k :: 0 <= k < |s| ==> !IsLineTerminator(s[k]) by {
          forall k | 0 <= k < |s| ensures !IsLineTerminator(s[k]) {
            if k > 0 {
              assert s[k] == s[1..][k - 1];
            }
          }
        }
      }
    }
  }

  /** `String.prototype.trimStart`. */
  function TrimStart(s: string): (r: string)
    ensures |r| <= |s| && r == s[|s| - |r|..]
    ensures forall k :: 0 <= k < |s| - |r| ==> IsJsWhitespace(s[k])
    ensures |r| > 0 ==> !IsJsWhitespace(r[0])
  {
    if |s| > 0 && IsJsWhitespace(s[0]) then
      var r := TrimStart(s[1..]);
      assert s[1..][|s| - 1 - |r|..] == s[|s| - |r|..];
      r
    else s
  }

  /** `String.prototype.trimEnd`. */
  function TrimEnd(s: string): (r: string)
    ensures |r| <= |s| && r == s[..|r|]
    ensures forall k :: |r| <= k < |s| ==> IsJsWhitespace(s[k])
    ensures |r| > 0 ==> !IsJsWhitespace(r[|r| - 1])
  {
    if |s| > 0 && IsJsWhitespace(s[|s| - 1]) then TrimEnd(s[..|s| - 1]) else s
  }

  /** Only whitespace lies in `s` before `i` and from `j` on. */
  predicate SurroundedByWhitespace(s: string, i: nat, j: nat) {
    && (forall k :: 0 <= k < i && k < |s| ==> IsJsWhitespace(s[k]))
    && (forall k :: j <= k < |s| ==> IsJsWhitespace(s[k]))
  }

  /** `r` is a slice of `s` that only whitespace surrounds, and does not
      itself begin or end with whitespace. */
  predicate TrimmedFrom(s: string, r: string) {
    && (exists i, j :: 0 <= i <= j <= |s| && r == s[i..j] && SurroundedByWhitespace(s, i, j))
    && (|r| > 0 ==> !IsJsWhitespace(r[0]) && !IsJsWhitespace(r[|r| - 1]))
  }

  /** Trimming the start and then the end leaves a slice that only
      whitespace surrounds. */
  lemma TrimSlice(s: string, t: string, r: string)
    requires |t| <= |s| && t == s[|s| - |t|..] && forall k :: 0 <= k < |s| - |t| ==> IsJsWhitespace(s[k])
    requires |r| <= |t| && r == t[..|r|] && forall k :: |r| <= k < |t| ==> IsJsWhitespace(t[k])
    requires |t| > 0 ==> !IsJsWhitespace(t[0])
    requires |r| > 0 ==> !IsJsWhitespace(r[|r| - 1])
    ensures TrimmedFrom(s, r)
  {
    var i, j := |s| - |t|, |s| - |t| + |r|;
    assert r == s[i..j] by {
      PrefixOfSuffix(s, i, |r|);
    }
    forall k | j <= k < |s| ensures IsJsWhitespace(s[k]) {
      assert s[k] == t[k - i];
    }
    assert SurroundedByWhitespace(s, i, j);
    if |r| > 0 {
      assert r[0] == t[0];
    }
  }

  /** A prefix of a suffix is a slice. */
  lemma PrefixOfSuffix(s: string, i: nat, n: nat)
    requires i + n <= |s|
    ensures s[i..][..n] == s[i..i + n]
  {
  }

  /** `String.prototype.trim`: the middle of `s` left once the whitespace
      at both ends is removed; a string without whitespace at its ends is
      returned as it is. */
  function Trim(s: string): (r: string)
    ensures |r| <= |s|
    ensures TrimmedFrom(s, r)
    ensures |s| == 0 || (!IsJsWhitespace(s[0]) && !IsJsWhitespace(s[|s| - 1])) ==> r == s
  {
    var t := TrimStart(s);
    var r := TrimEnd(t);
    TrimSlice(s, t, r);
    r
  }

  /** `s.split('/')[0]`: everything before the first slash. */
  function BeforeSlash(s: string): (r: string)
    ensures '/' !in r
    ensures |r| <= |s| && r == s[..|r|]
    ensures |r| < |s| ==> s[|r|] == '/'
  {
    if |s| == 0 || s[0] == '/' then "" else [s[0]] + BeforeSlash(s[1..])
  }

  /** `s.replace(pat, '')` with a non-empty string pattern: the first
      occurrence, scanning from the left, is removed; nothing else. */
  function RemoveFirst(s: string, pat: string): string
    requires |pat| > 0
    decreases |s|
  {
    if |s| < |pat| then s
    else if s[..|pat|] == pat then s[|pat|..]
    else [s[0]] + RemoveFirst(s[1..], pat)
  }

  /** `s.replace(/[0-9]/g, '')`. */
  function RemoveDigits(s: string): string {
    if |s| == 0 then ""
    else (if IsAsciiDigit(s[0]) then "" else [s[0]]) + RemoveDigits(s[1..])
  }

  /** Every digit goes and every other character stays; nothing is added,
      so the result is no longer than the input, and with
      `RemoveDigitsConcat` each other character stays exactly once, in
      order. A string without digits comes back as it is. */
  lemma {:induction false} RemoveDigitsSpec(s: string)
    ensures var r := RemoveDigits(s);
            && |r| <= |s|
            && ((forall k :: 0 <= k < |s| ==> !IsAsciiDigit(s[k])) ==> r == s)
            && (forall k :: 0 <= k < |r| ==> !IsAsciiDigit(r[k]))
            && (forall c :: c in s && !IsAsciiDigit(c) ==> c in r)
            && (forall c :: c in r ==> c in s)
  {
    if |s| > 0 {
      RemoveDigitsSpec(s[1..]);
      assert forall c :: c in s ==> c == s[0] || c in s[1..];
    }
  }

  /** `replace` keeps a first character that cannot start the pattern. */
  lemma RemoveFirstSkipsHead(s: string, pat: string)
    requires |pat| > 0 && |s| > 0 && s[0] != pat[0]
    ensures RemoveFirst(s, pat) == [s[0]] + RemoveFirst(s[1..], pat)
  {
    if |s| < |pat| {
      assert s == [s[0]] + s[1..];
    } else {
      assert s[..|pat|][0] == s[0];
    }
  }

  /** `replace` skips a prefix that lacks the pattern's first character. */
  lemma {:induction false} RemoveFirstAfterPrefix(prefix: string, x: string, pat: string)
    requires |pat| > 0 && pat[0] !in prefix
    ensures RemoveFirst(prefix + x, pat) == prefix + RemoveFirst(x, pat)
    decreases |prefix|
  {
    if |prefix| == 0 {
      assert prefix + x == x;
    } else {
      var s := prefix + x;
      assert s[0] == prefix[0] && s[1..] == prefix[1..] + x;
      assert prefix[0] in prefix && forall c :: c in prefix[1..] ==> c in prefix;
      RemoveFirstSkipsHead(s, pat);
      RemoveFirstAfterPrefix(prefix[1..], x, pat);
      assert prefix == [prefix[0]] + prefix[1..];
    }
  }

  lemma {:induction false} BeforeSlashPrefix(r: string, x: string)
    requires '/' !in r
    ensures BeforeSlash(r + x) == r + BeforeSlash(x)
    decreases |r|
  {
    if |r| > 0 {
      assert (r + x)[0] == r[0] && (r + x)[1..] == r[1..] + x;
      assert r[0] in r && forall c :: c in r[1..] ==> c in r;
      BeforeSlashPrefix(r[1..], x);
      assert r == [r[0]] + r[1..];
    } else {
      assert r + x == x;
    }
  }

  lemma {:induction false} RemoveDigitsConcat(a: string, b: string)
    ensures RemoveDigits(a + b) == RemoveDigits(a) + RemoveDigits(b)
    decreases |a|
  {
    if |a| > 0 {
      assert (a + b)[0] == a[0] && (a + b)[1..] == a[1..] + b;
      RemoveDigitsConcat(a[1..], b);
    } else {
      assert a + b == b;
    }
  }

  /** `replace` leaves a string alone when one character of the pattern
      does not occur in it. */
  lemma {:induction false} NoOccurrence(s: string, pat: string, i: nat)
    requires i < |pat| && pat[i] !in s
    ensures RemoveFirst(s, pat) == s
    decreases |s|
  {
    if |s| >= |pat| {
      assert s[..|pat|][i] == s[i];
      assert forall c :: c in s[1..] ==> c in s;
      NoOccurrence(s[1..], pat, i);
      assert s == [s[0]] + s[1..];
    }
  }

  /** `replace` removes a pattern at the very start. */
  lemma RemovedHead(pat: string, rest: string)
    requires |pat| > 0
    ensures RemoveFirst(pat + rest, pat) == rest
  {
    assert (pat + rest)[..|pat|] == pat;
  }

  lemma BeforeSlashNone(s: string)
    requires '/' !in s
    ensures BeforeSlash(s) == s
  {
  }

  predicate DigitString(d: string) {
    forall k :: 0 <= k < |d| ==> IsAsciiDigit(d[k])
  }

  lemma {:induction false} RemoveFirstKeepsDigits(d: string, pat: string)
    requires |pat| > 0 && DigitString(d)
    ensures DigitString(RemoveFirst(d, pat))
    decreases |d|
  {
    if |d| >= |pat| && d[..|pat|] != pat {
      RemoveFirstKeepsDigits(d[1..], pat);
    }
  }

  lemma DigitsVanish(d: string)
    requires DigitString(d)
    ensures RemoveDigits(d) == ""
  {
    RemoveDigitsSpec(d);
  }
}

=== FILE: key_extract.dfy ===
/** `extractKeyFromHtml` of the song sidebar: the key of an imported song,
    read from a key label when the page has one, else cleaned out of the
    first chord, else `C`. */
module KeyExtract {
  import opened Wrappers
  import opened JsString
  import opened Pitch
  import opened Dom
  import opened Regex
  import opened TokenReplace
  import KeyRegex
  import LyricKey

  const LabelClass: string := "single-key__select-label"

  const ChordClass: string := "c_chord"

  const DefaultKey: string := "C"

  /** The alternation `m|maj|7|sus|add` of the chord clean-up: the same
      options, in the same order, as the quality loop of the blockquote key
      pattern. */
  const Qualities: seq<string> := KeyRegex.KeyQualities

  /** The same alternation with `maj` tried before `m`. */
  const QualitiesCorrected: seq<string> := ["maj", "m", "7", "sus", "add"]

  /** The replacement `''`. */
  function Blank(t: string): string {
    ""
  }

  // ---------------------------------------------------------------------
  // The two global regular expressions, as token finders for `replace`.

  /** `/Key/gi` at `p`: the three characters spell "key" in any mix of
      ASCII cases (without the `u` flag, case folding maps no other
      character onto these letters). */
  predicate KeyWordAt(s: string, p: nat) {
    p + 3 <= |s|
    && (s[p] == 'k' || s[p] == 'K')
    && (s[p + 1] == 'e' || s[p + 1] == 'E')
    && (s[p + 2] == 'y' || s[p + 2] == 'Y')
  }

  function KeyWords(s: string): (at: nat -> Option<nat>)
    ensures Advances(s, at)
  {
    (p: nat) => if KeyWordAt(s, p) then Some(p + 3) else None
  }

  /** One option of a lone alternation: taken when it is spelled at `i`,
      else the next is tried. */
  lemma AltStep(s: string, i: nat, os: seq<string>, all: seq<string>)
    requires i <= |s| && |os| > 0 && forall o :: o in os ==> o in all
    ensures TryOptions(s, i, Alt(all), os, [])
            == if LiteralAt(s, i, os[0]) then Some(i + |os[0]|) else TryOptions(s, i, Alt(all), os[1..], [])
  {
  }

  /** As written, an `m` or a `7` is a one-character token and `sus` or
      `add` a three-character one; `maj` is never reported, because `m`
      is tried first and already matches its first letter. */
  function QualityEndAsWritten(s: string, p: nat): Option<nat> {
    if p < |s| && (s[p] == 'm' || s[p] == '7') then Some(p + 1)
    else if LiteralAt(s, p, "sus") || LiteralAt(s, p, "add") then Some(p + 3)
    else None
  }

  /** Corrected, `maj` is a token of its own. */
  function QualityEndCorrected(s: string, p: nat): Option<nat> {
    if LiteralAt(s, p, "maj") then Some(p + 3) else QualityEndAsWritten(s, p)
  }

  lemma LiteralOne(s: string, p: nat, lit: string)
    requires |lit| == 1
    ensures LiteralAt(s, p, lit) <==> p < |s| && s[p] == lit[0]
  {
    if p < |s| {
      assert s[p..p + 1] == [s[p]];
    }
  }

  /** The global `m|maj|7|sus|add` (`corrected`: `maj|m|7|sus|add`) at
      each position: where the token starting there ends, if one does. */
  function Tokens(s: string, corrected: bool): (at: nat -> Option<nat>)
    ensures Advances(s, at)
  {
    (p: nat) => if corrected then QualityEndCorrected(s, p) else QualityEndAsWritten(s, p)
  }

  /** A lone alternation matched at `i`, its options tried in order. */
  lemma AltAlone(s: string, i: nat, os: seq<string>)
    requires i <= |s|
    ensures Match(s, i, [Alt(os)]) == TryOptions(s, i, Alt(os), os, [])
  {
    assert [Alt(os)][1..] == [];
  }

  /** The character reading is what the backtracking matcher reports for
      the alternation as written. */
  lemma QualityTokensAreRegex(s: string, p: nat)
    requires p <= |s|
    ensures Match(s, p, [Alt(Qualities)]) == QualityEndAsWritten(s, p)
  {
    var os := Qualities;
    AltAlone(s, p, os);
    AltStep(s, p, os, os);
    AltStep(s, p, os[1..], os);
    AltStep(s, p, os[2..], os);
    AltStep(s, p, os[3..], os);
    AltStep(s, p, os[4..], os);
    assert os[1..][1..] == os[2..] && os[2..][1..] == os[3..] && os[3..][1..] == os[4..] && os[4..][1..] == [];
    LiteralOne(s, p, "m");
    LiteralOne(s, p, "7");
    if LiteralAt(s, p, "maj") {
      assert s[p] == s[p..p + 3][0];
    }
  }

  /** The same for the corrected order. */
  lemma QualityTokensCorrectedAreRegex(s: string, p: nat)
    requires p <= |s|
    ensures Match(s, p, [Alt(QualitiesCorrected)]) == QualityEndCorrected(s, p)
  {
    var os := QualitiesCorrected;
    AltAlone(s, p, os);
    AltStep(s, p, os, os);
    AltStep(s, p, os[1..], os);
    AltStep(s, p, os[2..], os);
    AltStep(s, p, os[3..], os);
    AltStep(s, p, os[4..], os);
    assert os[1..][1..] == os[2..] && os[2..][1..] == os[3..] && os[3..][1..] == os[4..] && os[4..][1..] == [];
    LiteralOne(s, p, "m");
    LiteralOne(s, p, "7");
  }

  // ---------------------------------------------------------------------
  // Erasing every match.

  /** `s.replace(re, '')` for a global `re` whose matches are `at`. */
  function Erase(s: string, at: nat -> Option<nat>): string
    requires Advances(s, at)
  {
    ReplaceTokens(s, 0, at, Blank)
  }

  /** Erasing adds nothing: every character left stands at a position
      where no match starts, so a property of all such characters holds of
      the result. */
  lemma {:induction false} EraseKeepsOnly(s: string, from: nat, at: nat -> Option<nat>, P: char -> bool)
    requires from <= |s| && Advances(s, at)
    requires forall q :: from <= q < |s| && at(q).None? ==> P(s[q])
    ensures forall c :: c in ReplaceTokens(s, from, at, Blank) ==> P(c)
    decreases |s| - from
  {
    if from < |s| {
      match at(from)
      case Some(j) =>
        ReplaceTakes(s, from, j, at, Blank);
        EraseKeepsOnly(s, j, at, P);
      case None =>
        ReplaceSkips(s, from, at, Blank);
        EraseKeepsOnly(s, from + 1, at, P);
    }
  }

  /** Where no match starts at all, erasing changes nothing. */
  lemma EraseNothing(s: string, at: nat -> Option<nat>)
    requires Advances(s, at) && forall q :: 0 <= q < |s| ==> at(q).None?
    ensures Erase(s, at) == s
  {
    ReplaceCopiesUpTo(s, 0, |s|, at, Blank);
    assert s[0..|s|] == s;
  }

  // ---------------------------------------------------------------------
  // The label branch.

  /** Every "key", in any case, erased, then the ends trimmed: the result
      is the erased label with the whitespace at both ends removed. */
  function LabelKey(text: string): (r: string)
    ensures TrimmedFrom(Erase(text, KeyWords(text)), r)
  {
    Trim(Erase(text, KeyWords(text)))
  }

  /** A label that does not mention the word is only trimmed. */
  lemma LabelKeyPlain(text: string)
    requires 'k' !in text && 'K' !in text
    ensures LabelKey(text) == Trim(text)
  {
    forall q | 0 <= q < |text|
      ensures KeyWords(text)(q).None?
    {
      assert text[q] in text;
    }
    EraseNothing(text, KeyWords(text));
  }

  /** A label that starts with the word is the rest of it, trimmed. */
  lemma LabelKeyDropsWord(word: string, rest: string)
    requires |word| == 3 && KeyWordAt(word, 0) && 'k' !in rest && 'K' !in rest
    ensures LabelKey(word + rest) == Trim(rest)
  {
    var s := word + rest;
    var at := KeyWords(s);
    assert s[0] == word[0] && s[1] == word[1] && s[2] == word[2];
    assert at(0) == Some(3);
    ReplaceTakes(s, 0, 3, at, Blank);
    forall q | 3 <= q < |s|
      ensures at(q).None?
    {
      assert s[q] == rest[q - 3] && rest[q - 3] in rest;
    }
    ReplaceCopiesUpTo(s, 3, |s|, at, Blank);
    assert s[3..|s|] == rest;
    assert ReplaceTokens(s, |s|, at, Blank) == "";
    assert Erase(s, at) == rest;
  }

  // ---------------------------------------------------------------------
  // The chord branch.

  /** A character a cleaned chord cannot contain before the digit pass:
      an `m` is always erased and a slash never reaches the erasing. */
  predicate CleanChar(c: char) {
    c != 'm' && c != '/'
  }

  /** The part before the first slash, every match of `m|maj|7|sus|add`
      erased (`corrected`: `maj` tried first), then every digit. The result
      holds no `m`, no slash and no digit. */
  function ChordKey(chord: string, corrected: bool): (r: string)
    ensures 'm' !in r && '/' !in r && forall k :: 0 <= k < |r| ==> !IsAsciiDigit(r[k])
  {
    var base := BeforeSlash(chord);
    var at := Tokens(base, corrected);
    forall q | 0 <= q < |base| && at(q).None?
      ensures CleanChar(base[q])
    {
      assert base[q] in base;
    }
    EraseKeepsOnly(base, 0, at, CleanChar);
    RemoveDigitsSpec(Erase(base, at));
    RemoveDigits(Erase(base, at))
  }

  /** The quality heads the clean-up is meant to remove, each with any run
      of digits after it: `C`, `Cm7`, `Cmaj7`, `Csus4`, `Cadd9`. */
  const ChordHeads: seq<string> := ["", "m", "maj", "sus", "add"]

  /** One step of the erasing where a token starts. */
  lemma Erased(s: string, q: nat, j: nat, corrected: bool)
    requires q < |s| && Tokens(s, corrected)(q) == Some(j)
    ensures ReplaceTokens(s, q, Tokens(s, corrected), Blank) == ReplaceTokens(s, j, Tokens(s, corrected), Blank)
  {
    ReplaceTakes(s, q, j, Tokens(s, corrected), Blank);
  }

  /** One step of the erasing where no token starts. */
  lemma Kept(s: string, q: nat, corrected: bool)
    requires q < |s| && Tokens(s, corrected)(q).None?
    ensures ReplaceTokens(s, q, Tokens(s, corrected), Blank)
            == [s[q]] + ReplaceTokens(s, q + 1, Tokens(s, corrected), Blank)
  {
    ReplaceSkips(s, q, Tokens(s, corrected), Blank);
  }

  /** No token starts at a character that begins no option, nor at an `a`
      not followed by `d`. */
  lemma NoTokenAt(s: string, q: nat, corrected: bool)
    requires q < |s| && s[q] != 'm' && s[q] != '7' && s[q] != 's'
    requires s[q] == 'a' ==> q + 1 < |s| && s[q + 1] != 'd'
    ensures Tokens(s, corrected)(q).None?
  {
    if q + 3 <= |s| {
      assert s[q..q + 3][0] == s[q] && s[q..q + 3][1] == s[q + 1];
    }
  }

  /** No token starts inside a root. */
  lemma RootHasNoToken(s: string, r: string, q: nat, corrected: bool)
    requires IsRootSpelling(r) && |r| <= |s| && s[..|r|] == r && q < |r|
    ensures Tokens(s, corrected)(q).None?
  {
    assert s[q] == r[q];
    assert IsLetter(s[q]) || IsAccidental(s[q]);
    NoTokenAt(s, q, corrected);
  }

  /** A three-letter head spelled at `n` is one token in either order. */
  lemma LongHeadErased(s: string, n: nat, head: string, corrected: bool)
    requires head in ["sus", "add"] && n + 3 <= |s| && s[n..n + 3] == head
    ensures Tokens(s, corrected)(n) == Some(n + 3)
  {
    assert s[n] == head[0];
  }

  /** An `m` not followed by `aj` is one token in either order. */
  lemma MinorHeadErased(s: string, n: nat, corrected: bool)
    requires n < |s| && s[n] == 'm' && (n + 1 < |s| ==> s[n + 1] != 'a')
    ensures Tokens(s, corrected)(n) == Some(n + 1)
  {
    if n + 3 <= |s| {
      assert s[n..n + 3][1] == s[n + 1];
    }
  }

  /** A one-character token followed by two characters where none starts
      leaves those two characters. */
  lemma EraseFirstOfThree(s: string, n: nat, at: nat -> Option<nat>)
    requires n + 3 <= |s| && Advances(s, at)
    requires at(n) == Some(n + 1) && at(n + 1).None? && at(n + 2).None?
    ensures ReplaceTokens(s, n, at, Blank) == s[n + 1..n + 3] + ReplaceTokens(s, n + 3, at, Blank)
  {
    ReplaceTakes(s, n, n + 1, at, Blank);
    ReplaceCopiesUpTo(s, n + 1, n + 3, at, Blank);
  }

  /** As written, `maj` loses only its `m`; `a` and `j` stay. */
  lemma MajorHeadAsWritten(s: string, n: nat)
    requires n + 3 <= |s| && s[n..n + 3] == "maj" && (n + 3 < |s| ==> s[n + 3] != 'd')
    ensures ReplaceTokens(s, n, Tokens(s, false), Blank) == "aj" + ReplaceTokens(s, n + 3, Tokens(s, false), Blank)
  {
    assert s[n] == 'm' && s[n + 1] == 'a' && s[n + 2] == 'j' by {
      assert s[n..n + 3][0] == s[n] && s[n..n + 3][1] == s[n + 1] && s[n..n + 3][2] == s[n + 2];
    }
    assert Tokens(s, false)(n) == Some(n + 1);
    NoTokenAt(s, n + 1, false);
    NoTokenAt(s, n + 2, false);
    EraseFirstOfThree(s, n, Tokens(s, false));
  }

  /** Corrected, `maj` is one token. */
  lemma MajorHeadCorrected(s: string, n: nat)
    requires n + 3 <= |s| && s[n..n + 3] == "maj"
    ensures Tokens(s, true)(n) == Some(n + 3)
  {
  }

  /** How the head after the root is erased: all of it, except that as
      written `maj` leaves `aj` behind. */
  lemma HeadStep(s: string, r: string, head: string, digits: string, corrected: bool)
    requires IsRootSpelling(r) && head in ChordHeads && DigitString(digits) && s == r + head + digits
    ensures ReplaceTokens(s, |r|, Tokens(s, corrected), Blank)
            == (if head == "maj" && !corrected then "aj" else "") + ReplaceTokens(s, |r| + |head|, Tokens(s, corrected), Blank)
  {
    var n := |r|;
    if head != "" {
      assert s[n..n + |head|] == head;
      assert n + |head| < |s| ==> s[n + |head|] == digits[0];
    }
    if head == "m" {
      MinorHeadErased(s, n, corrected);
      Erased(s, n, n + 1, corrected);
    } else if head == "sus" || head == "add" {
      LongHeadErased(s, n, head, corrected);
      Erased(s, n, n + 3, corrected);
    } else if head == "maj" {
      if corrected {
        MajorHeadCorrected(s, n);
        Erased(s, n, n + 3, true);
      } else {
        MajorHeadAsWritten(s, n);
      }
    }
  }

  /** Erasing a run of digits leaves only digits. */
  lemma ErasedDigits(s: string, m0: nat, at: nat -> Option<nat>)
    requires Advances(s, at) && m0 <= |s|
    requires forall q :: m0 <= q < |s| ==> IsAsciiDigit(s[q])
    ensures DigitString(ReplaceTokens(s, m0, at, Blank))
  {
    var e := ReplaceTokens(s, m0, at, Blank);
    EraseKeepsOnly(s, m0, at, IsAsciiDigit);
    forall k | 0 <= k < |e|
      ensures IsAsciiDigit(e[k])
    {
      assert e[k] in e;
    }
  }

  /** Erasing a chord spelled as root, head and digits: with no token in
      the root, the head leaving `kept` behind and only digits after it,
      removing the digits leaves the root and `kept`. */
  lemma CleanRootHeadDigits(s: string, r: string, kept: string, m0: nat, at: nat -> Option<nat>)
    requires Advances(s, at) && |r| <= m0 <= |s| && s[..|r|] == r
    requires forall q :: 0 <= q < |r| ==> at(q).None?
    requires ReplaceTokens(s, |r|, at, Blank) == kept + ReplaceTokens(s, m0, at, Blank)
    requires forall q :: m0 <= q < |s| ==> IsAsciiDigit(s[q])
    requires RemoveDigits(r) == r && RemoveDigits(kept) == kept
    ensures RemoveDigits(Erase(s, at)) == r + kept
  {
    var e := ReplaceTokens(s, m0, at, Blank);
    assert Erase(s, at) == r + (kept + e) by {
      ReplaceCopiesUpTo(s, 0, |r|, at, Blank);
      assert s[0..|r|] == r;
    }
    assert RemoveDigits(e) == "" by {
      ErasedDigits(s, m0, at);
      DigitsVanish(e);
    }
    RemoveDigitsConcat(r, kept + e);
    RemoveDigitsConcat(kept, e);
    assert kept + "" == kept;
  }

  /** The part of a spelled chord before its slash is the root, the head
      and the digits. */
  lemma SpelledBeforeSlash(r: string, head: string, digits: string, bass: Option<string>)
    requires IsRootSpelling(r) && head in ChordHeads && DigitString(digits)
    ensures BeforeSlash(LyricKey.Spelled(r, head, digits, bass)) == r + head + digits
  {
    var q := r + head + digits;
    var tail := if bass.Some? then "/" + bass.value else "";
    assert LyricKey.Spelled(r, head, digits, bass) == q + tail;
    LyricKey.RootLacks(r);
    assert '/' !in q by {
      assert forall k :: 0 <= k < |q| ==> q[k] != '/' by {
        forall k | 0 <= k < |q|
          ensures q[k] != '/'
        {
          if k < |r| {
            assert q[k] == r[k] && r[k] in r;
          } else if k < |r| + |head| {
            assert q[k] == head[k - |r|];
          } else {
            assert q[k] == digits[k - |r| - |head|];
          }
        }
      }
    }
    BeforeSlashPrefix(q, tail);
    BeforeSlashNone(q);
    assert BeforeSlash(tail) == "";
    assert q + "" == q;
  }

  /** The digits of `r + head + digits` are where they were put. */
  lemma DigitsAtEnd(r: string, head: string, digits: string)
    requires DigitString(digits)
    ensures var s := r + head + digits;
            forall q :: |r| + |head| <= q < |s| ==> IsAsciiDigit(s[q])
  {
    var s := r + head + digits;
    assert s == (r + head) + digits;
    forall q | |r| + |head| <= q < |s|
      ensures IsAsciiDigit(s[q])
    {
      assert s[q] == digits[q - |r + head|];
    }
  }

  /** Erasing and removing digits from a root, a head and digits. */
  lemma CleanRootHead(r: string, head: string, digits: string, corrected: bool)
    requires IsRootSpelling(r) && head in ChordHeads && DigitString(digits)
    ensures var s := r + head + digits;
            RemoveDigits(Erase(s, Tokens(s, corrected))) == r + (if head == "maj" && !corrected then "aj" else "")
  {
    var s := r + head + digits;
    var at := Tokens(s, corrected);
    var kept := if head == "maj" && !corrected then "aj" else "";
    assert s[..|r|] == r;
    forall q | 0 <= q < |r|
      ensures at(q).None?
    {
      RootHasNoToken(s, r, q, corrected);
    }
    HeadStep(s, r, head, digits, corrected);
    DigitsAtEnd(r, head, digits);
    LyricKey.RootLacks(r);
    assert RemoveDigits(kept) == kept by {
      if kept != "" {
        assert RemoveDigits("j") == "j";
      }
    }
    CleanRootHeadDigits(s, r, kept, |r| + |head|, at);
  }

  /** The chord branch on a chord spelled as a root, a quality head,
      digits and a slash bass: corrected it yields the root; as written it
      yields the root too, except for a major chord, where `aj` follows. */
  lemma ChordKeyOfSpelled(r: string, head: string, digits: string, bass: Option<string>, corrected: bool)
    requires IsRootSpelling(r) && head in ChordHeads && DigitString(digits)
    ensures ChordKey(LyricKey.Spelled(r, head, digits, bass), corrected)
            == if head == "maj" && !corrected then r + "aj" else r
  {
    SpelledBeforeSlash(r, head, digits, bass);
    CleanRootHead(r, head, digits, corrected);
    assert r + "" == r;
  }

  /** The counterexample: as written, a major seventh such as `Cmaj7`
      yields the root and `aj` (`Caj`), because `m` is tried before
      `maj`. */
  lemma MajorSeventhKeyAsWritten(r: string)
    requires IsRootSpelling(r)
    ensures ChordKey(r + "maj7", false) == r + "aj"
  {
    assert LyricKey.Spelled(r, "maj", "7", None) == r + "maj7";
    ChordKeyOfSpelled(r, "maj", "7", None, false);
  }

  /** With `maj` tried first, a major seventh such as `Cmaj7` yields its
      root. */
  lemma MajorSeventhKeyCorrected(r: string)
    requires IsRootSpelling(r)
    ensures ChordKey(r + "maj7", true) == r
  {
    assert LyricKey.Spelled(r, "maj", "7", None) == r + "maj7";
    ChordKeyOfSpelled(r, "maj", "7", None, true);
  }

  // ---------------------------------------------------------------------
  // The whole extraction.

  /** The text of the first element of the page with class `name`, in
      document order, when that element exists and its text is not empty
      (an empty string is falsy, and the query does not look past the
      first element). */
  function FirstText(doc: Document, name: string): (r: Option<string>)
    ensures r.Some? ==> r.value != ""
    ensures var es := Elements([doc.head, doc.body]);
            && ((forall k :: 0 <= k < |es| ==> !Selects(ByClass(name), es[k])) ==> r.None?)
            && (forall k :: 0 <= k < |es| && Selects(ByClass(name), es[k])
                            && (forall m :: 0 <= m < k ==> !Selects(ByClass(name), es[m]))
                            ==> r == if TextContent(es[k]) != "" then Some(TextContent(es[k])) else None)
  {
    match QueryDocument(doc, ByClass(name))
    case Some(n) => if TextContent(n) != "" then Some(TextContent(n)) else None
    case None => None
  }

  /** `extractKeyFromHtml`. `inBrowser` stands for the `window` check and
      `parse` for `DOMParser`. The label wins over the chord, the chord
      over the default: a label gives its text with "key" erased and then
      trimmed, a chord its trimmed text through the chord clean-up, so a key
      read from a chord holds no `m`, no slash and no digit. */
  function ExtractKey(inBrowser: bool, html: string, parse: string -> Document, corrected: bool): (r: string)
    ensures !inBrowser ==> r == DefaultKey
    ensures inBrowser && FirstText(parse(html), LabelClass).None? ==>
              'm' !in r && '/' !in r && forall k :: 0 <= k < |r| ==> !IsAsciiDigit(r[k])
    ensures inBrowser && FirstText(parse(html), LabelClass).None? && FirstText(parse(html), ChordClass).None?
            ==> r == DefaultKey
    ensures inBrowser && FirstText(parse(html), LabelClass).Some? ==>
              r == LabelKey(FirstText(parse(html), LabelClass).value)
    ensures inBrowser && FirstText(parse(html), LabelClass).None? && FirstText(parse(html), ChordClass).Some? ==>
              r == ChordKey(Trim(FirstText(parse(html), ChordClass).value), corrected)
  {
    if !inBrowser then DefaultKey
    else
      var doc := parse(html);
      match FirstText(doc, LabelClass)
      case Some(text) => LabelKey(text)
      case None =>
        match FirstText(doc, ChordClass)
        case Some(chord) => ChordKey(Trim(chord), corrected)
        case None => DefaultKey
  }

  /** A label reading "Key" and then a key name gives the key name,
      trimmed, whatever the chords say. */
  lemma ExtractKeyFromLabel(html: string, parse: string -> Document, word: string, rest: string, corrected: bool)
    requires |word| == 3 && KeyWordAt(word, 0) && 'k' !in rest && 'K' !in rest
    requires FirstText(parse(html), LabelClass) == Some(word + rest)
    ensures ExtractKey(true, html, parse, corrected) == Trim(rest)
  {
    LabelKeyDropsWord(word, rest);
  }

  /** Without a label, a first chord spelled as root, quality head, digits
      and bass gives its root; as written a major chord gives the root and
      `aj`. */
  lemma ExtractKeyFromChord(html: string, parse: string -> Document, r: string, head: string, digits: string,
                            bass: Option<string>, corrected: bool)
    requires IsRootSpelling(r) && head in ChordHeads && DigitString(digits)
    requires FirstText(parse(html), LabelClass).None?
    requires var t := FirstText(parse(html), ChordClass);
             t.Some? && Trim(t.value) == LyricKey.Spelled(r, head, digits, bass)
    ensures ExtractKey(true, html, parse, corrected) == if head == "maj" && !corrected then r + "aj" else r
  {
    ChordKeyOfSpelled(r, head, digits, bass, corrected);
  }

}

=== FILE: key_regex.dfy ===
/** The key pattern of the blockquote fallback: `\\b([A-G][#b]?)(m|maj|7|sus|add)*\\b`,
    and the root its first capturing group reports. */
module KeyRegex {
  import opened Wrappers
  import opened Regex
  import opened Pitch
  import ChordRegex

  const KeyAccidentals: seq<string> := ["#", "b", ""]

  const KeyQualities: seq<string> := ["m", "maj", "7", "sus", "add"]

  /** The pattern tail after the root: the quality loop and the closing
      boundary. */
  const KeyTail: seq<Piece> := [Star(KeyQualities), WordBoundary]

  const KeyPattern: seq<Piece> :=
    [WordBoundary, Alt(ChordRegex.Letters), Alt(KeyAccidentals)] + KeyTail

  lemma KeyPatternWellFormed()
    ensures WellFormed(KeyPattern) && WellFormed(KeyTail)
  {
    assert forall o :: o in KeyQualities ==> |o| > 0;
  }

  /** Where the key pattern matched at `p` ends, if it does. */
  function KeyMatchAt(s: string, p: nat): Option<nat>
    requires p <= |s|
  {
    KeyPatternWellFormed();
    Match(s, p, KeyPattern)
  }

  /** Where the quality loop and closing boundary matched at `q` end. */
  function KeyTailAt(s: string, q: nat): Option<nat>
    requires q <= |s|
  {
    KeyPatternWellFormed();
    Match(s, q, KeyTail)
  }

  /** A well-formed pattern `\b(L)(A)...` whose first alternation offers
      single letters A-G and whose second offers at most one accidental. */
  predicate RootOpening(ps: seq<Piece>) {
    && WellFormed(ps) && |ps| >= 3 && ps[0] == WordBoundary && ps[1].Alt? && ps[2].Alt?
    && (forall o :: o in ps[1].options ==> |o| == 1 && IsLetter(o[0]))
    && (forall o :: o in ps[2].options ==> |o| <= 1 && (|o| == 1 ==> IsAccidental(o[0])))
  }

  lemma KeyPatternOpening()
    ensures RootOpening(KeyPattern)
    ensures KeyPattern[2].options == KeyAccidentals && KeyPattern[3..] == KeyTail
  {
    KeyPatternWellFormed();
    KeyOpeningAlternations();
  }

  lemma KeyOpeningAlternations()
    ensures forall o :: o in KeyPattern[1].options ==> |o| == 1 && IsLetter(o[0])
    ensures forall o :: o in KeyPattern[2].options ==> |o| <= 1 && (|o| == 1 ==> IsAccidental(o[0]))
  {
    ChordRegex.LettersAreLetters();
  }

  /** The tails of an opening are well formed. */
  lemma OpeningWellFormed(ps: seq<Piece>)
    requires RootOpening(ps)
    ensures ps[1..] == [ps[1]] + ps[2..] && ps[2..] == [ps[2]] + ps[3..]
    ensures WellFormed(ps[1..]) && WellFormed(ps[2..]) && WellFormed(ps[3..])
  {
    assert forall x :: x in ps[1..] ==> x in ps;
    assert forall x :: x in ps[2..] ==> x in ps;
    assert forall x :: x in ps[3..] ==> x in ps;
  }

  /** After the boundary, the pattern matches as its letter alternation
      followed by the rest, and after a letter as its accidental
      alternation followed by the tail. */
  lemma OpeningUnfolds(s: string, p: nat, q: nat, ps: seq<Piece>)
    requires p <= |s| && q <= |s| && IsBoundary(s, p) && RootOpening(ps)
    ensures WellFormed([ps[1]] + ps[2..]) && WellFormed([ps[2]] + ps[3..]) && WellFormed(ps[2..])
    ensures Match(s, p, ps) == TryOptions(s, p, ps[1], ps[1].options, ps[2..])
    ensures Match(s, q, ps[2..]) == TryOptions(s, q, ps[2], ps[2].options, ps[3..])
  {
    OpeningWellFormed(ps);
    assert ps[1..][1..] == ps[2..];
    assert ps[2..][1..] == ps[3..];
  }

  /** The opening `\\b` fails off a word boundary. */
  lemma OpeningNeedsBoundary(s: string, p: nat, ps: seq<Piece>)
    requires p <= |s| && RootOpening(ps) && !IsBoundary(s, p)
    ensures Match(s, p, ps).None?
  {
  }

  /** Two literals spelled one after the other spell their
      concatenation. */
  lemma LiteralPair(s: string, p: nat, l: string, a: string)
    requires LiteralAt(s, p, l) && LiteralAt(s, p + |l|, a)
    ensures LiteralAt(s, p, l + a)
  {
    assert s[p..p + |l + a|] == s[p..p + |l|] + s[p + |l|..p + |l| + |a|];
  }

  /** The text of a capturing group around the two opening alternations
      of a match starting at `p`: the letter and the accidental the
      backtracking chose. It exists exactly when the whole pattern
      matches at `p`, and it is a root spelled at `p`, inside the match. */
  function RootCapture(s: string, p: nat, ps: seq<Piece>): (r: Option<string>)
    requires p <= |s| && RootOpening(ps)
    ensures r.Some? <==> Match(s, p, ps).Some?
    ensures r.Some? ==> IsRootSpelling(r.value) && LiteralAt(s, p, r.value)
    ensures r.Some? ==> p + |r.value| <= Match(s, p, ps).value
  {
    if !IsBoundary(s, p) then
      OpeningNeedsBoundary(s, p, ps);
      None
    else
      OpeningUnfolds(s, p, p, ps);
      match Chosen(s, p, ps[1], ps[1].options, ps[2..])
      case None => None
      case Some(l) =>
        OpeningUnfolds(s, p, p + |l|, ps);
        match Chosen(s, p + |l|, ps[2], ps[2].options, ps[3..])
        case None => None
        case Some(a) =>
          LiteralPair(s, p, l, a);
          assert (l + a)[0] == l[0];
          assert |a| == 1 ==> (l + a)[1] == a[0];
          Some(l + a)
  }

  /** The accidental alternation `[#b]?` is greedy: the backtracking takes
      `#` or `b` exactly when that character follows and the rest of the
      pattern still matches after it. */
  lemma {:induction false} AccidentalChoice(s: string, q: nat, ps: seq<Piece>)
    requires q <= |s| && RootOpening(ps) && ps[2].options == ["#", "b", ""]
    ensures WellFormed([ps[2]] + ps[3..]) && WellFormed(ps[3..])
    ensures var r := Chosen(s, q, ps[2], ps[2].options, ps[3..]);
            r.Some? ==> (|r.value| == 1 <==> q < |s| && s[q] in {'#', 'b'} && Match(s, q + 1, ps[3..]).Some?)
  {
    OpeningWellFormed(ps);
    var os := ps[2].options;
    ChosenFirst(s, q, ps[2], os, ps[3..]);
    var r := Chosen(s, q, ps[2], os, ps[3..]);
    if r.Some? {
      var k :| 0 <= k < 3 && os[k] == r.value && Takes(s, q, os[k], ps[3..])
               && forall m :: 0 <= m < k ==> !Takes(s, q, os[m], ps[3..]);
      TakesOneChar(s, q, '#', ps[3..]);
      TakesOneChar(s, q, 'b', ps[3..]);
      assert os[0] == "#" && os[1] == "b" && os[2] == "";
    }
  }

  /** A one-character option takes exactly when that character is next
      and the rest matches after it. */
  lemma TakesOneChar(s: string, q: nat, c: char, rest: seq<Piece>)
    requires q <= |s| && WellFormed(rest)
    ensures Takes(s, q, [c], rest) <==> q < |s| && s[q] == c && Match(s, q + 1, rest).Some?
  {
    if q < |s| && s[q] == c {
      assert s[q..q + 1] == [c];
    }
  }

  /** A captured root carries an accidental exactly when `#` or `b`
      follows the letter and the rest of the pattern still matches after
      it. */
  lemma RootGreedy(s: string, p: nat, ps: seq<Piece>)
    requires p <= |s| && RootOpening(ps) && ps[2].options == ["#", "b", ""]
    ensures WellFormed(ps[3..])
    ensures var r := RootCapture(s, p, ps);
            r.Some? ==> (|r.value| == 2 <==> p + 1 < |s| && s[p + 1] in {'#', 'b'} && Match(s, p + 2, ps[3..]).Some?)
  {
    OpeningWellFormed(ps);
    if IsBoundary(s, p) {
      OpeningUnfolds(s, p, p, ps);
      var l := Chosen(s, p, ps[1], ps[1].options, ps[2..]);
      if l.Some? {
        assert |l.value| == 1;
        OpeningUnfolds(s, p, p + 1, ps);
        AccidentalChoice(s, p + 1, ps);
      }
    }
  }

  /** The text of the first capturing group `([A-G][#b]?)` of the key
      pattern for a match starting at `p`. The capture exists exactly when
      the whole pattern matches at `p`, and it is a root spelled at `p`,
      inside the match: a letter A to G, then at most one `#` or `b`. */
  function KeyRootAt(s: string, p: nat): (r: Option<string>)
    requires p <= |s|
    ensures r.Some? <==> KeyMatchAt(s, p).Some?
    ensures r.Some? ==> IsRootSpelling(r.value) && LiteralAt(s, p, r.value)
    ensures r.Some? ==> p + |r.value| <= KeyMatchAt(s, p).value
  {
    KeyPatternOpening();
    RootCapture(s, p, KeyPattern)
  }

  /** The captured root carries an accidental exactly when `#` or `b`
      follows the letter and the quality loop and closing `\b` still match
      after it: `[#b]?` is greedy. */
  lemma KeyRootGreedy(s: string, p: nat)
    requires p <= |s|
    ensures var r := KeyRootAt(s, p);
            r.Some? ==> (|r.value| == 2 <==> p + 1 < |s| && s[p + 1] in {'#', 'b'} && KeyTailAt(s, p + 2).Some?)
  {
    KeyPatternOpening();
    RootGreedy(s, p, KeyPattern);
  }

  /** `content.match(KEY_REGEX)?.[1]`: the root of the first match. */
  function BlockquoteRoot(content: string): (r: Option<string>)
    ensures r.Some? ==> IsRootSpelling(r.value)
    ensures r.None? <==> forall q :: 0 <= q <= |content| ==> KeyMatchAt(content, q).None?
    ensures forall q :: 0 <= q <= |content| && KeyMatchAt(content, q).Some?
                        && (forall q' :: 0 <= q' < q ==> KeyMatchAt(content, q').None?)
                        ==> r == KeyRootAt(content, q)
  {
    KeyPatternWellFormed();
    BlockquoteRootLeftmost(content);
    match FirstMatch(content, 0, KeyPattern)
    case None => None
    case Some((p, _)) =>
      KeyRootAt(content, p)
  }

  lemma BlockquoteRootLeftmost(content: string)
    ensures WellFormed(KeyPattern)
    ensures forall q :: 0 <= q <= |content| && KeyMatchAt(content, q).Some?
                        && (forall q' :: 0 <= q' < q ==> KeyMatchAt(content, q').None?)
                        ==> FirstMatch(content, 0, KeyPattern) == Some((q, KeyMatchAt(content, q).value))
  {
    KeyPatternWellFormed();
    forall q | 0 <= q <= |content| && KeyMatchAt(content, q).Some?
               && (forall q' :: 0 <= q' < q ==> KeyMatchAt(content, q').None?)
      ensures FirstMatch(content, 0, KeyPattern) == Some((q, KeyMatchAt(content, q).value))
    {
      forall q' | 0 <= q' < q ensures Match(content, q', KeyPattern).None? {
        assert KeyMatchAt(content, q').None?;
      }
      FirstMatchLeftmost(content, 0, KeyPattern, q);
    }
  }
}

=== FILE: key_selector.dfy ===
/** The key picker's row of buttons (src/components/KeySelector.tsx): the
    twelve keys, rotated so that the song's original key sits in the
    sixth place with five keys to its left and six to its right. */
module KeySelector {
  import opened JsString
  import opened Pitch

  /** The keys offered, chromatically from C, with the flat spellings the
      picker prefers for E flat, A flat and B flat. */
  const AllKeys: seq<string> := ["C", "C#", "D", "Eb", "E", "F", "F#", "G", "Ab", "A", "Bb", "B"]

  /** How many keys are shown before the original one. */
  const RotateAmount: nat := 5

  /** Key number k of the list is k semitones above C. */
  lemma AllKeysArePitches(k: nat)
    requires k < 12
    ensures KeyIndex(AllKeys[k]) == k
  {
    match k
    case 0 => case 1 => case 2 => case 3 => case 4 => case 5 =>
    case 6 => case 7 => case 8 => case 9 => case 10 => case 11 =>
  }

  /** Where the button row starts: the original key's index moved back by
      `RotateAmount`, wrapped once into range. */
  function StartIndex(origIndex: nat): (r: nat)
    requires origIndex < |AllKeys|
    ensures r < |AllKeys| && (r + RotateAmount) % 12 == origIndex
  {
    if origIndex - RotateAmount < 0 then origIndex - RotateAmount + |AllKeys| else origIndex - RotateAmount
  }

  /** `ALL_KEYS.indexOf(key)` read off the characters of `key` (see
      `AllKeysIndexIsIndexOf`). */
  function AllKeysIndex(key: string): int {
    if |key| == 1 then
      match key[0]
      case 'C' => 0 case 'D' => 2 case 'E' => 4 case 'F' => 5 case 'G' => 7 case 'A' => 9 case 'B' => 11
      case _ => -1
    else if |key| == 2 && key[1] == '#' then
      match key[0]
      case 'C' => 1 case 'F' => 6
      case _ => -1
    else if |key| == 2 && key[1] == 'b' then
      match key[0]
      case 'E' => 3 case 'A' => 8 case 'B' => 10
      case _ => -1
    else -1
  }

  lemma AllKeysIndexIsIndexOf(key: string)
    ensures IndexOf(AllKeys, key) == AllKeysIndex(key)
  {
    IndexOfSpec(AllKeys, key);
    AllKeysIndexFound(key);
    var r := IndexOf(AllKeys, key);
    if r >= 0 {
      AllKeysIndexInverts(r);
    }
  }

  /** A key the character reading accepts is the list entry at that index. */
  lemma AllKeysIndexFound(key: string)
    ensures var i := AllKeysIndex(key);
            -1 <= i < |AllKeys| && (i >= 0 ==> AllKeys[i] == key)
  {
    if |key| == 1 {
      assert key == [key[0]];
    } else if |key| == 2 {
      assert key == [key[0], key[1]];
    }
  }

  /** The character reading gives every entry of the list its own index. */
  lemma AllKeysIndexInverts(k: nat)
    requires k < |AllKeys|
    ensures AllKeysIndex(AllKeys[k]) == k
  {
    match k
    case 0 => case 1 => case 2 => case 3 => case 4 => case 5 =>
    case 6 => case 7 => case 8 => case 9 => case 10 => case 11 =>
  }

  /** `xs.slice(start)` followed by `xs.slice(0, start)`: entry k is the
      one `start` places further round the circle. */
  function Rotate<T>(xs: seq<T>, start: nat): (r: seq<T>)
    requires start < |xs|
    ensures |r| == |xs|
    ensures forall k :: 0 <= k < |xs| ==> r[k] == xs[(start + k) % |xs|]
  {
    assert xs == xs[..start] + xs[start..];
    var r := xs[start..] + xs[..start];
    forall k | 0 <= k < |xs|
      ensures r[k] == xs[(start + k) % |xs|]
    {
      WrapOnce(start + k, |xs|);
    }
    r
  }

  /** Reducing a number below twice the modulus subtracts it at most once. */
  lemma WrapOnce(a: nat, n: nat)
    requires 0 < n && a < 2 * n
    ensures a % n == if a < n then a else a - n
  {
    if a >= n {
      assert a == 1 * n + (a - n);
    }
  }

  /** `reorderedKeys`: the list itself for a key it does not contain,
      otherwise the list rotated to start `RotateAmount` places before the
      original key. */
  function ReorderedKeys(originalKey: string): (r: seq<string>)
    ensures |r| == |AllKeys|
    ensures originalKey in AllKeys ==> r[RotateAmount] == originalKey
    ensures originalKey !in AllKeys ==> r == AllKeys
  {
    IndexOfSpec(AllKeys, originalKey);
    var origIndex := IndexOf(AllKeys, originalKey);
    if origIndex == -1 then AllKeys
    else
      var row := Rotate(AllKeys, StartIndex(origIndex));
      assert row[RotateAmount] == AllKeys[(StartIndex(origIndex) + RotateAmount) % |AllKeys|];
      row
  }

  /** Key number i of the list is found at i, and is i semitones above C. */
  lemma KeyAt(i: nat)
    requires i < |AllKeys|
    ensures IndexOf(AllKeys, AllKeys[i]) == i && KeyIndex(AllKeys[i]) == i
  {
    AllKeysIndexIsIndexOf(AllKeys[i]);
    AllKeysArePitches(i);
    match i
    case 0 => case 1 => case 2 => case 3 => case 4 => case 5 =>
    case 6 => case 7 => case 8 => case 9 => case 10 => case 11 =>
  }

  /** A rotation is a permutation. */
  lemma RotationPermutes<T>(xs: seq<T>, start: nat)
    requires start < |xs|
    ensures multiset(Rotate(xs, start)) == multiset(xs)
  {
    assert xs == xs[..start] + xs[start..];
  }

  /** The row shows every key exactly once. */
  lemma ReorderedKeysPermutes(originalKey: string)
    ensures multiset(ReorderedKeys(originalKey)) == multiset(AllKeys)
  {
    var origIndex := IndexOf(AllKeys, originalKey);
    if origIndex != -1 {
      IndexOfSpec(AllKeys, originalKey);
      RotationPermutes(AllKeys, StartIndex(origIndex));
    }
  }

  /** The row is the list rotated so that the original key number i sits
      at the centre: button k shows key number i + k - 5, wrapping
      around. */
  lemma ReorderedKeysRotates(i: nat, k: nat)
    requires i < |AllKeys| && k < |AllKeys|
    ensures ReorderedKeys(AllKeys[i])[k] == AllKeys[(i + k + 12 - RotateAmount) % 12]
  {
    RowPosition(i, k);
    StartShift(i, k);
  }

  /** The row is a chromatic scale centred on the original key: the button
      k places along is k - 5 semitones from key number i, which is i
      semitones above C (modulo the octave). */
  lemma ReorderedKeysChromatic(i: nat, k: nat)
    requires i < |AllKeys| && k < |AllKeys|
    ensures KeyIndex(AllKeys[i]) == i
    ensures KeyIndex(ReorderedKeys(AllKeys[i])[k]) == (i + k + 12 - RotateAmount) % 12
  {
    var m := (i + k + 12 - RotateAmount) % 12;
    ReorderedKeysRotates(i, k);
    AllKeysArePitches(m);
    AllKeysArePitches(i);
    assert KeyIndex(ReorderedKeys(AllKeys[i])[k]) == KeyIndex(AllKeys[m]);
  }

  /** Button k of the row centred on key number i is key number
      start + k of the list, wrapping around. */
  lemma RowPosition(i: nat, k: nat)
    requires i < |AllKeys| && k < |AllKeys|
    ensures ReorderedKeys(AllKeys[i])[k] == AllKeys[(StartIndex(i) + k) % 12]
  {
    KeyAt(i);
    assert ReorderedKeys(AllKeys[i]) == Rotate(AllKeys, StartIndex(i));
  }

  /** Counting k from the start of the row is counting k - 5 from the
      original key. */
  lemma StartShift(i: nat, k: nat)
    requires i < |AllKeys|
    ensures (StartIndex(i) + k) % 12 == (i + k + 12 - RotateAmount) % 12
  {
    if i >= RotateAmount {
      assert (StartIndex(i) + k + 12) % 12 == (StartIndex(i) + k) % 12;
    }
  }

  /** The sharp spellings of D sharp, G sharp and A sharp, which the
      transposition table produces, are not in the list, so for them the
      row is not rotated. */
  lemma SharpNamesNotCentred(originalKey: string)
    requires |originalKey| == 2 && originalKey[0] in "DGA" && originalKey[1] == '#'
    ensures ReorderedKeys(originalKey) == AllKeys
  {
    AllKeysIndexIsIndexOf(originalKey);
    assert AllKeysIndex(originalKey) == -1;
    IndexOfSpec(AllKeys, originalKey);
    assert originalKey !in AllKeys;
  }
}

=== FILE: lyric_key.dfy ===
/** Key detection over parsed lines: the first chord of the first lyric
    line that has one, cleaned down to its root, or the root the key
    pattern finds in a blockquote. */
module LyricKey {
  import opened Wrappers
  import opened JsString
  import opened Pitch
  import opened LyricsParser
  import KeyRegex

  /** The clean-up of a lyric chord as written: the part before the
      slash, then one occurrence each of `m`, `7`, `maj` and `sus` removed
      in that order, then every digit. */
  function CleanLyricChord(c: string): string {
    RemoveDigits(RemoveFirst(RemoveFirst(RemoveFirst(RemoveFirst(BeforeSlash(c), "m"), "7"), "maj"), "sus"))
  }

  /** The same clean-up with `maj` removed before `m`. */
  function CleanLyricChordCorrected(c: string): string {
    RemoveDigits(RemoveFirst(RemoveFirst(RemoveFirst(RemoveFirst(BeforeSlash(c), "maj"), "m"), "7"), "sus"))
  }

  /** A root holds none of the characters the clean-up looks for. */
  lemma RootLacks(r: string)
    requires IsRootSpelling(r)
    ensures 'm' !in r && '7' !in r && 's' !in r && '/' !in r
    ensures RemoveDigits(r) == r
  {
    assert forall c :: c in r ==> IsLetter(c) || IsAccidental(c);
    assert RemoveDigits(r[1..]) == r[1..];
  }

  /** The clean-up never touches the root: cleaning a chord spelled as a
      root followed by anything gives the root followed by the cleaned
      rest. */
  lemma CleanKeepsRoot(r: string, x: string)
    requires IsRootSpelling(r)
    ensures CleanLyricChord(r + x) == r + CleanLyricChord(x)
  {
    RootLacks(r);
    BeforeSlashPrefix(r, x);
    var b := BeforeSlash(x);
    var m := RemoveFirst(b, "m");
    var m7 := RemoveFirst(m, "7");
    var m7j := RemoveFirst(m7, "maj");
    RemoveFirstAfterPrefix(r, b, "m");
    RemoveFirstAfterPrefix(r, m, "7");
    RemoveFirstAfterPrefix(r, m7, "maj");
    RemoveFirstAfterPrefix(r, m7j, "sus");
    RemoveDigitsConcat(r, RemoveFirst(m7j, "sus"));
  }

  /** The same for the corrected order. */
  lemma CleanKeepsRootCorrected(r: string, x: string)
    requires IsRootSpelling(r)
    ensures CleanLyricChordCorrected(r + x) == r + CleanLyricChordCorrected(x)
  {
    RootLacks(r);
    BeforeSlashPrefix(r, x);
    var b := BeforeSlash(x);
    var j := RemoveFirst(b, "maj");
    var jm := RemoveFirst(j, "m");
    var jm7 := RemoveFirst(jm, "7");
    RemoveFirstAfterPrefix(r, b, "maj");
    RemoveFirstAfterPrefix(r, j, "m");
    RemoveFirstAfterPrefix(r, jm, "7");
    RemoveFirstAfterPrefix(r, jm7, "sus");
    RemoveDigitsConcat(r, RemoveFirst(jm7, "sus"));
  }

  /** The chord of the first group of a lyric line whose chord is
      neither missing nor empty. */
  function FirstChordOf(gs: seq<ChordGroup>): (r: Option<string>)
    ensures r.Some? ==> r.value != "" && exists k :: 0 <= k < |gs| && gs[k].chord == r
    ensures r.None? <==> forall k :: 0 <= k < |gs| ==> gs[k].chord.None? || gs[k].chord.value == ""
    ensures forall k :: 0 <= k < |gs| && gs[k].chord.Some? && gs[k].chord.value != ""
                        && (forall m :: 0 <= m < k ==> gs[m].chord.None? || gs[m].chord.value == "")
                        ==> r == gs[k].chord
  {
    if |gs| == 0 then None
    else if gs[0].chord.Some? && gs[0].chord.value != "" then gs[0].chord
    else
      var r := FirstChordOf(gs[1..]);
      assert forall k :: 1 <= k < |gs| ==> gs[k] == gs[1..][k - 1];
      r
  }

  /** The key one line yields, if the scan stops at it. */
  function LineKey(line: LineData, clean: string -> string): Option<string> {
    match line
    case Lyric(gs) => if FirstChordOf(gs).Some? then Some(clean(FirstChordOf(gs).value)) else None
    case Blockquote(c) => KeyRegex.BlockquoteRoot(c)
  }

  /** The scan of `detectKeyFromLines` with a chord clean-up `clean`: the
      key of the first line that yields one, or the empty string. */
  function FirstKey(lines: seq<LineData>, clean: string -> string): (r: string)
    ensures (forall i :: 0 <= i < |lines| ==> LineKey(lines[i], clean).None?) ==> r == ""
    ensures forall i :: 0 <= i < |lines| && LineKey(lines[i], clean).Some?
                        && (forall j :: 0 <= j < i ==> LineKey(lines[j], clean).None?)
                        ==> r == LineKey(lines[i], clean).value
  {
    if |lines| == 0 then ""
    else
      match LineKey(lines[0], clean)
      case Some(k) => k
      case None =>
        var r := FirstKey(lines[1..], clean);
        assert forall i :: 1 <= i < |lines| ==> lines[i] == lines[1..][i - 1];
        r
  }

  /** `detectKeyFromLines` as written. */
  function DetectKeyFromLines(lines: seq<LineData>): string {
    FirstKey(lines, CleanLyricChord)
  }

  /** `detectKeyFromLines` with the corrected clean-up. */
  function DetectKeyFromLinesCorrected(lines: seq<LineData>): string {
    FirstKey(lines, CleanLyricChordCorrected)
  }

  /** A blockquote's key is always a root spelling. */
  lemma BlockquoteKeyIsRoot(content: string)
    ensures forall clean: string -> string :: LineKey(Blockquote(content), clean).Some? ==>
              IsRootSpelling(LineKey(Blockquote(content), clean).value)
  {
  }

  /** The beginnings of the chord suffixes both clean-ups are meant to
      remove entirely: followed by any run of digits they spell the plain,
      minor, major and suspended chords with their numbered extensions
      (`C`, `C7`, `Cm`, `Cm9`, `Cmaj7`, `Csus4`, `C13`, ...). */
  const QualityHeads: seq<string> := ["", "m", "maj", "sus"]

  /** The digit step shared by both orders: removing one `7`, then
      looking for `sus`, then removing every digit leaves nothing of a run
      of digits. */
  lemma DigitsCleaned(d: string)
    requires DigitString(d)
    ensures DigitString(RemoveFirst(d, "7"))
    ensures RemoveFirst(RemoveFirst(d, "7"), "sus") == RemoveFirst(d, "7")
    ensures RemoveDigits(RemoveFirst(d, "7")) == ""
  {
    var d1 := RemoveFirst(d, "7");
    RemoveFirstKeepsDigits(d, "7");
    NoOccurrence(d1, "sus", 0);
    DigitsVanish(d1);
  }

  /** With `maj` removed before `m`, a suffix made of a quality head and
      digits is removed entirely. */
  lemma CorrectedCleansQuality(head: string, digits: string)
    requires head in QualityHeads && DigitString(digits)
    ensures CleanLyricChordCorrected(head + digits) == ""
  {
    if head == "maj" {
      CorrectedCleansMajor(digits);
    } else if head == "m" {
      CorrectedCleansMinor(digits);
    } else if head == "sus" {
      CorrectedCleansSus(digits);
    } else {
      assert head + digits == digits;
      CorrectedCleansDigits(digits);
    }
  }

  lemma CorrectedCleansMajor(digits: string)
    requires DigitString(digits)
    ensures CleanLyricChordCorrected("maj" + digits) == ""
  {
    BeforeSlashNone("maj" + digits);
    DigitsCleaned(digits);
    RemovedHead("maj", digits);
    NoOccurrence(digits, "m", 0);
  }

  lemma CorrectedCleansMinor(digits: string)
    requires DigitString(digits)
    ensures CleanLyricChordCorrected("m" + digits) == ""
  {
    BeforeSlashNone("m" + digits);
    DigitsCleaned(digits);
    NoOccurrence("m" + digits, "maj", 1);
    RemovedHead("m", digits);
  }

  lemma CorrectedCleansSus(digits: string)
    requires DigitString(digits)
    ensures CleanLyricChordCorrected("sus" + digits) == ""
  {
    var s0 := "sus" + digits;
    BeforeSlashNone(s0);
    DigitsCleaned(digits);
    NoOccurrence(s0, "maj", 0);
    NoOccurrence(s0, "m", 0);
    RemoveFirstAfterPrefix("sus", digits, "7");
    RemovedHead("sus", RemoveFirst(digits, "7"));
  }

  lemma CorrectedCleansDigits(digits: string)
    requires DigitString(digits)
    ensures CleanLyricChordCorrected(digits) == ""
  {
    BeforeSlashNone(digits);
    DigitsCleaned(digits);
    NoOccurrence(digits, "maj", 0);
    NoOccurrence(digits, "m", 0);
  }

  /** As written, the same holds for every head but `maj`. */
  lemma CleansQualityAsWritten(head: string, digits: string)
    requires head in QualityHeads && head != "maj" && DigitString(digits)
    ensures CleanLyricChord(head + digits) == ""
  {
    if head == "m" {
      CleansMinorAsWritten(digits);
    } else if head == "sus" {
      CleansSusAsWritten(digits);
    } else {
      assert head + digits == digits;
      CleansDigitsAsWritten(digits);
    }
  }

  lemma CleansMinorAsWritten(digits: string)
    requires DigitString(digits)
    ensures CleanLyricChord("m" + digits) == ""
  {
    BeforeSlashNone("m" + digits);
    DigitsCleaned(digits);
    RemovedHead("m", digits);
    NoOccurrence(RemoveFirst(digits, "7"), "maj", 0);
  }

  lemma CleansSusAsWritten(digits: string)
    requires DigitString(digits)
    ensures CleanLyricChord("sus" + digits) == ""
  {
    var s0 := "sus" + digits;
    var d1 := RemoveFirst(digits, "7");
    BeforeSlashNone(s0);
    DigitsCleaned(digits);
    NoOccurrence(s0, "m", 0);
    RemoveFirstAfterPrefix("sus", digits, "7");
    NoOccurrence("sus" + d1, "maj", 0);
    RemovedHead("sus", d1);
  }

  lemma CleansDigitsAsWritten(digits: string)
    requires DigitString(digits)
    ensures CleanLyricChord(digits) == ""
  {
    BeforeSlashNone(digits);
    DigitsCleaned(digits);
    NoOccurrence(digits, "m", 0);
    NoOccurrence(RemoveFirst(digits, "7"), "maj", 0);
  }

  /** As written, `maj` loses its `m` to the first step, so the `maj` step
      finds nothing and `aj` survives. */
  lemma CleansMajorAsWritten(digits: string)
    requires DigitString(digits)
    ensures CleanLyricChord("maj" + digits) == "aj"
  {
    var s0 := "maj" + digits;
    var d1 := RemoveFirst(digits, "7");
    BeforeSlashNone(s0);
    DigitsCleaned(digits);
    assert s0 == "m" + ("aj" + digits);
    RemovedHead("m", "aj" + digits);
    RemoveFirstAfterPrefix("aj", digits, "7");
    NoOccurrence("aj" + d1, "maj", 0);
    NoOccurrence("aj" + d1, "sus", 0);
    RemoveDigitsConcat("aj", d1);
    assert RemoveDigits("aj") == "aj" by {
      assert RemoveDigits("j") == "j";
    }
  }

  /** A chord spelled as a root, a quality head, digits and optionally a
      slash bass. */
  function Spelled(r: string, head: string, digits: string, bass: Option<string>): string {
    r + head + digits + (if bass.Some? then "/" + bass.value else "")
  }

  /** Cleaning such a chord is cleaning the root-free part after the root. */
  lemma CleanSpelled(r: string, head: string, digits: string, bass: Option<string>)
    requires IsRootSpelling(r) && head in QualityHeads && DigitString(digits)
    ensures CleanLyricChord(Spelled(r, head, digits, bass)) == r + CleanLyricChord(head + digits)
    ensures CleanLyricChordCorrected(Spelled(r, head, digits, bass))
            == r + CleanLyricChordCorrected(head + digits)
  {
    var q := head + digits;
    var tail := if bass.Some? then "/" + bass.value else "";
    assert Spelled(r, head, digits, bass) == r + (q + tail);
    assert '/' !in q;
    BeforeSlashPrefix(q, tail);
    assert BeforeSlash(tail) == "";
    assert BeforeSlash(q + tail) == BeforeSlash(q) by {
      BeforeSlashNone(q);
    }
    CleanKeepsRoot(r, q + tail);
    CleanKeepsRootCorrected(r, q + tail);
    assert CleanLyricChord(q + tail) == CleanLyricChord(q);
    assert CleanLyricChordCorrected(q + tail) == CleanLyricChordCorrected(q);
  }

  /** The evidently intended result: such a chord is cleaned to its root. */
  lemma CorrectedCleanIsRoot(r: string, head: string, digits: string, bass: Option<string>)
    requires IsRootSpelling(r) && head in QualityHeads && DigitString(digits)
    ensures CleanLyricChordCorrected(Spelled(r, head, digits, bass)) == r
  {
    CleanSpelled(r, head, digits, bass);
    CorrectedCleansQuality(head, digits);
  }

  /** As written, the result is the root exactly when the head is not
      `maj`; a major chord is cleaned to its root followed by `aj`. */
  lemma CleanIsRootAsWritten(r: string, head: string, digits: string, bass: Option<string>)
    requires IsRootSpelling(r) && head in QualityHeads && DigitString(digits)
    ensures CleanLyricChord(Spelled(r, head, digits, bass)) == if head == "maj" then r + "aj" else r
  {
    CleanSpelled(r, head, digits, bass);
    if head == "maj" {
      CleansMajorAsWritten(digits);
    } else {
      CleansQualityAsWritten(head, digits);
    }
  }

  /** The examples the source gives for the clean-up hold as written. */
  lemma CleanLyricChordExamples()
    ensures CleanLyricChord("Asus4") == "A"
    ensures CleanLyricChord("C#m") == "C#"
  {
    CleanIsRootAsWritten("A", "sus", "4", None);
    assert Spelled("A", "sus", "4", None) == "Asus4";
    CleanIsRootAsWritten("C#", "m", "", None);
    assert Spelled("C#", "m", "", None) == "C#m";
  }

  /** The counterexample: a major seventh such as `Cmaj7` is cleaned to
      its root and `aj` (`Caj`) as written. */
  lemma CleanMajorSeventh(r: string)
    requires IsRootSpelling(r)
    ensures CleanLyricChord(r + "maj7") == r + "aj"
  {
    assert Spelled(r, "maj", "7", None) == r + "maj7";
    CleanIsRootAsWritten(r, "maj", "7", None);
  }

  /** Corrected, a major seventh such as `Cmaj7` is cleaned to its root. */
  lemma CorrectedCleanMajorSeventh(r: string)
    requires IsRootSpelling(r)
    ensures CleanLyricChordCorrected(r + "maj7") == r
  {
    assert Spelled(r, "maj", "7", None) == r + "maj7";
    CorrectedCleanIsRoot(r, "maj", "7", None);
  }

  /** On a sheet whose first chord is a major chord, the detected key is
      the root followed by `aj` as written, and the root once corrected. */
  lemma DetectKeyMajorSheet(gs: seq<ChordGroup>, rest: seq<LineData>, r: string, digits: string)
    requires IsRootSpelling(r) && DigitString(digits)
    requires FirstChordOf(gs) == Some(Spelled(r, "maj", digits, None))
    ensures DetectKeyFromLines([Lyric(gs)] + rest) == r + "aj"
    ensures DetectKeyFromLinesCorrected([Lyric(gs)] + rest) == r
  {
    CleanIsRootAsWritten(r, "maj", digits, None);
    CorrectedCleanIsRoot(r, "maj", digits, None);
    var lines := [Lyric(gs)] + rest;
    assert lines[0] == Lyric(gs);
  }
}

=== FILE: lyrics_parser.dfy ===
/** The lyric-sheet parser: raw song HTML to display lines, and the key
    detection over those lines. */
module LyricsParser {
  import opened Wrappers
  import opened JsString
  import opened Dom
  import opened Paragraph
  import opened Pitch
  import KeyRegex

  /** One chord over a stretch of lyric text. `chord` is `None` only for
      the trailing text after the last chord. (The constant `type: 'pair'`
      field is not modelled.) */
  datatype ChordGroup = ChordGroup(id: string, text: string, chord: Option<string>)

  /** A display line: a cleaned blockquote (intro, instrumental) kept as
      HTML, or a lyric line as chord groups. */
  datatype LineData = Blockquote(content: string) | Lyric(groups: seq<ChordGroup>)

  /** The id of the group at position `k`: `g-` then `k` in decimal. */
  function GroupId(k: nat): string {
    "g-" + Decimal(k)
  }

  /** Distinct positions get distinct ids. */
  lemma GroupIdInjective(a: nat, b: nat)
    requires GroupId(a) == GroupId(b)
    ensures a == b
  {
    assert Decimal(a) == GroupId(a)[2..];
    assert Decimal(b) == GroupId(b)[2..];
    DecimalInjective(a, b);
  }

  /** The groups closed by the markers: group `k` holds the text before
      marker `k` and that marker's text as its chord. */
  function ClosedGroups(rs: seq<Run>): (r: seq<ChordGroup>)
    ensures |r| == |rs|
  {
    seq(|rs|, k requires 0 <= k < |rs| => ChordGroup(GroupId(k), rs[k].text, Some(TextContent(rs[k].marker))))
  }

  /** What `parseLyricLine` returns for a paragraph with children `ns`:
      the closed groups, then the trailing text as a chordless group when
      it is not empty. */
  function LyricGroups(ns: seq<Node>): seq<ChordGroup> {
    var rs, tail := Runs(ns), Trailing(ns);
    ClosedGroups(rs) + (if tail == "" then [] else [ChordGroup(GroupId(|rs|), tail, None)])
  }

  /** `parseLyricLine`: one pass over the child nodes, accumulating text
      and closing a group at every `c_chord` element. */
  method ParseLyricLine(children: seq<Node>) returns (groups: seq<ChordGroup>)
    ensures groups == LyricGroups(children)
  {
    groups := [];
    var currentText := "";
    var i := 0;
    while i < |children|
      invariant 0 <= i <= |children|
      invariant groups == ClosedGroups(Runs(children[..i]))
      invariant currentText == Trailing(children[..i])
    {
      var node := children[i];
      assert children[..i + 1] == children[..i] + [node];
      if node.Text? {
        currentText := currentText + node.data;
      } else if node.Element? && "c_chord" in node.classes {
        ClosedGroupsSnoc(Runs(children[..i]), Run(node, currentText));
        groups := groups + [ChordGroup(GroupId(|groups|), currentText, Some(TextContent(node)))];
        currentText := "";
      }
      i := i + 1;
    }
    assert children[..i] == children;
    if currentText != "" {
      groups := groups + [ChordGroup(GroupId(|groups|), currentText, None)];
    }
  }

  lemma ClosedGroupsSnoc(rs: seq<Run>, last: Run)
    ensures ClosedGroups(rs + [last])
            == ClosedGroups(rs) + [ChordGroup(GroupId(|rs|), last.text, Some(TextContent(last.marker)))]
  {
    var a, b := ClosedGroups(rs + [last]), ClosedGroups(rs) + [ChordGroup(GroupId(|rs|), last.text, Some(TextContent(last.marker)))];
    assert forall k :: 0 <= k < |a| ==> a[k] == b[k];
  }

  /** The concatenated texts of a list of groups. */
  function GroupText(gs: seq<ChordGroup>): string {
    if |gs| == 0 then "" else GroupText(gs[..|gs| - 1]) + gs[|gs| - 1].text
  }

  lemma {:induction false} ClosedGroupsText(rs: seq<Run>)
    ensures GroupText(ClosedGroups(rs)) == RunText(rs)
    decreases |rs|
  {
    if |rs| > 0 {
      var init := rs[..|rs| - 1];
      assert rs == init + [rs[|rs| - 1]];
      ClosedGroupsSnoc(init, rs[|rs| - 1]);
      ClosedGroupsText(init);
      var gs := ClosedGroups(rs);
      assert gs[..|gs| - 1] == ClosedGroups(init);
    }
  }

  /** What the groups of a lyric line mean: one group per chord marker, in
      order, each carrying that marker's text, numbered `g-0`, `g-1`, ...,
      the group of the marker at child `j` holding the text gathered since
      the previous marker (`TrailingAfterLastMarker` says which text that
      is); and one chordless group more exactly when text follows the last
      marker. */
  lemma LyricGroupsMeaning(ns: seq<Node>)
    ensures var gs, ms := LyricGroups(ns), Markers(ns);
            && |gs| == |ms| + (if Trailing(ns) == "" then 0 else 1)
            && (forall k :: 0 <= k < |gs| ==> gs[k].id == GroupId(k))
            && (forall k :: 0 <= k < |ms| ==> gs[k].chord == Some(TextContent(ms[k])))
            && (|gs| > |ms| ==> gs[|ms|].chord.None? && gs[|ms|].text == Trailing(ns) != "")
            && (forall j :: 0 <= j < |ns| && IsMarker(ns[j])
                  ==> |Markers(ns[..j])| < |ms| && gs[|Markers(ns[..j])|].text == Trailing(ns[..j]))
  {
    RunsAreMarkers(ns);
    var rs, tail := Runs(ns), Trailing(ns);
    var closed := ClosedGroups(rs);
    var gs := LyricGroups(ns);
    assert gs[..|rs|] == closed;
    forall k | 0 <= k < |rs|
      ensures gs[k].id == GroupId(k) && gs[k].chord == Some(TextContent(rs[k].marker))
    {
      assert gs[k] == closed[k];
    }
    forall j | 0 <= j < |ns| && IsMarker(ns[j]) 
      ensures |Markers(ns[..j])| < |Markers(ns)| && gs[|Markers(ns[..j])|].text == Trailing(ns[..j])
    {
      RunAtMarker(ns, j);
      assert gs[|Markers(ns[..j])|] == closed[|Markers(ns[..j])|];
    }
  }

  /** Nothing of the paragraph's text is lost or repeated: the group
      texts together are its direct text. */
  lemma LyricGroupsText(ns: seq<Node>)
    ensures GroupText(LyricGroups(ns)) == DirectText(ns)
  {
    RunsCoverText(ns);
    var rs, tail := Runs(ns), Trailing(ns);
    ClosedGroupsText(rs);
    var gs := LyricGroups(ns);
    if tail != "" {
      assert gs[..|gs| - 1] == ClosedGroups(rs);
    } else {
      assert gs == ClosedGroups(rs);
    }
  }

  /** A paragraph yields no group exactly when it has no chord marker and
      no text after the last one. */
  lemma LyricGroupsEmpty(ns: seq<Node>)
    ensures LyricGroups(ns) == [] <==> Markers(ns) == [] && Trailing(ns) == ""
  {
    RunsAreMarkers(ns);
  }

  /** The line one container child becomes. A blockquote is copied with
      every event-handler attribute of its descendants removed, and its
      inner HTML kept; a paragraph is segmented; anything else is an empty
      lyric line. */
  function LineOf(n: Node, serialize: seq<Node> -> string): LineData {
    if n.Element? && n.tag == "BLOCKQUOTE" then Blockquote(serialize(StripAll(n.children)))
    else if n.Element? && n.tag == "P" then Lyric(LyricGroups(n.children))
    else Lyric([])
  }

  /** The filter: blockquotes and non-empty lyric lines survive. */
  predicate KeepLine(line: LineData) {
    line.Blockquote? || |line.groups| > 0
  }

  function LinesOf(ns: seq<Node>, serialize: seq<Node> -> string): (r: seq<LineData>)
    ensures forall k :: 0 <= k < |r| ==> KeepLine(r[k])
  {
    if |ns| == 0 then []
    else
      var line := LineOf(ns[0], serialize);
      (if KeepLine(line) then [line] else []) + LinesOf(ns[1..], serialize)
  }

  /** The element children of a node (`Element.children`). */
  function ElementChildren(n: Node): (r: seq<Node>)
    ensures forall k :: 0 <= k < |r| ==> r[k].Element?
  {
    FilterElements(ChildrenOf(n))
  }

  function FilterElements(ns: seq<Node>): (r: seq<Node>)
    ensures forall k :: 0 <= k < |r| ==> r[k].Element?
  {
    if |ns| == 0 then [] else (if ns[0].Element? then [ns[0]] else []) + FilterElements(ns[1..])
  }

  /** `parseRawHtml`. `parse` stands for the script/iframe/event-attribute
      stripping followed by `DOMParser`, `serialize` for `innerHTML`. The
      container is the first `.preview-chord-1` element, else the body. */
  function ParseRawHtml(html: string, parse: string -> Document, serialize: seq<Node> -> string)
    : (r: seq<LineData>)
    ensures html == "" ==> r == []
    ensures forall k :: 0 <= k < |r| ==> KeepLine(r[k])
  {
    if html == "" then []
    else
      var doc := parse(html);
      var container := QueryDocument(doc, ByClass("preview-chord-1")).GetOr(doc.body);
      LinesOf(ElementChildren(container), serialize)
  }

  /** A container child that yields a line: a blockquote, or a paragraph
      with at least one group. */
  predicate YieldsLine(n: Node) {
    n.Element? && (n.tag == "BLOCKQUOTE" || (n.tag == "P" && LyricGroups(n.children) != []))
  }

  /** The lines are exactly those of the children that yield one, in
      order: a blockquote becomes its cleaned inner HTML, a paragraph its
      groups. */
  lemma {:induction false} LinesOfSpec(ns: seq<Node>, serialize: seq<Node> -> string)
    requires forall k :: 0 <= k < |ns| ==> ns[k].Element?
    ensures var r := LinesOf(ns, serialize);
            && |r| <= |ns|
            && (forall k :: 0 <= k < |r| ==> exists j :: 0 <= j < |ns| && YieldsLine(ns[j]) && r[k] == LineOf(ns[j], serialize))
            && (|r| == 0 <==> forall j :: 0 <= j < |ns| ==> !YieldsLine(ns[j]))
    decreases |ns|
  {
    if |ns| > 0 {
      LinesOfSpec(ns[1..], serialize);
      var line := LineOf(ns[0], serialize);
      assert KeepLine(line) <==> YieldsLine(ns[0]);
      var r := LinesOf(ns, serialize);
      var rest := LinesOf(ns[1..], serialize);
      forall k | 0 <= k < |r|
        ensures exists j :: 0 <= j < |ns| && YieldsLine(ns[j]) && r[k] == LineOf(ns[j], serialize)
      {
        if KeepLine(line) && k == 0 {
          assert YieldsLine(ns[0]) && r[0] == LineOf(ns[0], serialize);
        } else {
          var k' := if KeepLine(line) then k - 1 else k;
          assert r[k] == rest[k'];
          var j :| 0 <= j < |ns[1..]| && YieldsLine(ns[1..][j]) && rest[k'] == LineOf(ns[1..][j], serialize);
          assert ns[1..][j] == ns[j + 1];
        }
      }
      assert forall j :: 1 <= j < |ns| ==> ns[j] == ns[1..][j - 1];
    }
  }

  /** One child yields its line when it yields one, and nothing
      otherwise. */
  lemma LinesOfOne(n: Node, serialize: seq<Node> -> string)
    ensures LinesOf([n], serialize) == if YieldsLine(n) then [LineOf(n, serialize)] else []
  {
    assert [n][1..] == [];
  }

  /** The lines of two runs of children are the lines of the first
      followed by those of the second: the scan keeps the document order
      and drops nothing it kept. */
  lemma {:induction false} LinesOfConcat(a: seq<Node>, b: seq<Node>, serialize: seq<Node> -> string)
    ensures LinesOf(a + b, serialize) == LinesOf(a, serialize) + LinesOf(b, serialize)
    decreases |a|
  {
    if |a| == 0 {
      assert a + b == b;
    } else {
      assert (a + b)[0] == a[0] && (a + b)[1..] == a[1..] + b;
      LinesOfConcat(a[1..], b, serialize);
    }
  }

  /** A blockquote line holds the inner HTML of a copy that has no
      event-handler attribute and the same text; a blockquote that had
      none is serialised as it was. */
  lemma BlockquoteIsClean(n: Node, serialize: seq<Node> -> string)
    requires n.Element? && n.tag == "BLOCKQUOTE"
    ensures var cs := StripAll(n.children);
            && LineOf(n, serialize) == Blockquote(serialize(cs))
            && NoEventAttrs(cs)
            && TextOf(cs) == TextOf(n.children)
            && (NoEventAttrs(n.children) ==> cs == n.children)
  {
    StripRemovesEvents(n.children);
    StripKeepsText(n.children);
    if NoEventAttrs(n.children) {
      StripFixesClean(n.children);
    }
  }
}

=== FILE: markup.dfy ===
/** The characters a chord token may contain, and the rest of a string:
    what a chord rewrite must leave in place. */
module Markup {
  /** Every character a chord token can contain. */
  const ChordAlphabet: set<char> :=
    {'A', 'B', 'C', 'D', 'E', 'F', 'G', 'b', '#', 'm', 'a', 'j', 'd', 'i', 'u', 'g', 's',
     '7', '9', '1', '3', '/'}

  /** A chord token never contains a character outside the chord
      alphabet; this is what keeps tags and attributes intact. */
  predicate InChordAlphabet(c: char) {
    c in ChordAlphabet
  }

  /** A string the chord alphabet spells. */
  predicate ChordText(t: string) {
    forall k :: 0 <= k < |t| ==> InChordAlphabet(t[k])
  }

  /** The characters of `s` no chord token can contain, in order: every
      `<`, `>`, quote, `=`, space and most letters. */
  function MarkupOf(s: string): (r: string)
    ensures |r| <= |s|
    ensures forall k :: 0 <= k < |r| ==> !InChordAlphabet(r[k])
  {
    if |s| == 0 then "" else (if InChordAlphabet(s[0]) then "" else [s[0]]) + MarkupOf(s[1..])
  }

  lemma {:induction false} MarkupOfConcat(a: string, b: string)
    ensures MarkupOf(a + b) == MarkupOf(a) + MarkupOf(b)
    decreases |a|
  {
    if |a| == 0 {
      assert a + b == b;
    } else {
      assert (a + b)[0] == a[0];
      assert (a + b)[1..] == a[1..] + b;
      MarkupOfConcat(a[1..], b);
      var head := if InChordAlphabet(a[0]) then "" else [a[0]];
      assert MarkupOf(a + b) == head + (MarkupOf(a[1..]) + MarkupOf(b));
      assert MarkupOf(a) == head + MarkupOf(a[1..]);
    }
  }

  lemma {:induction false} MarkupOfChordText(t: string)
    requires ChordText(t)
    ensures MarkupOf(t) == ""
    decreases |t|
  {
    if |t| > 0 {
      MarkupOfChordText(t[1..]);
    }
  }

  /** A slice whose characters are all in the alphabet is chord text. */
  lemma SliceChordText(s: string, p: nat, e: nat)
    requires p <= e <= |s|
    requires forall t :: p <= t < e ==> InChordAlphabet(s[t])
    ensures ChordText(s[p..e])
  {
    forall k | 0 <= k < e - p ensures InChordAlphabet(s[p..e][k]) {
      assert s[p..e][k] == s[p + k];
    }
  }

  /** Chord text in front of a string adds nothing to its markup. */
  lemma MarkupSkipsChordText(t: string, rest: string)
    requires ChordText(t)
    ensures MarkupOf(t + rest) == MarkupOf(rest)
  {
    MarkupOfConcat(t, rest);
    MarkupOfChordText(t);
  }
}

=== FILE: paragraph.dfy ===
/** What both lyric-line segmenters compute from a paragraph's child
    nodes: the text is accumulated from the text children, and every
    `c_chord` element closes the text gathered since the previous one.
    Other elements and comments are skipped. */
module Paragraph {
  import opened Dom

  /** The chord marker `<span class="c_chord">`. */
  predicate IsMarker(n: Node) {
    HasClass(n, "c_chord")
  }

  /** A closed run: a marker with the text gathered since the previous
      marker (or the start). */
  datatype Run = Run(marker: Node, text: string)

  /** The runs closed by the markers of `ns`, in order, read as the loop
      reads the children: one child at a time. */
  function Runs(ns: seq<Node>): seq<Run> {
    if |ns| == 0 then []
    else
      var init, last := ns[..|ns| - 1], ns[|ns| - 1];
      if IsMarker(last) then Runs(init) + [Run(last, Trailing(init))] else Runs(init)
  }

  /** The text gathered after the last marker. */
  function Trailing(ns: seq<Node>): string {
    if |ns| == 0 then ""
    else
      var init, last := ns[..|ns| - 1], ns[|ns| - 1];
      if last.Text? then Trailing(init) + last.data
      else if IsMarker(last) then ""
      else Trailing(init)
  }

  /** The markers among the children, in order. */
  function Markers(ns: seq<Node>): (r: seq<Node>)
    ensures |r| <= |ns|
    ensures forall k :: 0 <= k < |r| ==> IsMarker(r[k])
  {
    if |ns| == 0 then []
    else (if IsMarker(ns[0]) then [ns[0]] else []) + Markers(ns[1..])
  }

  /** The data of the text children, in order; elements (markers
      included) and comments contribute nothing. */
  function DirectText(ns: seq<Node>): string {
    if |ns| == 0 then ""
    else (if ns[0].Text? then ns[0].data else "") + DirectText(ns[1..])
  }

  /** The texts of a list of runs, concatenated. */
  function RunText(rs: seq<Run>): string {
    if |rs| == 0 then "" else RunText(rs[..|rs| - 1]) + rs[|rs| - 1].text
  }

  lemma {:induction false} MarkersSnoc(ns: seq<Node>, n: Node)
    ensures Markers(ns + [n]) == Markers(ns) + (if IsMarker(n) then [n] else [])
    decreases |ns|
  {
    if |ns| == 0 {
      assert ns + [n] == [n];
    } else {
      assert (ns + [n])[0] == ns[0] && (ns + [n])[1..] == ns[1..] + [n];
      MarkersSnoc(ns[1..], n);
    }
  }

  lemma {:induction false} DirectTextSnoc(ns: seq<Node>, n: Node)
    ensures DirectText(ns + [n]) == DirectText(ns) + (if n.Text? then n.data else "")
    decreases |ns|
  {
    if |ns| == 0 {
      assert ns + [n] == [n];
    } else {
      assert (ns + [n])[0] == ns[0] && (ns + [n])[1..] == ns[1..] + [n];
      DirectTextSnoc(ns[1..], n);
    }
  }

  /** The runs are closed exactly by the markers, one each, in order. */
  lemma {:induction false} RunsAreMarkers(ns: seq<Node>)
    ensures |Runs(ns)| == |Markers(ns)|
    ensures forall k :: 0 <= k < |Runs(ns)| ==> Runs(ns)[k].marker == Markers(ns)[k]
    decreases |ns|
  {
    if |ns| > 0 {
      var init, last := ns[..|ns| - 1], ns[|ns| - 1];
      assert ns == init + [last];
      RunsAreMarkers(init);
      MarkersSnoc(init, last);
    }
  }

  /** Nothing is lost or duplicated: the run texts followed by the
      trailing text are the paragraph's direct text. */
  lemma {:induction false} RunsCoverText(ns: seq<Node>)
    ensures RunText(Runs(ns)) + Trailing(ns) == DirectText(ns)
    decreases |ns|
  {
    if |ns| > 0 {
      var init, last := ns[..|ns| - 1], ns[|ns| - 1];
      assert ns == init + [last];
      RunsCoverText(init);
      DirectTextSnoc(init, last);
      if IsMarker(last) {
        var rs := Runs(init) + [Run(last, Trailing(init))];
        assert rs[..|rs| - 1] == Runs(init);
      }
    }
  }

  /** Reading more children only appends runs: the runs of a prefix are
      a prefix of the runs. */
  lemma {:induction false} RunsPrefix(ns: seq<Node>, i: nat)
    requires i <= |ns|
    ensures |Runs(ns[..i])| <= |Runs(ns)| && Runs(ns[..i]) == Runs(ns)[..|Runs(ns[..i])|]
    decreases |ns|
  {
    if i < |ns| {
      var init := ns[..|ns| - 1];
      assert init[..i] == ns[..i];
      RunsPrefix(init, i);
    } else {
      assert ns[..i] == ns;
    }
  }

  /** The marker at position `j` closes run number "markers before `j`",
      and that run's text is what was gathered up to `j`. */
  lemma RunAtMarker(ns: seq<Node>, j: nat)
    requires j < |ns| && IsMarker(ns[j])
    ensures |Markers(ns[..j])| < |Runs(ns)|
    ensures Runs(ns)[|Markers(ns[..j])|] == Run(ns[j], Trailing(ns[..j]))
  {
    var pre := ns[..j + 1];
    assert pre[..j] == ns[..j] && pre[j] == ns[j];
    assert Runs(pre) == Runs(ns[..j]) + [Run(ns[j], Trailing(ns[..j]))];
    RunsAreMarkers(ns[..j]);
    RunsPrefix(ns, j + 1);
  }

  /** After the last marker only text is gathered: with no marker from
      `i` on, the trailing text is that of the first `i` children
      followed by the direct text of the rest. */
  lemma {:induction false} TrailingSuffix(ns: seq<Node>, i: nat)
    requires i <= |ns|
    requires forall k :: i <= k < |ns| ==> !IsMarker(ns[k])
    ensures Trailing(ns) == Trailing(ns[..i]) + DirectText(ns[i..])
    decreases |ns|
  {
    if i == |ns| {
      assert ns[..i] == ns;
    } else {
      var init, last := ns[..|ns| - 1], ns[|ns| - 1];
      assert init[..i] == ns[..i];
      TrailingSuffix(init, i);
      assert ns[i..] == init[i..] + [last];
      DirectTextSnoc(init[i..], last);
    }
  }

  /** The trailing text is the direct text after the last marker, or the
      whole direct text when there is no marker. */
  lemma TrailingAfterLastMarker(ns: seq<Node>)
    ensures (forall k :: 0 <= k < |ns| ==> !IsMarker(ns[k])) ==> Trailing(ns) == DirectText(ns)
    ensures forall i :: 0 <= i < |ns| && IsMarker(ns[i]) && (forall k :: i < k < |ns| ==> !IsMarker(ns[k]))
                        ==> Trailing(ns) == DirectText(ns[i + 1..])
  {
    if forall k :: 0 <= k < |ns| ==> !IsMarker(ns[k]) {
      TrailingSuffix(ns, 0);
      assert ns[0..] == ns;
    }
    forall i | 0 <= i < |ns| && IsMarker(ns[i]) && (forall k :: i < k < |ns| ==> !IsMarker(ns[k]))
      ensures Trailing(ns) == DirectText(ns[i + 1..])
    {
      TrailingAfterMarker(ns, i);
    }
  }

  lemma TrailingAfterMarker(ns: seq<Node>, i: nat)
    requires i < |ns| && IsMarker(ns[i])
    requires forall k :: i < k < |ns| ==> !IsMarker(ns[k])
    ensures Trailing(ns) == DirectText(ns[i + 1..])
  {
    TrailingSuffix(ns, i + 1);
    var pre := ns[..i + 1];
    assert pre[..|pre| - 1] == ns[..i] && pre[|pre| - 1] == ns[i];
    assert Trailing(pre) == "";
  }
}

=== FILE: pitch.dfy ===
/** Note names and pitch classes: the sharp-spelled scale table, flat
    normalisation and the table lookup (src/utils/transpose.ts). */
module Pitch {
  import opened JsString

  /** The canonical pitch-class names, index = semitones above C. */
  const Scales: seq<string> := ["C", "C#", "D", "D#", "E", "F", "F#", "G", "G#", "A", "A#", "B"]

  /** The flat spellings the engine accepts, with their sharp equivalents. */
  const Flats: map<string, string> := map["Db" := "C#", "Eb" := "D#", "Gb" := "F#", "Ab" := "G#", "Bb" := "A#"]

  /** `SCALES[k]`, entry by entry (see `ScaleNameIsScales`). */
  function ScaleName(k: nat): string
    requires k < 12
  {
    match k
    case 0 => "C" case 1 => "C#" case 2 => "D" case 3 => "D#" case 4 => "E" case 5 => "F"
    case 6 => "F#" case 7 => "G" case 8 => "G#" case 9 => "A" case 10 => "A#" case 11 => "B"
  }

  lemma ScaleNameIsScales(k: nat)
    requires k < 12
    ensures ScaleName(k) == Scales[k]
  {
  }

  predicate IsLetter(c: char) {
    'A' <= c <= 'G'
  }

  predicate IsAccidental(c: char) {
    c == 'b' || c == '#'
  }

  /** A note name as the chord grammar spells it: a letter A-G and at most
      one accidental. */
  predicate IsRootSpelling(r: string) {
    (|r| == 1 || |r| == 2) && IsLetter(r[0]) && (|r| == 2 ==> IsAccidental(r[1]))
  }

  /** Semitones above C of a natural note, by music theory. */
  function LetterPitch(c: char): int
    requires IsLetter(c)
  {
    match c
    case 'C' => 0
    case 'D' => 2
    case 'E' => 4
    case 'F' => 5
    case 'G' => 7
    case 'A' => 9
    case 'B' => 11
  }

  /** The pitch class a spelling denotes: the reference the table-driven
      engine is measured against. */
  function PitchClass(r: string): nat
    requires IsRootSpelling(r)
  {
    (LetterPitch(r[0]) + (if |r| == 1 then 0 else if r[1] == '#' then 1 else -1)) % 12
  }

  /** The position `SCALES.indexOf` reports for `note`, read off its
      characters: natural names and the five sharps, -1 for anything else
      (flats included). */
  function ScaleIndex(note: string): int {
    if |note| == 1 then
      match note[0]
      case 'C' => 0 case 'D' => 2 case 'E' => 4 case 'F' => 5 case 'G' => 7 case 'A' => 9 case 'B' => 11
      case _ => -1
    else if |note| == 2 && note[1] == '#' then
      match note[0]
      case 'C' => 1 case 'D' => 3 case 'F' => 6 case 'G' => 8 case 'A' => 10
      case _ => -1
    else -1
  }

  lemma ScaleIndexIsIndexOf(note: string)
    ensures IndexOf(Scales, note) == ScaleIndex(note)
  {
    IndexOfSpec(Scales, note);
    if |note| == 1 {
      assert note == [note[0]];
    } else if |note| == 2 {
      assert note == [note[0], note[1]];
    }
  }

  /** The keys of `FLATS` are exactly the flat spellings of D, E, G, A
      and B. */
  lemma FlatsShape(note: string)
    ensures note in Flats <==> |note| == 2 && note[1] == 'b' && note[0] in "DEGAB"
  {
    if |note| == 2 {
      assert note == [note[0], note[1]];
    }
  }

  /** `normalizeNote`: respells the five listed flats as the sharp of the
      same pitch and leaves every other string alone. */
  function NormalizeNote(note: string): string {
    if note in Flats then Flats[note] else note
  }

  /** Only the five flats change, each into a name of the same pitch. */
  lemma NormalizeNoteSpec(note: string)
    ensures note !in Flats ==> NormalizeNote(note) == note
    ensures note in Flats ==> IsRootSpelling(note) && ScaleIndex(NormalizeNote(note)) == PitchClass(note)
  {
    FlatsShape(note);
    if note in Flats {
      assert note == [note[0], note[1]];
    }
  }

  /** Where a name the table reading accepts sits in the table. */
  lemma ScaleIndexNames(note: string)
    ensures ScaleIndex(note) >= 0 ==> ScaleName(ScaleIndex(note)) == note
  {
    if |note| == 1 {
      assert note == [note[0]];
    } else if |note| == 2 {
      assert note == [note[0], note[1]];
    }
  }

  /** `SCALES.indexOf(normalizeNote(note))`, -1 for an unknown name,
      computed by the character-level reading (`KeyIndexIsIndexOf` shows the
      two agree). */
  function KeyIndex(note: string): (r: int)
    ensures -1 <= r < 12
    ensures r >= 0 ==> ScaleName(r) == NormalizeNote(note)
  {
    ScaleIndexNames(NormalizeNote(note));
    ScaleIndex(NormalizeNote(note))
  }

  /** The lookup is the table search the engine performs. */
  lemma KeyIndexIsIndexOf(note: string)
    ensures KeyIndex(note) == IndexOf(Scales, NormalizeNote(note))
  {
    ScaleIndexIsIndexOf(NormalizeNote(note));
  }

  /** Each scale entry is the sharp spelling of its own index. */
  lemma ScalesArePitchClasses(k: nat)
    requires k < 12
    ensures IsRootSpelling(ScaleName(k)) && PitchClass(ScaleName(k)) == k && KeyIndex(ScaleName(k)) == k
    ensures |ScaleName(k)| == 1 || ScaleName(k)[1] == '#'
  {
    FlatsShape(ScaleName(k));
  }

  /** Normalisation keeps the pitch: a root spelling is known exactly when
      it is not one of E#, B#, Cb, Fb, and then its index is the pitch class
      it denotes. */
  lemma NormalizePreservesPitch(r: string)
    requires IsRootSpelling(r)
    ensures KeyIndex(r) >= 0 <==> r !in {"E#", "B#", "Cb", "Fb"}
    ensures KeyIndex(r) >= 0 ==> KeyIndex(r) == PitchClass(r)
  {
    FlatsShape(r);
    if |r| == 1 {
      assert r == [r[0]];
    } else {
      assert r == [r[0], r[1]];
    }
  }

  /** A known root's table index is the pitch class it denotes. */
  lemma KnownPitch(r: string)
    requires IsRootSpelling(r) && KeyIndex(r) >= 0
    ensures KeyIndex(r) == PitchClass(r)
  {
    NormalizePreservesPitch(r);
  }

  /** A string with a known index is itself a root spelling. */
  lemma KnownKeyIsRoot(note: string)
    requires KeyIndex(note) >= 0
    ensures IsRootSpelling(note)
  {
    NormalizeNoteSpec(note);
    if note !in Flats {
      if |note| == 1 {
        assert note == [note[0]];
      } else if |note| == 2 {
        assert note == [note[0], note[1]];
      }
    }
  }

  /** Normalisation turns a root spelling into a root spelling. */
  lemma NormalizeKeepsSpelling(r: string)
    requires IsRootSpelling(r)
    ensures IsRootSpelling(NormalizeNote(r))
  {
    FlatsShape(r);
    if r in Flats {
      assert r == [r[0], r[1]];
    }
  }
}

=== FILE: playlist.dfy ===
/** The playlist's drag-and-drop reordering and its row icons. */
module Playlist {
  import opened Wrappers

  /** Which half of the hovered row the mouse is over. */
  datatype Position = Top | Bottom

  /** The row the mouse hovers when the drag ends, and the half. */
  datatype DropTarget = DropTarget(index: nat, position: Position)

  /** The gap the drop points at: before the row for its top half, after
      it for its bottom half. */
  function InsertionPoint(drop: DropTarget): nat {
    if drop.position == Bottom then drop.index + 1 else drop.index
  }

  /** Dropping into the gap just before or just after the dragged row
      changes nothing. */
  predicate IsNoOp(source: nat, insertion: nat) {
    source == insertion || source == insertion - 1
  }

  /** The final position of the dragged row: the gap's index counted once
      the row has been taken out. */
  function Landing(source: nat, insertion: nat): nat {
    if source < insertion then insertion - 1 else insertion
  }

  /** `splice(source, 1)` followed by `splice(dest, 0, moved)`. */
  function MoveItem<T>(items: seq<T>, source: nat, dest: nat): (r: seq<T>)
    requires source < |items| && dest < |items|
    ensures |r| == |items|
    ensures r[dest] == items[source]
    ensures multiset(r) == multiset(items)
  {
    var rest := items[..source] + items[source + 1..];
    assert items == items[..source] + [items[source]] + items[source + 1..];
    assert multiset(items) == multiset(rest) + multiset{items[source]};
    assert rest == rest[..dest] + rest[dest..];
    assert multiset(rest) == multiset(rest[..dest]) + multiset(rest[dest..]);
    rest[..dest] + [items[source]] + rest[dest..]
  }

  /** Removing the moved row from the result gives the list with the row
      removed from the original: every other row keeps its relative
      order. */
  lemma MoveItemKeepsOrder<T>(items: seq<T>, source: nat, dest: nat)
    requires source < |items| && dest < |items|
    ensures var r := MoveItem(items, source, dest);
            r[..dest] + r[dest + 1..] == items[..source] + items[source + 1..]
  {
    var rest := items[..source] + items[source + 1..];
    var r := MoveItem(items, source, dest);
    assert r[..dest] == rest[..dest];
    assert r[dest + 1..] == rest[dest..];
  }

  /** Moving the row back undoes the move. */
  lemma MoveItemInverse<T>(items: seq<T>, source: nat, dest: nat)
    requires source < |items| && dest < |items|
    ensures MoveItem(MoveItem(items, source, dest), dest, source) == items
  {
    var r := MoveItem(items, source, dest);
    MoveItemKeepsOrder(items, source, dest);
    var back := MoveItem(r, dest, source);
    var rest := items[..source] + items[source + 1..];
    assert r[..dest] + r[dest + 1..] == rest;
    assert back == rest[..source] + [items[source]] + rest[source..];
    assert rest[..source] == items[..source];
    assert rest[source..] == items[source + 1..];
  }

  /** `handleDragEnd` on the list `items`: the new list handed to
      `onUpdatePlaylist`, or `None` when nothing is updated (no drag, no
      target, or a drop beside the dragged row). The indices come from the
      rendered rows, so they are in range. */
  function HandleDragEnd<T>(items: seq<T>, drag: Option<nat>, drop: Option<DropTarget>): (r: Option<seq<T>>)
    requires drag.Some? ==> drag.value < |items|
    requires drop.Some? ==> drop.value.index < |items|
    ensures r.Some? <==> drag.Some? && drop.Some? && !IsNoOp(drag.value, InsertionPoint(drop.value))
    ensures r.Some? ==> |r.value| == |items| && multiset(r.value) == multiset(items)
  {
    if drag.None? || drop.None? then None
    else
      var source, insertion := drag.value, InsertionPoint(drop.value);
      if IsNoOp(source, insertion) then None
      else Some(MoveItem(items, source, Landing(source, insertion)))
  }

  /** The row lands where the user dropped it: right before the hovered
      row for its top half, right after it for its bottom half, whether the
      list is updated or left as it was; dropping a row on itself leaves
      the list unchanged. */
  lemma DragEndPlacesRow<T>(items: seq<T>, source: nat, drop: DropTarget)
    requires source < |items| && drop.index < |items|
    ensures var updated := HandleDragEnd(items, Some(source), Some(drop));
            var final, d := updated.GetOr(items), Landing(source, InsertionPoint(drop));
            && |final| == |items| && d < |final| && final[d] == items[source]
            && (drop.index == source ==> updated.None?)
            && (drop.index != source && drop.position == Top ==>
                  d + 1 < |final| && final[d + 1] == items[drop.index])
            && (drop.index != source && drop.position == Bottom ==>
                  d >= 1 && final[d - 1] == items[drop.index])
  {
    var t, ins := drop.index, InsertionPoint(drop);
    var d := Landing(source, ins);
    if !IsNoOp(source, ins) {
      MoveItemKeepsOrder(items, source, d);
      var r := MoveItem(items, source, d);
      var rest := items[..source] + items[source + 1..];
      assert r[..d] + r[d + 1..] == rest;
      if t != source {
        var tr := if t < source then t else t - 1;
        assert rest[tr] == items[t];
        if drop.position == Top {
          assert tr == d;
          assert r[d + 1] == (r[..d] + r[d + 1..])[d];
        } else {
          assert tr == d - 1;
          assert r[d - 1] == (r[..d] + r[d + 1..])[d - 1];
        }
      }
    }
  }

  /** `getIcon`: a microphone for a talk cue, a cup for a break, a memo for
      a note, and a drag handle for a song (no type) or anything else. */
  function GetIcon(cueType: Option<string>): (r: string)
    ensures r == DragHandle <==> !(cueType.Some? && cueType.value in CueTypes)
  {
    match cueType
    case Some("talk") => "\U{1F3A4}"
    case Some("break") => "\U{2615}"
    case Some("note") => "\U{1F4DD}"
    case _ => DragHandle
  }

  /** The types of the non-song rows: spoken parts, pauses and notes. */
  const CueTypes: seq<string> := ["talk", "break", "note"]

  /** Two vertical ellipses: the grip shown on song rows. */
  const DragHandle: string := "\U{22EE}\U{22EE}"

  /** Each cue type has an icon of its own. */
  lemma GetIconDistinguishesCues(a: Option<string>, b: Option<string>)
    requires a.Some? && a.value in CueTypes
    ensures GetIcon(a) == GetIcon(b) <==> a == b
  {
  }
}

=== FILE: regex.dfy ===
/** A JavaScript (ECMAScript, non-Unicode mode) regular-expression matcher
    for the only shape of pattern the core uses: a concatenation of word
    boundaries `\b`, alternations of literal strings (an optional group
    `(?:x|y)?` is the alternation `x|y|` with the empty branch last), and
    greedy stars over alternations of non-empty literals.

    The order of a piece's options IS the order in which a backtracking
    engine tries them, so `Match` returns the end of the match JavaScript
    reports, not merely some match. `Accepts` is the order-free grammar the
    same pieces describe; `MatchSound` and `MatchComplete` tie the two. */
module Regex {
  import opened Wrappers

  /** Word characters of `\b` without the `u` flag: `[A-Za-z0-9_]`. */
  predicate IsWordChar(c: char) {
    ('A' <= c <= 'Z') || ('a' <= c <= 'z') || ('0' <= c <= '9') || c == '_'
  }

  /** `\b` holds at position `i` when exactly one of the characters on its
      two sides is a word character; outside the string counts as
      non-word. */
  predicate IsBoundary(s: string, i: nat)
    requires i <= |s|
  {
    (i > 0 && IsWordChar(s[i - 1])) != (i < |s| && IsWordChar(s[i]))
  }

  predicate LiteralAt(s: string, i: nat, lit: string) {
    i + |lit| <= |s| && s[i..i + |lit|] == lit
  }

  datatype Piece =
    | WordBoundary
    | Alt(options: seq<string>)
    | Star(options: seq<string>)

  /** A star must consume input on every iteration. */
  predicate PieceOk(p: Piece) {
    p.Star? ==> forall o :: o in p.options ==> |o| > 0
  }

  predicate WellFormed(ps: seq<Piece>) {
    forall p :: p in ps ==> PieceOk(p)
  }

  /** The pieces left to match after one option of `p` was taken. */
  function After(p: Piece, rest: seq<Piece>): seq<Piece> {
    if p.Star? then [p] + rest else rest
  }

  /** Backtracking match of `ps` starting at `i`: the end position of the
      first successful path in priority order, or `None`. */
  function Match(s: string, i: nat, ps: seq<Piece>): (r: Option<nat>)
    requires i <= |s| && WellFormed(ps)
    ensures r.Some? ==> i <= r.value <= |s|
    decreases |ps|, |s| - i, 2, 0
  {
    if ps == [] then Some(i)
    else
      match ps[0]
      case WordBoundary => if IsBoundary(s, i) then Match(s, i, ps[1..]) else None
      case Alt(os) => TryOptions(s, i, ps[0], os, ps[1..])
      case Star(os) => TryOptions(s, i, ps[0], os, ps[1..])
  }

  /** Tries the options `os` of piece `p` in order, each followed by the
      rest of the pattern; a star falls back to leaving the loop once every
      option failed. */
  function TryOptions(s: string, i: nat, p: Piece, os: seq<string>, rest: seq<Piece>): (r: Option<nat>)
    requires i <= |s| && WellFormed([p] + rest) && !p.WordBoundary?
    requires forall o :: o in os ==> o in p.options
    ensures r.Some? ==> i <= r.value <= |s|
    decreases |rest| + 1, |s| - i, 1, |os|
  {
    if os == [] then
      if p.Star? then Match(s, i, rest) else None
    else if LiteralAt(s, i, os[0]) then
      assert PieceOk(p);
      var next := Match(s, i + |os[0]|, After(p, rest));
      if next.Some? then next else TryOptions(s, i, p, os[1..], rest)
    else TryOptions(s, i, p, os[1..], rest)
  }

  /** The grammar of `ps`, ignoring priorities: `s[i..j]` can be split so
      that every piece accepts its part. */
  ghost predicate Accepts(s: string, i: nat, j: nat, ps: seq<Piece>)
    requires i <= j <= |s|
    decreases |ps|, j - i
  {
    if ps == [] then i == j
    else
      match ps[0]
      case WordBoundary => IsBoundary(s, i) && Accepts(s, i, j, ps[1..])
      case Alt(os) =>
        exists o :: o in os && LiteralAt(s, i, o) && i + |o| <= j && Accepts(s, i + |o|, j, ps[1..])
      case Star(os) =>
        Accepts(s, i, j, ps[1..])
        || exists o :: o in os && |o| > 0 && LiteralAt(s, i, o) && i + |o| <= j && Accepts(s, i + |o|, j, ps)
  }

  /** The grammar one boundary at a time. */
  lemma AcceptsBoundary(s: string, i: nat, j: nat, rest: seq<Piece>)
    requires i <= j <= |s|
    ensures Accepts(s, i, j, [WordBoundary] + rest) <==> IsBoundary(s, i) && Accepts(s, i, j, rest)
  {
    assert ([WordBoundary] + rest)[1..] == rest;
  }

  /** The grammar one alternation at a time. */
  lemma AcceptsAlt(s: string, i: nat, j: nat, os: seq<string>, rest: seq<Piece>)
    requires i <= j <= |s|
    ensures Accepts(s, i, j, [Alt(os)] + rest)
            <==> exists o :: o in os && LiteralAt(s, i, o) && i + |o| <= j && Accepts(s, i + |o|, j, rest)
  {
    assert ([Alt(os)] + rest)[1..] == rest;
  }

  /** Whatever the matcher reports is a string of the grammar. */
  lemma {:induction false} MatchSound(s: string, i: nat, ps: seq<Piece>)
    requires i <= |s| && WellFormed(ps)
    ensures Match(s, i, ps).Some? ==> Accepts(s, i, Match(s, i, ps).value, ps)
    decreases |ps|, |s| - i, 2, 0
  {
    if ps != [] {
      match ps[0]
      case WordBoundary => MatchSound(s, i, ps[1..]);
      case Alt(os) =>
        assert ps == [ps[0]] + ps[1..];
        TryOptionsSound(s, i, ps[0], os, ps[1..]);
      case Star(os) =>
        assert ps == [ps[0]] + ps[1..];
        TryOptionsSound(s, i, ps[0], os, ps[1..]);
    }
  }

  lemma {:induction false} TryOptionsSound(s: string, i: nat, p: Piece, os: seq<string>, rest: seq<Piece>)
    requires i <= |s| && WellFormed([p] + rest) && !p.WordBoundary?
    requires forall o :: o in os ==> o in p.options
    ensures var r := TryOptions(s, i, p, os, rest);
            r.Some? ==> Accepts(s, i, r.value, [p] + rest)
    decreases |rest| + 1, |s| - i, 1, |os|
  {
    var r := TryOptions(s, i, p, os, rest);
    assert ([p] + rest)[0] == p && ([p] + rest)[1..] == rest;
    if os == [] {
      if p.Star? {
        MatchSound(s, i, rest);
      }
    } else if LiteralAt(s, i, os[0]) {
      assert PieceOk(p);
      var next := Match(s, i + |os[0]|, After(p, rest));
      if next.Some? {
        MatchSound(s, i + |os[0]|, After(p, rest));
        assert os[0] in p.options;
      } else {
        TryOptionsSound(s, i, p, os[1..], rest);
      }
    } else {
      TryOptionsSound(s, i, p, os[1..], rest);
    }
  }

  /** If the grammar admits any match from `i`, the matcher finds one (not
      necessarily ending at the same place: the first in priority order). */
  lemma {:induction false} MatchComplete(s: string, i: nat, j: nat, ps: seq<Piece>)
    requires i <= j <= |s| && WellFormed(ps) && Accepts(s, i, j, ps)
    ensures Match(s, i, ps).Some?
    decreases |ps|, |s| - i, 2, 0
  {
    if ps != [] {
      assert ps == [ps[0]] + ps[1..];
      match ps[0]
      case WordBoundary => MatchComplete(s, i, j, ps[1..]);
      case Alt(os) =>
        var o :| o in os && LiteralAt(s, i, o) && i + |o| <= j && Accepts(s, i + |o|, j, ps[1..]);
        TryOptionsComplete(s, i, j, ps[0], os, ps[1..], o);
      case Star(os) =>
        if Accepts(s, i, j, ps[1..]) {
          TryOptionsComplete(s, i, j, ps[0], os, ps[1..], "");
        } else {
          var o :| o in os && |o| > 0 && LiteralAt(s, i, o) && i + |o| <= j && Accepts(s, i + |o|, j, ps);
          TryOptionsComplete(s, i, j, ps[0], os, ps[1..], o);
        }
    }
  }

  /** `o` is an option of `os` the grammar can take at `i` (or, for a
      star, the loop can be left); then some option in `os` is found. */
  lemma {:induction false} TryOptionsComplete(s: string, i: nat, j: nat, p: Piece, os: seq<string>, rest: seq<Piece>, o: string)
    requires i <= j <= |s| && WellFormed([p] + rest) && !p.WordBoundary?
    requires forall o :: o in os ==> o in p.options
    requires (o in os && LiteralAt(s, i, o) && i + |o| <= j && Accepts(s, i + |o|, j, After(p, rest)))
             || (p.Star? && Accepts(s, i, j, rest))
    ensures TryOptions(s, i, p, os, rest).Some?
    decreases |rest| + 1, |s| - i, 1, |os|
  {
    if os == [] {
      MatchComplete(s, i, j, rest);
    } else if LiteralAt(s, i, os[0]) && i + |os[0]| <= j && Accepts(s, i + |os[0]|, j, After(p, rest)) {
      assert PieceOk(p);
      MatchComplete(s, i + |os[0]|, j, After(p, rest));
    } else {
      if o in os && LiteralAt(s, i, o) && i + |o| <= j && Accepts(s, i + |o|, j, After(p, rest)) {
        TailOption(os, o);
      }
      TryOptionsComplete(s, i, j, p, os[1..], rest, o);
    }
  }

  lemma TailOption(os: seq<string>, o: string)
    requires |os| > 0 && o in os && o != os[0]
    ensures o in os[1..]
  {
    assert os == [os[0]] + os[1..];
  }

  /** Option `o` is spelled at `i` and the rest of the pattern matches
      after it. */
  predicate Takes(s: string, i: nat, o: string, rest: seq<Piece>)
    requires WellFormed(rest)
  {
    LiteralAt(s, i, o) && Match(s, i + |o|, rest).Some?
  }

  /** The option of an alternation the backtracking takes: the first one
      that is spelled at `i` and lets the rest of the pattern match. This is
      what a capturing group around the alternation reports. */
  function Chosen(s: string, i: nat, p: Piece, os: seq<string>, rest: seq<Piece>): (r: Option<string>)
    requires i <= |s| && WellFormed([p] + rest) && p.Alt?
    requires forall o :: o in os ==> o in p.options
    ensures WellFormed(rest)
    ensures r.Some? ==> r.value in os && LiteralAt(s, i, r.value)
                        && TryOptions(s, i, p, os, rest) == Match(s, i + |r.value|, rest)
    ensures r.None? <==> TryOptions(s, i, p, os, rest).None?
    decreases |os|
  {
    if os == [] then None
    else if LiteralAt(s, i, os[0]) && Match(s, i + |os[0]|, rest).Some? then Some(os[0])
    else Chosen(s, i, p, os[1..], rest)
  }

  /** `Chosen` is the FIRST option that takes: every option before it is
      either not spelled at `i` or leaves a rest that cannot match, and when
      it reports none, no option takes. */
  lemma {:induction false} ChosenFirst(s: string, i: nat, p: Piece, os: seq<string>, rest: seq<Piece>)
    requires i <= |s| && WellFormed([p] + rest) && p.Alt?
    requires forall o :: o in os ==> o in p.options
    ensures WellFormed(rest)
    ensures var r := Chosen(s, i, p, os, rest);
            && (r.Some? ==> exists k :: 0 <= k < |os| && os[k] == r.value && Takes(s, i, os[k], rest)
                                         && forall m :: 0 <= m < k ==> !Takes(s, i, os[m], rest))
            && (r.None? ==> forall k :: 0 <= k < |os| ==> !Takes(s, i, os[k], rest))
    decreases |os|
  {
    assert forall q :: q in rest ==> q in [p] + rest;
    if os != [] {
      var r := Chosen(s, i, p, os, rest);
      if Takes(s, i, os[0], rest) {
        assert r == Some(os[0]);
      } else {
        forall o | o in os[1..] ensures o in p.options {
          assert o in os;
        }
        ChosenFirst(s, i, p, os[1..], rest);
        assert r == Chosen(s, i, p, os[1..], rest);
        if r.Some? {
          var k :| 0 <= k < |os[1..]| && os[1..][k] == r.value && Takes(s, i, os[1..][k], rest)
                   && forall m :: 0 <= m < k ==> !Takes(s, i, os[1..][m], rest);
          assert os[k + 1] == r.value;
          forall m | 0 <= m < k + 1 ensures !Takes(s, i, os[m], rest) {
            if m > 0 {
              assert os[m] == os[1..][m - 1];
            }
          }
        } else {
          forall k | 0 <= k < |os| ensures !Takes(s, i, os[k], rest) {
            if k > 0 {
              assert os[k] == os[1..][k - 1];
            }
          }
        }
      }
    }
  }

  /** Every option of every piece is spelled with characters of `alphabet`. */
  predicate WithinAlphabet(ps: seq<Piece>, alphabet: set<char>) {
    forall p :: p in ps && !p.WordBoundary? ==> OptionsWithin(p.options, alphabet)
  }

  predicate OptionsWithin(os: seq<string>, alphabet: set<char>) {
    forall o :: o in os ==> forall c :: c in o ==> c in alphabet
  }

  /** The same condition, one piece's options at a time, in a form the
      verifier can evaluate on literal options. */
  function SpelledOne(o: string, alphabet: set<char>): bool {
    |o| == 0 || (o[0] in alphabet && SpelledOne(o[1..], alphabet))
  }

  function SpelledAll(os: seq<string>, alphabet: set<char>): bool {
    |os| == 0 || (SpelledOne(os[0], alphabet) && SpelledAll(os[1..], alphabet))
  }

  lemma {:induction false} SpelledOneMeans(o: string, alphabet: set<char>)
    ensures SpelledOne(o, alphabet) <==> forall c :: c in o ==> c in alphabet
  {
    if |o| > 0 {
      SpelledOneMeans(o[1..], alphabet);
      assert o == [o[0]] + o[1..];
    }
  }

  lemma {:induction false} SpelledAllMeans(os: seq<string>, alphabet: set<char>)
    ensures SpelledAll(os, alphabet) <==> OptionsWithin(os, alphabet)
  {
    if |os| > 0 {
      SpelledAllMeans(os[1..], alphabet);
      SpelledOneMeans(os[0], alphabet);
      if forall o :: o in os ==> forall c :: c in o ==> c in alphabet {
        assert os[0] in os;
        assert forall o :: o in os[1..] ==> o in os;
      } else {
        var o :| o in os && exists c :: c in o && c !in alphabet;
        assert o == os[0] || o in os[1..];
      }
    }
  }

  /** A string of the grammar uses only the characters its pieces spell. */
  lemma {:induction false} AcceptsWithinAlphabet(s: string, i: nat, j: nat, ps: seq<Piece>, alphabet: set<char>)
    requires i <= j <= |s| && Accepts(s, i, j, ps) && WithinAlphabet(ps, alphabet)
    ensures forall t :: i <= t < j ==> s[t] in alphabet
    decreases |ps|, j - i
  {
    if ps != [] {
      assert ps[0] in ps;
      match ps[0]
      case WordBoundary => AcceptsWithinAlphabet(s, i, j, ps[1..], alphabet);
      case Alt(os) =>
        var o :| o in os && LiteralAt(s, i, o) && i + |o| <= j && Accepts(s, i + |o|, j, ps[1..]);
        assert OptionsWithin(os, alphabet);
        AcceptsWithinAlphabet(s, i + |o|, j, ps[1..], alphabet);
        forall t | i <= t < i + |o| ensures s[t] in alphabet {
          assert s[t] == o[t - i];
        }
      case Star(os) =>
        if Accepts(s, i, j, ps[1..]) {
          AcceptsWithinAlphabet(s, i, j, ps[1..], alphabet);
        } else {
          var o :| o in os && |o| > 0 && LiteralAt(s, i, o) && i + |o| <= j && Accepts(s, i + |o|, j, ps);
          assert OptionsWithin(os, alphabet);
          AcceptsWithinAlphabet(s, i + |o|, j, ps, alphabet);
          forall t | i <= t < i + |o| ensures s[t] in alphabet {
            assert s[t] == o[t - i];
          }
        }
    }
  }

  /** The first position at or after `from` where `ps` matches, with the end
      of that match: what `RegExp.prototype.exec` reports for a pattern
      that cannot match the empty string. */
  function FirstMatch(s: string, from: nat, ps: seq<Piece>): (r: Option<(nat, nat)>)
    requires from <= |s| && WellFormed(ps)
    ensures r.Some? ==> from <= r.value.0 <= |s| && Match(s, r.value.0, ps) == Some(r.value.1)
    ensures r.Some? ==> forall q :: from <= q < r.value.0 ==> Match(s, q, ps).None?
    ensures r.None? ==> forall q :: from <= q <= |s| ==> Match(s, q, ps).None?
    decreases |s| - from
  {
    match Match(s, from, ps)
    case Some(j) => Some((from, j))
    case None => if from == |s| then None else FirstMatch(s, from + 1, ps)
  }

  /** The first match is at the least position where the pattern matches. */
  lemma FirstMatchLeftmost(s: string, from: nat, ps: seq<Piece>, q: nat)
    requires from <= q <= |s| && WellFormed(ps) && Match(s, q, ps).Some?
    requires forall q' :: from <= q' < q ==> Match(s, q', ps).None?
    ensures FirstMatch(s, from, ps) == Some((q, Match(s, q, ps).value))
  {
  }
}

=== FILE: token_replace.dfy ===
/** `String.prototype.replace` with a global regular expression and a
    callback, over an abstract token finder: the scan, and what it keeps. */
module TokenReplace {
  import opened Wrappers
  import opened Markup

  /** `at(p)` is where a token starting at `p` ends, if one does: a match
      of a sticky regular expression that never matches the empty string. */
  ghost predicate Advances(s: string, at: nat -> Option<nat>) {
    forall p: nat :: p <= |s| && at(p).Some? ==> p < at(p).value <= |s|
  }

  /** Every token `at` reports is chord text. */
  ghost predicate TokensAreChordText(s: string, at: nat -> Option<nat>)
    requires Advances(s, at)
  {
    forall p: nat :: p <= |s| && at(p).Some? ==> ChordText(s[p..at(p).value])
  }

  /** `s.replace(re, f)` for a global `re` whose match at each position is
      `at`, on `s[from..]`: the scan tries every position left to right,
      replaces the token found there by `f` of it and resumes after it. */
  function ReplaceTokens(s: string, from: nat, at: nat -> Option<nat>, f: string -> string): string
    requires from <= |s| && Advances(s, at)
    decreases |s| - from
  {
    if from == |s| then ""
    else
      match at(from)
      case Some(j) => f(s[from..j]) + ReplaceTokens(s, j, at, f)
      case None => [s[from]] + ReplaceTokens(s, from + 1, at, f)
  }

  /** Text before the next token is copied unchanged. */
  lemma {:induction false} ReplaceCopiesUpTo(s: string, from: nat, m: nat, at: nat -> Option<nat>, f: string -> string)
    requires from <= m <= |s| && Advances(s, at)
    requires forall q :: from <= q < m ==> at(q).None?
    ensures ReplaceTokens(s, from, at, f) == s[from..m] + ReplaceTokens(s, m, at, f)
    decreases m - from
  {
    if from < m {
      ReplaceSkips(s, from, at, f);
      ReplaceCopiesUpTo(s, from + 1, m, at, f);
      assert s[from..m] == [s[from]] + s[from + 1..m];
    }
  }

  /** One step of the scan where no token starts. */
  lemma ReplaceSkips(s: string, from: nat, at: nat -> Option<nat>, f: string -> string)
    requires from < |s| && Advances(s, at) && at(from).None?
    ensures ReplaceTokens(s, from, at, f) == [s[from]] + ReplaceTokens(s, from + 1, at, f)
  {
  }

  /** One step of the scan where a token starts. */
  lemma ReplaceTakes(s: string, from: nat, j: nat, at: nat -> Option<nat>, f: string -> string)
    requires from < |s| && Advances(s, at) && at(from) == Some(j)
    ensures from < j <= |s|
    ensures ReplaceTokens(s, from, at, f) == f(s[from..j]) + ReplaceTokens(s, j, at, f)
  {
  }

  /** The first token is replaced, the text before it kept, and the scan
      resumes right after it. */
  lemma ReplaceFirstToken(s: string, p: nat, j: nat, at: nat -> Option<nat>, f: string -> string)
    requires p <= |s| && Advances(s, at) && at(p) == Some(j)
    requires forall q :: 0 <= q < p ==> at(q).None?
    ensures ReplaceTokens(s, 0, at, f) == s[..p] + f(s[p..j]) + ReplaceTokens(s, j, at, f)
  {
    ReplaceCopiesUpTo(s, 0, p, at, f);
    assert s[0..p] == s[..p];
    ReplaceTakes(s, p, j, at, f);
  }

  /** When the tokens and their replacements are chord text, the
      replacement keeps every character outside the chord alphabet, in
      order: no `<`, `>`, quote or `=` is added, lost or moved. */
  lemma {:induction false} ReplacePreservesMarkup(s: string, from: nat, at: nat -> Option<nat>, f: string -> string)
    requires from <= |s| && Advances(s, at) && TokensAreChordText(s, at)
    requires forall t :: ChordText(t) ==> ChordText(f(t))
    ensures MarkupOf(ReplaceTokens(s, from, at, f)) == MarkupOf(s[from..])
    decreases |s| - from
  {
    if from < |s| {
      match at(from)
      case Some(j) =>
        var t := s[from..j];
        ReplacePreservesMarkup(s, j, at, f);
        MarkupSkipsChordText(f(t), ReplaceTokens(s, j, at, f));
        assert s[from..] == t + s[j..];
        MarkupSkipsChordText(t, s[j..]);
      case None =>
        ReplacePreservesMarkup(s, from + 1, at, f);
        assert s[from..] == [s[from]] + s[from + 1..];
        MarkupOfConcat([s[from]], s[from + 1..]);
        MarkupOfConcat([s[from]], ReplaceTokens(s, from + 1, at, f));
    }
  }
}

=== FILE: transpose.dfy ===
/** Chord transposition and the whole-markup rewrite that transposes every
    chord token of a song sheet, and key detection (src/utils/transpose.ts). */
module Transpose {
  import opened Wrappers
  import opened JsString
  import opened Pitch
  import opened Markup
  import opened ChordRegex
  import opened TokenReplace

  /** `chord.match(/^([A-G][b#]?)(.*)$/)`: the root (accidental taken
      greedily) and the rest of the chord. `.` does not match a line
      terminator, so any line terminator after the letter defeats the
      match. */
  function SplitRoot(chord: string): (r: Option<(string, string)>)
    ensures r.Some? ==> IsRootSpelling(r.value.0) && r.value.0 + r.value.1 == chord
  {
    if |chord| == 0 || !IsLetter(chord[0]) then None
    else if HasLineTerminator(chord[1..]) then None
    else if |chord| >= 2 && IsAccidental(chord[1]) then Some((chord[..2], chord[2..]))
    else Some((chord[..1], chord[1..]))
  }

  /** The match fails exactly when the chord does not start with a letter
      or a line terminator follows it; otherwise the suffix has no line
      terminator, and after a one-letter root it does not start with an
      accidental (the accidental is taken greedily). */
  lemma SplitRootSpec(chord: string)
    ensures var r := SplitRoot(chord);
            && (r.None? <==> |chord| == 0 || !IsLetter(chord[0]) || HasLineTerminator(chord[1..]))
            && (r.Some? ==> !HasLineTerminator(r.value.1))
            && (r.Some? && |r.value.0| == 1 ==> |r.value.1| == 0 || !IsAccidental(r.value.1[0]))
  {
    if SplitRoot(chord).Some? && |chord| >= 2 && IsAccidental(chord[1]) {
      assert chord[1..][1..] == chord[2..];
    }
  }

  /** Splitting a root followed by a suffix gives them back, provided the
      suffix cannot be read as part of the root and the match's `.` can
      cover it. */
  lemma SplitRootJoin(root: string, suffix: string)
    requires IsRootSpelling(root) && !HasLineTerminator(suffix)
    requires |root| == 1 ==> |suffix| == 0 || !IsAccidental(suffix[0])
    ensures SplitRoot(root + suffix) == Some((root, suffix))
  {
    var chord := root + suffix;
    if |root| == 1 {
      assert chord[..1] == root && chord[1..] == suffix;
    } else {
      assert chord[..2] == root && chord[2..] == suffix;
      assert chord[1..][1..] == suffix;
    }
  }

  /** `(index + semitones) % 12`, plus 12 when negative: the JavaScript
      remainder brought back into the table's range, which is the
      Euclidean remainder. */
  function WrapIndex(index: nat, semitones: int): (r: nat)
    ensures r == (index + semitones) % 12
  {
    var newIndex := Remainder12(index + semitones);
    RemainderWrap(index + semitones);
    if newIndex < 0 then newIndex + 12 else newIndex
  }

  /** `transposeChord`: shifts the root by `semitones` modulo 12 and keeps
      the rest of the chord, a slash bass included, verbatim. A chord that
      does not start with a letter, or whose root is not a known name, is
      returned as it is. The new root is the sharp-spelled table name of
      the pitch class `semitones` above the old root's, by the pitch-class
      reference. */
  function TransposeChord(chord: string, semitones: int): (r: string)
    ensures SplitRoot(chord).None? ==> r == chord
    ensures SplitRoot(chord).Some? && KeyIndex(SplitRoot(chord).value.0) < 0 ==> r == chord
    ensures SplitRoot(chord).Some? && KeyIndex(SplitRoot(chord).value.0) >= 0 ==>
              r == ScaleName((PitchClass(SplitRoot(chord).value.0) + semitones) % 12) + SplitRoot(chord).value.1
  {
    match SplitRoot(chord)
    case None => chord
    case Some((root, suffix)) =>
      var index := KeyIndex(root);
      if index == -1 then chord
      else
        KnownPitch(root);
        ScaleName(WrapIndex(index, semitones)) + suffix
  }

  /** Offset 0 keeps natural and sharp roots and respells a flat root as
      its sharp, e.g. "Bbm7" becomes "A#m7". */
  lemma TransposeChordZero(chord: string)
    ensures match SplitRoot(chord)
            case None => TransposeChord(chord, 0) == chord
            case Some((root, suffix)) =>
              if root in Flats then TransposeChord(chord, 0) == Flats[root] + suffix
              else TransposeChord(chord, 0) == chord
  {
    match SplitRoot(chord)
    case None =>
    case Some((root, suffix)) =>
      if KeyIndex(root) >= 0 {
        assert ScaleName(KeyIndex(root) % 12) == NormalizeNote(root);
      }
  }

  /** Shifting by `n` and by `n + 12` agree. */
  lemma TransposeChordPeriodic(chord: string, n: int)
    ensures TransposeChord(chord, n + 12) == TransposeChord(chord, n)
  {
    match SplitRoot(chord)
    case None =>
    case Some((root, suffix)) =>
      if KeyIndex(root) >= 0 {
        var i := KeyIndex(root);
        assert (i + (n + 12)) % 12 == (i + n) % 12 by {
          ModPeriod(i + n);
        }
      }
  }

  lemma ModPeriod(a: int)
    ensures (a + 12) % 12 == a % 12
  {
    var q := a / 12;
    assert a + 12 == 12 * (q + 1) + a % 12;
  }

  /** Transposing by `n` and back by `-n` restores the chord with its root
      respelled as offset 0 would. The hypothesis excludes chords such as
      "Bbb", whose text after a two-letter root starts with an accidental
      that would join a one-letter result root on the way back. */
  lemma TransposeChordInverse(chord: string, n: int)
    requires SplitRoot(chord).Some? ==>
               var suffix := SplitRoot(chord).value.1;
               |suffix| == 0 || !IsAccidental(suffix[0])
    ensures TransposeChord(TransposeChord(chord, n), -n) == TransposeChord(chord, 0)
  {
    match SplitRoot(chord)
    case None =>
    case Some((root, suffix)) =>
      if KeyIndex(root) >= 0 {
        KnownRootInverse(chord, root, suffix, n);
      }
  }

  /** Every chord token `transposeHtml` rewrites meets the hypothesis of
      `TransposeChordInverse`: its text after the root never starts with
      an accidental. So transposing a sheet's tokens by n and back by -n
      gives each token as offset 0 spells it. */
  lemma ChordTokenInverse(s: string, p: nat, j: nat, n: int)
    requires p <= |s| && ChordAt(s, p) == Some(j)
    ensures var t := s[p..j];
            && (SplitRoot(t).Some? ==> |SplitRoot(t).value.1| == 0 || !IsAccidental(SplitRoot(t).value.1[0]))
            && TransposeChord(TransposeChord(t, n), -n) == TransposeChord(t, 0)
  {
    TokenShape(s, p, j);
    var t := s[p..j];
    if SplitRoot(t).Some? {
      var suffix := SplitRoot(t).value.1;
      if |t| >= 2 && IsAccidental(t[1]) {
        assert suffix == t[2..];
        if |suffix| > 0 {
          assert suffix[0] == s[p + 2];
        }
      } else if |suffix| > 0 {
        assert suffix == t[1..] && suffix[0] == s[p + 1];
      }
    }
    TransposeChordInverse(t, n);
  }

  lemma KnownRootInverse(chord: string, root: string, suffix: string, n: int)
    requires SplitRoot(chord) == Some((root, suffix)) && KeyIndex(root) >= 0
    requires |suffix| == 0 || !IsAccidental(suffix[0])
    ensures TransposeChord(TransposeChord(chord, n), -n) == TransposeChord(chord, 0)
  {
    var i := KeyIndex(root);
    var k := WrapIndex(i, n);
    SplitRootSpec(chord);
    calc {
      TransposeChord(TransposeChord(chord, n), -n);
      TransposeChord(ScaleName(k) + suffix, -n);
      { TransposeScaleName(k, suffix, -n); WrapBack(i, n); }
      ScaleName(i) + suffix;
      { assert (i + 0) % 12 == i; }
      TransposeChord(chord, 0);
    }
  }

  /** A chord spelled with a table name as its root is shifted along the
      table. */
  lemma TransposeScaleName(k: nat, suffix: string, n: int)
    requires k < 12
    requires !HasLineTerminator(suffix)
    requires |suffix| == 0 || !IsAccidental(suffix[0])
    ensures TransposeChord(ScaleName(k) + suffix, n) == ScaleName(WrapIndex(k, n)) + suffix
  {
    ScalesArePitchClasses(k);
    SplitRootJoin(ScaleName(k), suffix);
  }

  /** Wrapping forward by `n` and back by `-n` returns to the start. */
  lemma WrapBack(i: nat, n: int)
    requires i < 12
    ensures WrapIndex(WrapIndex(i, n), -n) == i
  {
    var q := (i + n) / 12;
    assert (i + n) % 12 == i + n - 12 * q;
    assert (i + n) % 12 - n == i + 12 * (-q);
  }

  /** The worked examples: "Am7" up two is "Bm7", and the bass of a slash
      chord is not shifted. */
  lemma TransposeChordExamples()
    ensures TransposeChord("Am7", 2) == "Bm7"
    ensures TransposeChord("D/F#", 2) == "E/F#"
  {
    SplitRootJoin("A", "m7");
    assert "A" + "m7" == "Am7";
    SplitRootJoin("D", "/F#");
    assert "D" + "/F#" == "D/F#";
  }

  /** A root outside the table ("E#") or outside the grammar ("H") is left
      alone. */
  lemma TransposeChordUnknownExamples()
    ensures TransposeChord("E#", 3) == "E#"
    ensures TransposeChord("Hm", 3) == "Hm"
  {
    SplitRootJoin("E#", "");
    assert "E#" + "" == "E#";
  }

  /** Wrapping at both ends of the scale: B goes up to C and C down to
      B. */
  lemma TransposeChordWrapExamples()
    ensures TransposeChord("B", 1) == "C"
    ensures TransposeChord("C", -1) == "B"
  {
    SplitRootJoin("B", "");
    assert "B" + "" == "B";
    SplitRootJoin("C", "");
    assert "C" + "" == "C";
  }

  /** Accidental roots: "C#" down one is "C", and the flat "Bb" up one is
      "B". */
  lemma TransposeChordAccidentalExamples()
    ensures TransposeChord("C#", -1) == "C"
    ensures TransposeChord("Bb", 1) == "B"
  {
    SplitRootJoin("C#", "");
    assert "C#" + "" == "C#";
    SplitRootJoin("Bb", "");
    assert "Bb" + "" == "Bb";
  }

  /** Transposing a chord token yields a chord-alphabet string again. */
  lemma TransposedTokenInAlphabet(t: string, n: int)
    requires ChordText(t)
    ensures ChordText(TransposeChord(t, n))
  {
    match SplitRoot(t)
    case None =>
    case Some((root, suffix)) =>
      if KeyIndex(root) >= 0 {
        var k := (KeyIndex(root) + n) % 12;
        ScalesArePitchClasses(k);
        var r := ScaleName(k) + suffix;
        forall i | 0 <= i < |r| ensures InChordAlphabet(r[i]) {
          if i >= |ScaleName(k)| {
            assert r[i] == t[|root| + i - |ScaleName(k)|];
          }
        }
      }
  }

  /** The semitone offset `transposeHtml` applies, or `None` when it
      returns its input untouched: a key is empty, the two key strings are
      identical (a raw comparison, so "Bb" against "A#" is not caught here),
      or a key is not a known name. */
  function KeyOffset(originalKey: string, targetKey: string): (r: Option<int>)
    ensures r.None? <==> originalKey == "" || targetKey == "" || originalKey == targetKey
                         || KeyIndex(originalKey) < 0 || KeyIndex(targetKey) < 0
    ensures r.Some? ==> -11 <= r.value <= 11
    ensures r.Some? ==> (KeyIndex(originalKey) + r.value) % 12 == KeyIndex(targetKey)
  {
    if originalKey == "" || targetKey == "" || originalKey == targetKey then None
    else
      var originalIndex := KeyIndex(originalKey);
      var targetIndex := KeyIndex(targetKey);
      if originalIndex == -1 || targetIndex == -1 then None
      else Some(targetIndex - originalIndex)
  }

  /** The offset carries the original key onto the target key. */
  lemma KeyOffsetMovesKey(originalKey: string, targetKey: string)
    requires KeyOffset(originalKey, targetKey).Some?
    ensures TransposeChord(originalKey, KeyOffset(originalKey, targetKey).value)
            == NormalizeNote(targetKey)
  {
    var i := KeyIndex(originalKey);
    var n := KeyOffset(originalKey, targetKey).value;
    KnownKeyIsRoot(originalKey);
    SplitRootJoin(originalKey, "");
    assert originalKey + "" == originalKey;
    assert TransposeChord(originalKey, n) == ScaleName((i + n) % 12) + "";
  }

  /** Where `CHORD_REGEX` matches in `html`, position by position. */
  function ChordTokens(html: string): (at: nat -> Option<nat>)
    ensures Advances(html, at) && TokensAreChordText(html, at)
    ensures forall p: nat :: p <= |html| ==> at(p) == ChordAt(html, p)
  {
    (p: nat) => if p <= |html| then ChordAt(html, p) else None
  }

  /** The callback `transposeHtml` passes to `replace`. */
  function Transposer(semitones: int): string -> string {
    chord => TransposeChord(chord, semitones)
  }

  /** The callback turns chord text into chord text. */
  lemma TransposerSpec(semitones: int)
    ensures forall t :: ChordText(t) ==> ChordText(Transposer(semitones)(t))
  {
    forall t | ChordText(t) ensures ChordText(Transposer(semitones)(t)) {
      TransposedTokenInAlphabet(t, semitones);
    }
  }

  /** `transposeHtml`: the markup is untouched when there is no offset or
      no chord token, and its non-chord characters survive in any case. */
  function TransposeHtml(html: string, originalKey: string, targetKey: string): (r: string)
    ensures KeyOffset(originalKey, targetKey).None? ==> r == html
    ensures MarkupOf(r) == MarkupOf(html)
    ensures (forall p :: 0 <= p <= |html| ==> ChordAt(html, p).None?) ==> r == html
  {
    match KeyOffset(originalKey, targetKey)
    case None => html
    case Some(semitones) =>
      var at := ChordTokens(html);
      var f := Transposer(semitones);
      TransposerSpec(semitones);
      ReplacePreservesMarkup(html, 0, at, f);
      assert html[0..] == html;
      if forall p :: 0 <= p <= |html| ==> ChordAt(html, p).None? then
        ReplaceCopiesUpTo(html, 0, |html|, at, f);
        ReplaceTokens(html, 0, at, f)
      else ReplaceTokens(html, 0, at, f)
  }

  /** With an offset, `transposeHtml` is the replacement of every chord
      token by the callback. */
  lemma TransposeHtmlReplaces(html: string, originalKey: string, targetKey: string)
    requires KeyOffset(originalKey, targetKey).Some?
    ensures TransposeHtml(html, originalKey, targetKey)
            == ReplaceTokens(html, 0, ChordTokens(html), Transposer(KeyOffset(originalKey, targetKey).value))
  {
  }

  /** The first chord token is replaced by its transposition, everything
      before it is kept, and the scan resumes right after it. */
  lemma TransposeHtmlFirstToken(html: string, originalKey: string, targetKey: string, p: nat, j: nat)
    requires KeyOffset(originalKey, targetKey).Some?
    requires p <= |html| && ChordAt(html, p) == Some(j)
    requires forall q :: 0 <= q < p ==> ChordAt(html, q).None?
    ensures var n := KeyOffset(originalKey, targetKey).value;
            TransposeHtml(html, originalKey, targetKey)
            == html[..p] + TransposeChord(html[p..j], n) + ReplaceTokens(html, j, ChordTokens(html), Transposer(n))
  {
    var n := KeyOffset(originalKey, targetKey).value;
    var at, f := ChordTokens(html), Transposer(n);
    TransposeHtmlReplaces(html, originalKey, targetKey);
    ReplaceFirstToken(html, p, j, at, f);
    assert f(html[p..j]) == TransposeChord(html[p..j], n);
  }

  /** The root a match starts with: `/^[A-G][b#]?/` on the token. */
  function RootOf(token: string): (r: string)
    requires |token| > 0 && IsLetter(token[0])
    ensures IsRootSpelling(r) && |r| <= |token| && r == token[..|r|]
    ensures |r| == 1 ==> |token| == 1 || !IsAccidental(token[1])
  {
    if |token| >= 2 && IsAccidental(token[1]) then token[..2] else token[..1]
  }

  /** `detectKey`: the normalised root of the first chord token, or "C"
      when the markup has none. */
  function DetectKey(html: string): (r: string)
    ensures IsRootSpelling(r)
    ensures FirstChord(html).None? ==> r == "C"
  {
    match FirstChord(html)
    case None => "C"
    case Some((p, j)) =>
      var root := RootOf(html[p..j]);
      NormalizeKeepsSpelling(root);
      NormalizeNote(root)
  }

  /** `detectKey` reads exactly the token the rewrite transposes first. */
  lemma DetectKeyReadsFirstToken(html: string, p: nat, j: nat)
    requires p <= |html| && ChordAt(html, p) == Some(j)
    requires forall q :: 0 <= q < p ==> ChordAt(html, q).None?
    ensures DetectKey(html) == NormalizeNote(RootOf(html[p..j]))
  {
    var f := FirstChord(html);
    assert f.Some? && f.value.0 == p;
  }
}

=== FILE: wrappers.dfy ===
/** The optional value used wherever the source returns `null`, `undefined`
    or "no match". */
module Wrappers {

  datatype Option<+T> = None | Some(value: T) {

    /** Returns the wrapped value, or `default` when there is none. */
    function GetOr(default: T): T {
      match this
      case Some(v) => v
      case None => default
    }
  }
}
